=== FILE: README.md ===
# Meeting transcriber — a Dafny model

This project models the core of the BizBrain OS meeting transcriber and proves
properties of it. The transcriber is a background daemon. It polls the running
processes for a meeting application and records the system audio in five-minute
WAV chunks while a meeting lasts. When the meeting ends it transcribes the chunks
into one session timeline and optionally labels each segment with its dominant
speaker. It then writes a markdown transcript, a JSON metadata sidecar and an
intake summary into the "brain" folder, and deletes session audio older than a
week. Alongside it sits the session-context renderer
(`scripts/generate-context.js`), which turns a brain folder's configuration, to-do
list and project folders into the text injected at the start of a session.

Each source file has one Dafny module, next to three shared ones:

| Dafny file | module | models |
|---|---|---|
| `base.dfy` | `Base` | `Option` and `Result`, the absent value and the raised exception |
| `text.dfy` | `Text` | `str.strip`, `str.split`, `join`, lower-casing, zero padding, code-point string order, sorting |
| `json.dfy` | `Json` | JSON values as Python's `json` module produces them, and `dict.get` |
| `models.dfy` | `Models` | `models.py`: `MeetingInfo.slug`, `duration_minutes`, `to_dict`, `DaemonStatus.save`/`load` |
| `transcriber.dfy` | `Transcriber` | `transcriber.py`: model-size validation, `transcribe`'s text filter, `transcribe_chunks`' stitching, `_get_wav_duration` |
| `diarizer.dfy` | `Diarizer` | `diarizer.py`: `diarize_and_merge` and `_find_dominant_speaker` |
| `formatter.dfy` | `Formatter` | `formatter.py`: `format_timestamp`, the markdown transcript, the metadata sidecar, the intake summary, `save_transcript`'s paths |
| `recorder.dfy` | `Recorder` | `recorder.py`: `start`/`stop`/`chunks`, chunk naming, the frame loop, downmix and resample, loopback-device choice |
| `detector.dfy` | `Detector` | `detector.py`: `detect_meeting`'s first-match search over `MEETING_PATTERNS` |
| `daemon.dfy` | `Daemon` | `daemon.py`: the main loop as a step function, the meeting transitions, the PID guard, shutdown, retention cleanup and the status merge |
| `cli.dfy` | `Cli` | `cli.py`: `cmd_daemon`'s flag scan, `cmd_transcribe`, `main`'s dispatch |
| `context.dfy` | `Context` | `scripts/generate-context.js`: the whole line-building script over JavaScript values |

The model is functional. The daemon is a state (`Daemon.Daemon`) and one pass of
`_main_loop` is `Daemon.Tick`. A pass takes what the world shows at that moment
(`Daemon.Env`): the detector's answer, the clock, the chunks the capture thread
appended, the WAV files on disk, the speaker timeline and the audio folder. It
returns the next state and the ordered trace of effects (`Daemon.Effect`): recorder
started and stopped, chunks transcribed, diarization run, transcript saved, audio
removed, status written, PID file removed, exception raised. An exception inside a
pass ends the trace with `Raised` and keeps the mutations made before it, as the
loop's `except Exception` does. Times are exact reals. Files are maps from paths to
contents. The regex engine, the window-title lookup, the speech model and the
diarization pipeline are function-typed parameters or inputs.

Two places where the code decides what a plain reading would not:

- The status file is loaded before every write. A file holding valid JSON that is
  not an object makes `DaemonStatus.load` raise `AttributeError`, which it does not
  catch. `Models.LoadStatus` returns `Err` there, and every later pass raises again.
- Chunks are stitched in the order of their path strings, as `sorted(chunk_paths)`
  orders them (all chunks share one directory, so this is the order of their names).
  The names are zero-padded to four digits, so this is recording order for the first
  10000 chunks of a session (`Recorder.RecordLoopSorted`). Chunk 10000 gets a
  five-digit name that sorts before chunk 9999 (`Recorder.ChunkOrderBreaksAt10000`);
  at 300 seconds a chunk that is about 35 days of recording.

## Model

| member | source | states |
|---|---|---|
| `Models.Sanitize` | tools/meeting-transcriber/meeting_transcriber/models.py:27-28 | the sanitised title holds only lower-case ASCII letters, digits and `-`, and is no longer than the title; its content is fixed by `Models.SanitizeAppend` and `Models.SanitizeChar` |
| `Models.SanitizeAppend` | tools/meeting-transcriber/meeting_transcriber/models.py:27-28 | the sanitiser works character by character: sanitising a concatenation concatenates the sanitised parts |
| `Models.SanitizeChar` | tools/meeting-transcriber/meeting_transcriber/models.py:27-28 | a space becomes `-`, an ASCII letter or digit is kept lower-cased, `-` is kept, and every other character is dropped |
| `Models.Slug` | tools/meeting-transcriber/meeting_transcriber/models.py:24-29 | an empty sanitised title gives the platform name unchanged; otherwise the slug is the first min(60, length) characters of the sanitised title |
| `Models.SanitizeFixedPoint` | tools/meeting-transcriber/meeting_transcriber/models.py:27-28 | text that is already lower-case slug characters passes through the sanitiser unchanged |
| `Models.KeepSlugCharsFixed` | tools/meeting-transcriber/meeting_transcriber/models.py:28 | the character filter keeps a text made only of slug characters whole |
| `Models.SlugIdempotent` | tools/meeting-transcriber/meeting_transcriber/models.py:24-29 | retitling a meeting with its own slug leaves the slug the same |
| `Models.DurationMinutes` | tools/meeting-transcriber/meeting_transcriber/models.py:31-34 | minutes times 60 is the end minus the start in seconds, the end being `ended_at` or else the current time |
| `Models.DurationOfEndedMeeting` | tools/meeting-transcriber/meeting_transcriber/models.py:31-34 | an ended meeting's duration does not depend on the clock and is non-negative when it ended after it started |
| `Models.MeetingToDict` | tools/meeting-transcriber/meeting_transcriber/models.py:36-42 | the dictionary has exactly the dataclass's keys; `ended_at` and `transcript_path` are null exactly when unset; the chunks read back as the same list of strings |
| `Models.SaveStatus` | tools/meeting-transcriber/meeting_transcriber/models.py:80-93 | the saved document holds the seven scalar fields, and `current_meeting` only when a meeting is set |
| `Models.LoadStatus` | tools/meeting-transcriber/meeting_transcriber/models.py:95-111 | a missing or unparsable file gives the default record; a parsed non-object raises; otherwise each field is the stored value or its default; the meeting is never read back |
| `Models.SaveLoadRoundTrip` | tools/meeting-transcriber/meeting_transcriber/models.py:80-111 | loading what was saved gives back every field except `current_meeting`, which comes back empty |
| `Json.StrListRoundTrip` | tools/meeting-transcriber/meeting_transcriber/models.py:40 | a list of paths written as JSON strings reads back as the same list |
| `Transcriber.NewTranscriber` | tools/meeting-transcriber/meeting_transcriber/transcriber.py:11-27 | construction succeeds exactly for the five names of `MODEL_SIZES`, and the default model is one of them |
| `Transcriber.WavDuration` | tools/meeting-transcriber/meeting_transcriber/transcriber.py:111-115 | the duration is frames divided by frame rate, and is non-negative |
| `Transcriber.Transcribe` | tools/meeting-transcriber/meeting_transcriber/transcriber.py:41-75 | one output segment per input segment whose stripped text is non-empty, in input order, each being that segment with its text stripped and the detected language attached |
| `Transcriber.SpokenOnly` | tools/meeting-transcriber/meeting_transcriber/transcriber.py:63-66 | the kept segments are exactly the input segments whose stripped text is non-empty |
| `Transcriber.TranscribeIsCleanedSpoken` | tools/meeting-transcriber/meeting_transcriber/transcriber.py:62-75 | the loop's result equals filtering out the blank segments and then cleaning each remaining one |
| `Transcriber.TranscribeKeepsSpokenSegments` | tools/meeting-transcriber/meeting_transcriber/transcriber.py:62-73 | when no segment is blank, every segment survives in order with its text stripped |
| `Transcriber.Shift` | tools/meeting-transcriber/meeting_transcriber/transcriber.py:98-105 | shifting moves start and end by the offset and keeps text, language and probability |
| `Transcriber.Prepare` | tools/meeting-transcriber/meeting_transcriber/transcriber.py:91-96 | every chunk on disk is measured and transcribed, and no other path is |
| `Transcriber.Stitch` | tools/meeting-transcriber/meeting_transcriber/transcriber.py:87-109 | the timeline has as many segments as the existing chunks produce together, so an empty chunk list gives an empty timeline |
| `Transcriber.AppendShifted` | tools/meeting-transcriber/meeting_transcriber/transcriber.py:98-105 | the inner loop appends the chunk's segments shifted by the current offset |
| `Transcriber.TranscribeChunks` | tools/meeting-transcriber/meeting_transcriber/transcriber.py:77-109 | the loop over the sorted paths builds exactly the stitched timeline of the prepared chunks |
| `Transcriber.StitchPrefix` | tools/meeting-transcriber/meeting_transcriber/transcriber.py:90-107 | stitching a prefix of the paths gives a prefix of the timeline: later chunks only append |
| `Transcriber.StitchPlacesChunk` | tools/meeting-transcriber/meeting_transcriber/transcriber.py:98-107 | the j-th segment of an existing chunk appears after the earlier chunks' segments, shifted by the audio duration of the existing chunks before it |
| `Transcriber.StitchIgnoresMissing` | tools/meeting-transcriber/meeting_transcriber/transcriber.py:91-92 | dropping the missing paths changes neither the timeline nor the total offset |
| `Transcriber.SilentChunkAdvancesOffset` | tools/meeting-transcriber/meeting_transcriber/transcriber.py:95-107 | a chunk with no speech adds no segment but still advances the offset by its duration |
| `Transcriber.StitchMonotone` | tools/meeting-transcriber/meeting_transcriber/transcriber.py:98-107 | when each chunk's segments are ordered and lie within the chunk, the stitched start times never decrease and stay within the total duration |
| `Diarizer.NewDiarizer` | tools/meeting-transcriber/meeting_transcriber/diarizer.py:28-35 | the diarizer can be built exactly when the diarization library is available, and keeps the token |
| `Diarizer.Overlap` | tools/meeting-transcriber/meeting_transcriber/diarizer.py:86-89 | a counted overlap is positive and no longer than either interval |
| `Diarizer.TotalPositive` | tools/meeting-transcriber/meeting_transcriber/diarizer.py:84-89 | a speaker's summed overlap is never negative, and is positive exactly when one of their turns overlaps the segment |
| `Diarizer.AccumulateInvariant` | tools/meeting-transcriber/meeting_transcriber/diarizer.py:84-89 | the overlap table lists each overlapping speaker once, in order of first overlap, with the sum of that speaker's overlaps |
| `Diarizer.ArgMax` | tools/meeting-transcriber/meeting_transcriber/diarizer.py:93 | the chosen key has the largest total, and every earlier key has a strictly smaller one |
| `Diarizer.DominantSpeaker` | tools/meeting-transcriber/meeting_transcriber/diarizer.py:77-93 | no overlapping turn gives "Unknown"; otherwise a speaker with maximal total overlap, the first seen in timeline order among ties |
| `Diarizer.DominantSpeakerFacts` | tools/meeting-transcriber/meeting_transcriber/diarizer.py:91-93 | the table is empty exactly when no turn overlaps, and its argmax is a maximal speaker that wins ties by first appearance |
| `Diarizer.UnknownIffNoOverlap` | tools/meeting-transcriber/meeting_transcriber/diarizer.py:84-92 | when no turn is labelled "Unknown", the answer is "Unknown" exactly when no turn overlaps |
| `Diarizer.NonOverlappingTurnIgnored` | tools/meeting-transcriber/meeting_transcriber/diarizer.py:86-89 | a touching or disjoint turn changes neither the table nor the answer |
| `Diarizer.TurnsOfOneSpeakerAdd` | tools/meeting-transcriber/meeting_transcriber/diarizer.py:89 | another overlapping turn adds its overlap to its own speaker's total and leaves every other speaker's total alone |
| `Diarizer.DiarizeAndMerge` | tools/meeting-transcriber/meeting_transcriber/diarizer.py:64-75 | one output per segment, in order, with start, end, text and language copied, and each speaker the dominant speaker of its segment's interval: no overlapping turn's speaker has a larger total overlap |
| `Formatter.SplitSeconds` | tools/meeting-transcriber/meeting_transcriber/formatter.py:14-16 | hours, minutes and seconds recombine to the floor of the time; minutes and seconds are below 60; the hour field is positive exactly from 3600 seconds on |
| `Formatter.FormatTimestamp` | tools/meeting-transcriber/meeting_transcriber/formatter.py:12-19 | at least five characters, and exactly `MM:SS` for a time under an hour; the fields it carries are stated by `Formatter.TimestampSplits` and `Formatter.TimestampRoundTrip` |
| `Formatter.TimestampSplits` | tools/meeting-transcriber/meeting_transcriber/formatter.py:17-19 | the timestamp splits at its colons into the two-digit fields, three of them exactly when there are hours |
| `Formatter.TimestampRoundTrip` | tools/meeting-transcriber/meeting_transcriber/formatter.py:12-19 | reading a timestamp back gives the whole seconds of a non-negative time (modulo an hour for a negative one), with an hour field exactly from 3600 seconds on |
| `Formatter.RoundHalfEven` | tools/meeting-transcriber/meeting_transcriber/formatter.py:41 | the rounded integer is within one half of the value, and even on a tie |
| `Formatter.RoundHalfEvenUnique` | tools/meeting-transcriber/meeting_transcriber/formatter.py:41 | only one integer meets that description, so the rounding is fully determined |
| `Formatter.RoundHalfEvenOdd` | tools/meeting-transcriber/meeting_transcriber/formatter.py:41 | rounding commutes with negation |
| `Formatter.FormatFixed0` | tools/meeting-transcriber/meeting_transcriber/formatter.py:41 | the `:.0f` rendering reads back as the rounded value, with a minus sign for a negative value |
| `Formatter.RoundTenth` | tools/meeting-transcriber/meeting_transcriber/formatter.py:86 | the result is a multiple of a tenth within a twentieth of the value, and a value exactly halfway between two tenths goes to the one with an even last digit, as `round(x, 1)` does |
| `Formatter.HeaderLines` | tools/meeting-transcriber/meeting_transcriber/formatter.py:31-43 | the title line comes first, and the Ended and Duration lines appear exactly when the meeting has ended |
| `Formatter.Body` | tools/meeting-transcriber/meeting_transcriber/formatter.py:45-57 | a segment gets a speaker header exactly when the first segment has a speaker, it has a speaker, and that speaker differs from the last speaker before it |
| `Formatter.HeaderAt` | tools/meeting-transcriber/meeting_transcriber/formatter.py:48-55 | a segment gets a header exactly when speaker mode is on, it has a speaker, and that speaker differs from the one the loop carries after the earlier segments |
| `Formatter.BodyPrefix` | tools/meeting-transcriber/meeting_transcriber/formatter.py:48-57 | rendering a prefix of the segments gives a prefix of the body |
| `Formatter.HeadersAreRuns` | tools/meeting-transcriber/meeting_transcriber/formatter.py:45-55 | in speaker mode the number of headers is the number of runs of equal consecutive speakers; otherwise it is zero |
| `Formatter.LastSpeakerIsLastOfSpeakers` | tools/meeting-transcriber/meeting_transcriber/formatter.py:52-53 | the remembered speaker is the last entry of the speaker sequence, and none exactly when no segment has a speaker |
| `Formatter.MarkdownLines` | tools/meeting-transcriber/meeting_transcriber/formatter.py:31-61 | the document is the header block followed by one line per segment, one more per speaker header, and the footer |
| `Formatter.FormatTranscriptMarkdown` | tools/meeting-transcriber/meeting_transcriber/formatter.py:22-61 | the document opens with the title line; splitting it at newlines gives the pieces of each transcript line in order (so a speaker header's leading newline shows as an empty piece), and exactly the transcript's lines when no line holds a newline |
| `Text.SplitJoin` | tools/meeting-transcriber/meeting_transcriber/formatter.py:61 | splitting lines joined by a character gives each line's own pieces, one line after the other, whatever the lines hold |
| `Formatter.WordCountAppend` | tools/meeting-transcriber/meeting_transcriber/formatter.py:75 | the word count of two segment lists together is the sum of their counts |
| `Text.WordCountIsStarts` | tools/meeting-transcriber/meeting_transcriber/formatter.py:75 | `split()` yields one word per position where a non-space character follows a space or the start |
| `Formatter.MetaSpeakers` | tools/meeting-transcriber/meeting_transcriber/formatter.py:69-73 | the speaker list is strictly sorted and holds exactly the segments' speakers in speaker mode, and is empty otherwise |
| `Formatter.FormatMetadataJson` | tools/meeting-transcriber/meeting_transcriber/formatter.py:64-96 | the sidecar has the six top-level keys; the transcript block gives the segment count, the word count, the sorted speakers, and `has_diarization` exactly when there are speakers |
| `Formatter.Excerpt` | tools/meeting-transcriber/meeting_transcriber/formatter.py:108-120 | the excerpt is the first min(1000, length) characters of the first 20 texts joined with spaces, and so also a prefix of all the texts joined |
| `Formatter.FormatIntakeSummary` | tools/meeting-transcriber/meeting_transcriber/formatter.py:99-129 | the summary opens with its title line, and when no line holds a newline, its lines read back exactly, the tenth being the opening excerpt and the twelfth the link to the transcript |
| `Formatter.UnderAssoc` | tools/meeting-transcriber/meeting_transcriber/formatter.py:145-160 | joining paths step by step or all at once names the same file |
| `Formatter.SaveTranscript` | tools/meeting-transcriber/meeting_transcriber/formatter.py:132-163 | three files are written: the markdown transcript, whose path is returned and whose content is the formatted transcript, the metadata sidecar with the metadata document, and the intake summary with the formatted summary, each at its directory and name |
| `Formatter.IntakePointsAtTranscript` | tools/meeting-transcriber/meeting_transcriber/formatter.py:122 | the intake summary's link names the file the markdown transcript was written to |
| `Recorder.NewRecorder` | tools/meeting-transcriber/meeting_transcriber/recorder.py:25-31 | a new recorder is idle, has no thread and has no chunks |
| `Recorder.Start` | tools/meeting-transcriber/meeting_transcriber/recorder.py:38-45 | starting an idle recorder starts one thread; starting a recording one changes nothing |
| `Recorder.StartIdempotent` | tools/meeting-transcriber/meeting_transcriber/recorder.py:40-41 | starting twice is starting once, and at most one thread is started |
| `Recorder.Stop` | tools/meeting-transcriber/meeting_transcriber/recorder.py:47-53 | stopping ends recording, drops the thread and returns a copy of the chunk list, which holds the chunks the thread flushed before it was joined |
| `Recorder.CapturedThenStop` | tools/meeting-transcriber/meeting_transcriber/recorder.py:33-53 | chunks read through `chunks` while recording are the start of what `stop` returns |
| `Recorder.StopContract` | tools/meeting-transcriber/meeting_transcriber/recorder.py:47-53 | stopping a never-started recorder returns nothing, and a second stop returns the same list |
| `Recorder.ChunkName` | tools/meeting-transcriber/meeting_transcriber/recorder.py:67 | a chunk name is `chunk_`, then a digit field of at least four characters that reads back as the index, then `.wav` |
| `Recorder.ChunkNameWidth` | tools/meeting-transcriber/meeting_transcriber/recorder.py:67 | the digit field is exactly four wide if and only if the index is below 10000 |
| `Recorder.ChunkPathsOrdered` | tools/meeting-transcriber/meeting_transcriber/recorder.py:67 | for indices i < j below 10000 the path of chunk i sorts strictly before the path of chunk j |
| `Recorder.ChunkOrderBreaksAt10000` | tools/meeting-transcriber/meeting_transcriber/recorder.py:67 | the path of chunk 10000 sorts before the path of chunk 9999 |
| `Recorder.ChunkNameInjective` | tools/meeting-transcriber/meeting_transcriber/recorder.py:67 | different indices give different chunk names |
| `Recorder.RecordLoop` | tools/meeting-transcriber/meeting_transcriber/recorder.py:55-73 | with no loopback device no chunk is recorded; otherwise one path per iteration, index i at position i, appended whether or not audio was written |
| `Recorder.RecordLoopDistinct` | tools/meeting-transcriber/meeting_transcriber/recorder.py:65-71 | the recorded paths are pairwise distinct |
| `Recorder.RecordLoopSorted` | tools/meeting-transcriber/meeting_transcriber/transcriber.py:90 | for at most 10000 recorded chunks the paths are strictly increasing, so `sorted` returns them in recording order |
| `Text.DigitsOrder` | tools/meeting-transcriber/meeting_transcriber/recorder.py:67 | for digit strings of equal length, a smaller number gives a smaller string |
| `Text.SortOfSorted` | tools/meeting-transcriber/meeting_transcriber/transcriber.py:90 | sorting an already ordered list of paths returns it unchanged |
| `Recorder.ReadFrames` | tools/meeting-transcriber/meeting_transcriber/recorder.py:92-100 | the loop reads 512-frame buffers until the target is reached or recording stops, ending below one buffer past the target |
| `Recorder.Downmix` | tools/meeting-transcriber/meeting_transcriber/recorder.py:113-114 | stereo downmix halves the sample count; each sample is the pair's mean truncated toward zero |
| `Recorder.DownmixInRange` | tools/meeting-transcriber/meeting_transcriber/recorder.py:113-114 | downmixing 16-bit samples gives 16-bit samples, so the cast never wraps |
| `Recorder.LinspaceIndices` | tools/meeting-transcriber/meeting_transcriber/recorder.py:118-119 | the resampling indices lie in [0, n-1], start at 0, end at n-1 and never decrease |
| `Recorder.Resample` | tools/meeting-transcriber/meeting_transcriber/recorder.py:117-120 | the output has floor(n * 16000 / rate) samples, each taken from the input |
| `Recorder.ResampleEnds` | tools/meeting-transcriber/meeting_transcriber/recorder.py:117-120 | resampling keeps the first and the last sample |
| `Recorder.ChunkAudio` | tools/meeting-transcriber/meeting_transcriber/recorder.py:105-120 | no buffers means no file is written; at 16 kHz the sample count is buffers times 512, halved by a stereo downmix |
| `Recorder.FirstLoopbackWithPrefix` | tools/meeting-transcriber/meeting_transcriber/recorder.py:141-147 | the first loopback device whose name starts with the prefix, with none before it |
| `Recorder.FindLoopback` | tools/meeting-transcriber/meeting_transcriber/recorder.py:129-155 | no WASAPI host gives none; a bad default index raises; a chosen device is a loopback device of the list; none only when the list has no loopback device |
| `Recorder.FindLoopbackOrder` | tools/meeting-transcriber/meeting_transcriber/recorder.py:140-155 | a loopback device matching the default output's name wins over any other, and the first of each kind is taken |
| `Detector.TryPattern` | tools/meeting-transcriber/meeting_transcriber/detector.py:48-70 | a pattern matches only when the process name matches; a gated pattern also needs a non-empty matching window title and reports it; an ungated one reports the process name as title |
| `Detector.FirstPattern` | tools/meeting-transcriber/meeting_transcriber/detector.py:48-70 | a process yields nothing exactly when no pattern matches it, and otherwise the first matching pattern in table order |
| `Detector.DetectWith` | tools/meeting-transcriber/meeting_transcriber/detector.py:41-72 | the result is none exactly when no process matches, and otherwise the first matching process in iteration order |
| `Detector.DetectMeeting` | tools/meeting-transcriber/meeting_transcriber/detector.py:35-72 | a detection is a live process and a table row whose name pattern matches and whose non-empty window title matches the row's title pattern, reported with that title; nothing is detected exactly when no such pair exists |
| `Detector.GatedDetection` | tools/meeting-transcriber/meeting_transcriber/detector.py:48-70 | for any table whose rows all have title patterns, the same characterisation holds |
| `Detector.VanishedSkipped` | tools/meeting-transcriber/meeting_transcriber/detector.py:42-46 | a process whose information cannot be read is skipped |
| `Detector.TableIsGated` | tools/meeting-transcriber/meeting_transcriber/detector.py:12-22 | every row of the meeting table has a window-title pattern |
| `Detector.NoTitleNoMeeting` | tools/meeting-transcriber/meeting_transcriber/detector.py:12-72 | when no process has a window title, nothing is detected: a process name alone never suffices |
| `Daemon.UpdateStatus` | tools/meeting-transcriber/meeting_transcriber/daemon.py:197-205 | a load failure is passed on; otherwise pid and last check are restamped, keyword arguments overwrite, the recorder's chunk count replaces the stored one, and every other field is kept |
| `Daemon.UpdateKeepsStoredFields` | tools/meeting-transcriber/meeting_transcriber/daemon.py:197-205 | fields the update does not set keep the value the file stored, or their default |
| `Daemon.Finish` | tools/meeting-transcriber/meeting_transcriber/daemon.py:197-205 | a pass ends with one status write that the next load reads back, or with the exception the load raised and no state change |
| `Daemon.CleanupPartition` | tools/meeting-transcriber/meeting_transcriber/daemon.py:190-195 | exactly the directories modified strictly before the cutoff are removed, every other entry stays, and the two lists account for the whole folder |
| `Daemon.CleanupOldAudio` | tools/meeting-transcriber/meeting_transcriber/daemon.py:186-195 | nothing is removed without an audio folder; otherwise exactly the session directories older than seven days are removed |
| `Daemon.RetentionBoundary` | tools/meeting-transcriber/meeting_transcriber/daemon.py:19 | a directory one week and one second old is removed; one exactly a week old is kept |
| `Daemon.OnMeetingStart` | tools/meeting-transcriber/meeting_transcriber/daemon.py:112-130 | a meeting titled by the window title or else the platform, one recorder started in a folder named after the start time, and `meeting_active` written true |
| `Daemon.Diarize` | tools/meeting-transcriber/meeting_transcriber/daemon.py:158-169 | without diarization the segments stay plain; a failed diarization keeps them plain; a successful one labels them with the first chunk's timeline |
| `Daemon.RunPipeline` | tools/meeting-transcriber/meeting_transcriber/daemon.py:152-179 | only the first chunk is diarized; the saved files are those of the stitched (and maybe labelled) segments; the old audio is cleaned |
| `Daemon.PipelineEffects` | tools/meeting-transcriber/meeting_transcriber/daemon.py:152-179 | transcription comes first, diarization if any second, then the save and the cleanup |
| `Daemon.EndWithChunks` | tools/meeting-transcriber/meeting_transcriber/daemon.py:152-184 | after the pipeline the meeting and recorder are dropped and `meeting_active` is written false, with the effects in the fixed order |
| `Daemon.OnMeetingEnd` | tools/meeting-transcriber/meeting_transcriber/daemon.py:132-184 | without a meeting or recorder nothing happens; otherwise the recorder is stopped first; a transcription failure raises right after the stop, and otherwise, unless something else raises, the daemon ends idle with `meeting_active` false |
| `Daemon.EndWithoutChunks` | tools/meeting-transcriber/meeting_transcriber/daemon.py:145-150 | with no chunks nothing is transcribed, diarized or saved, and the daemon goes idle |
| `Daemon.EndRejectsModel` | tools/meeting-transcriber/meeting_transcriber/daemon.py:154 | an invalid model size raises after the recorder stopped, leaving the meeting tracked with its end time and chunks |
| `Daemon.EndRunsPipeline` | tools/meeting-transcriber/meeting_transcriber/daemon.py:137-184 | with chunks and a valid model the pass raises exactly when transcription fails or the status load fails; a transcription failure leaves only the stop and the exception, and otherwise the effects follow the fixed order: stop, transcribe, optional diarize, save, cleanup, status |
| `Daemon.EndRaisesOnTranscription` | tools/meeting-transcriber/meeting_transcriber/daemon.py:152-155 | a transcription failure raises after the recorder stopped, leaving the meeting tracked with its end time and chunks and the stopped recorder holding them |
| `Daemon.TranscriptionFailureStep` | tools/meeting-transcriber/meeting_transcriber/daemon.py:92-110 | while transcription keeps failing a stopped meeting with chunks stays so after any pass, and a pass without a detection raises |
| `Daemon.TranscriptionFailureNeverLeavesMeeting` | tools/meeting-transcriber/meeting_transcriber/daemon.py:92-110 | over any run of passes whose transcription fails, the meeting is never dropped |
| `Daemon.TranscriptionFailureGetsStuck` | tools/meeting-transcriber/meeting_transcriber/daemon.py:132-155 | a meeting with chunks whose transcription fails when it ends reaches that stuck state |
| `Daemon.DiarizationFailureStillSaves` | tools/meeting-transcriber/meeting_transcriber/daemon.py:159-175 | a failed diarization of the first chunk still saves the undiarized transcript |
| `Daemon.Tick` | tools/meeting-transcriber/meeting_transcriber/daemon.py:92-110 | idle with no detection nothing happens; idle with a detection a meeting starts; during a meeting a detection only writes `meeting_active` true, and no detection ends the meeting |
| `Daemon.RunConsistent` | tools/meeting-transcriber/meeting_transcriber/daemon.py:92-110 | over any sequence of passes a meeting is tracked exactly when a recorder is, and the configuration and PID file never change |
| `Daemon.InvalidModelNeverLeavesMeeting` | tools/meeting-transcriber/meeting_transcriber/daemon.py:95-101 | once the end of a meeting has raised on the model size, every later pass raises again and the meeting is never dropped |
| `Daemon.InvalidModelGetsStuck` | tools/meeting-transcriber/meeting_transcriber/daemon.py:132-155 | a meeting with chunks ending under an invalid model size reaches that stuck state |
| `Daemon.ParsePid` | tools/meeting-transcriber/meeting_transcriber/daemon.py:62 | a blank PID file gives no PID; a PID is read exactly when the stripped text is an optional sign and digit groups joined by single underscores; plain digits read as their decimal value |
| `Daemon.ParsePidUnderscores` | tools/meeting-transcriber/meeting_transcriber/daemon.py:62 | `1_234` reads as 1234, as `int` accepts it |
| `Daemon.ParsePidBadUnderscores` | tools/meeting-transcriber/meeting_transcriber/daemon.py:62 | a doubled underscore makes the text unreadable |
| `Text.ParseInt` | tools/meeting-transcriber/meeting_transcriber/daemon.py:62 | the text parses exactly when it is a sign and underscore-separated digit groups; plain digits give their decimal value, and a minus sign negates |
| `Daemon.PidRoundTripNewline` | tools/meeting-transcriber/meeting_transcriber/daemon.py:62-71 | the PID written by `start` reads back as the same number, even with a trailing newline |
| `Daemon.StartDaemon` | tools/meeting-transcriber/meeting_transcriber/daemon.py:54-86 | start refuses exactly when the PID file names a live process and psutil is present; otherwise it writes its own PID, runs idle and writes `running` true |
| `Daemon.SecondStartRefused` | tools/meeting-transcriber/meeting_transcriber/daemon.py:60-66 | a second start while the first daemon lives is refused with the first PID |
| `Daemon.Shutdown` | tools/meeting-transcriber/meeting_transcriber/daemon.py:211-219 | shutdown removes the PID file, ends any meeting and writes `running` and `meeting_active` false; without a meeting nothing is saved |
| `Daemon.ShutdownDuringMeeting` | tools/meeting-transcriber/meeting_transcriber/daemon.py:211-219 | shutdown during a meeting stops the recorder and then runs the full meeting end |
| `Daemon.ShutdownTranscribesCollectedChunks` | tools/meeting-transcriber/meeting_transcriber/daemon.py:211-216 | the recorder is stopped twice and the second stop returns the same chunks, which are then transcribed, or the transcription failure is raised right after that stop |
| `Cli.Defaults` | tools/meeting-transcriber/meeting_transcriber/cli.py:35-38 | model "base", no language, no diarization, and the token from the environment |
| `Cli.ParseDaemonFlags` | tools/meeting-transcriber/meeting_transcriber/cli.py:41-56 | the index-driven loop ends, and computes the front-to-back scan of the tokens |
| `Cli.ScanAppend` | tools/meeting-transcriber/meeting_transcriber/cli.py:41-56 | after a prefix that leaves no flag dangling, the scan carries on from the options it produced |
| `Cli.ValueTakenVerbatim` | tools/meeting-transcriber/meeting_transcriber/cli.py:43-54 | a value flag takes the next token as its value, even when it looks like a flag |
| `Cli.LaterModelOverrides` | tools/meeting-transcriber/meeting_transcriber/cli.py:43-45 | a later `--model` overrides whatever came before |
| `Cli.SkippedTokens` | tools/meeting-transcriber/meeting_transcriber/cli.py:55-56 | a value flag in last position and an unknown token are skipped |
| `Cli.DiarizeFlagWins` | tools/meeting-transcriber/meeting_transcriber/cli.py:49-51 | `--diarize` turns diarization on and nothing later turns it off |
| `Cli.TranscribeModel` | tools/meeting-transcriber/meeting_transcriber/cli.py:81-84 | the model is "base" or the token after a `--model`/`-m` from position 1 on, and no later such flag is ignored |
| `Cli.CliTimestampAgrees` | tools/meeting-transcriber/meeting_transcriber/cli.py:92-95 | for every non-negative time the printed timestamp equals `format_timestamp`'s, and for every negative one it differs |
| `Cli.TranscribeCommand` | tools/meeting-transcriber/meeting_transcriber/cli.py:70-96 | no argument, a missing file or an invalid model exits 1; a transcription failure escapes and exits 1 with its message; otherwise one `[timestamp] text` line per transcribed segment |
| `Cli.CliTimestamp` | tools/meeting-transcriber/meeting_transcriber/cli.py:92-95 | a non-negative time prints as `format_timestamp` would; a negative one prints differently |
| `Cli.Dispatch` | tools/meeting-transcriber/meeting_transcriber/cli.py:205-222 | usage for a short argument list or help, unknown for a name outside the command table, otherwise that command with the remaining arguments |
| `Cli.DispatchTotal` | tools/meeting-transcriber/meeting_transcriber/cli.py:196-222 | every command name reaches its handler; usage exits 0 and an unknown command exits 1 |
| `Context.Lookup` | scripts/generate-context.js:32-33 | a missing key reads as undefined; otherwise the value of the last entry with that key |
| `Context.LookupAppend` | scripts/generate-context.js:73 | in `{ name, ...meta }` a key of the spread object overrides the earlier one |
| `Context.EntitySummary` | scripts/generate-context.js:43-49 | the summary is empty without an index; otherwise its lines are exactly the first 60 lines of the index, so it is the whole index when that is short |
| `Context.Open` | scripts/generate-context.js:57 | the open items are exactly the items that are not completed |
| `Context.OpenAppend` | scripts/generate-context.js:57 | filtering keeps the items' order |
| `Context.ActionItems` | scripts/generate-context.js:52-59 | no file, a malformed file, a `null` document, a non-list `items` or a list holding a null item gives none; otherwise the first min(10, open) items that are not completed, in order |
| `Context.Projects` | scripts/generate-context.js:62-83 | the projects are exactly the listed directories whose name does not start with `_`, in listing order |
| `Context.ProjectName` | scripts/generate-context.js:72-78 | a `name` key in the meta file overrides the folder name, which is kept otherwise |
| `Context.UnknownProjectRow` | scripts/generate-context.js:141-146 | a project without a readable meta file shows as "unknown" with empty stack and repository |
| `Context.ProjectLines` | scripts/generate-context.js:137-148 | no projects gives no section; otherwise the three header lines, one row per project in order, and a blank line |
| `Context.ActionLines` | scripts/generate-context.js:151-157 | no items gives no section; otherwise the header, one line per item in order, and a blank line |
| `Context.ActiveFeatures` | scripts/generate-context.js:86-88 | exactly the truthy features, with underscores shown as spaces |
| `Context.ActiveFeaturesAppend` | scripts/generate-context.js:86-88 | the features keep their key order |
| `Context.ObjectEntriesFacts` | scripts/generate-context.js:32-88 | a parsed object lists each of its keys exactly once, with the value written last |
| `Context.ObjectEntriesLookup` | scripts/generate-context.js:32-88 | reading a key through the listed entries gives the value `Lookup` gives |
| `Context.ObjectEntriesOfDistinct` | scripts/generate-context.js:32-88 | an object without repeated keys is listed as written |
| `Context.DuplicateKeyLastWins` | scripts/generate-context.js:86-88 | `{"a": true, "a": false}` lists `a` once, switched off, so no feature appears |
| `Context.FeatureLines` | scripts/generate-context.js:122-127 | the features section appears exactly when some feature is truthy, and its middle line lists the active features as `- name` lines |
| `Context.Commands` | scripts/generate-context.js:91-110 | the three base commands come first, then exactly the enabled optional commands in the order entity, gsd, hours, content, comms |
| `Context.ActiveBehaviors` | scripts/generate-context.js:167-170 | exactly the behaviours whose value is not "off", one line each |
| `Context.ActiveBehaviorsAppend` | scripts/generate-context.js:167-170 | the lines keep the key order: the lines of a concatenation of entries are those of each part, one after the other |
| `Context.AutoBehaviorLines` | scripts/generate-context.js:166-176 | the section appears exactly when some behaviour is not "off"; its middle line joins the active behaviour lines and a blank line closes it |
| `Context.WatchdogMode` | scripts/generate-context.js:180 | the mode defaults to `auto_update` |
| `Context.WatchdogLines` | scripts/generate-context.js:178-191 | the watchdog section appears only with entity management; `auto_update` gives its three lines and the index path, `ask_first` its one line, any other mode only the header |
| `Context.WatchdogDefaultsToAutoUpdate` | scripts/generate-context.js:179-186 | with no detection setting the watchdog runs in auto-update mode |
| `Context.HeaderLines` | scripts/generate-context.js:113-120 | the title, owner, optional type and industry, and brain lines; the title and owner show the business and user name when set and the defaults otherwise |
| `Context.EntityIndexLines` | scripts/generate-context.js:159-164 | the entity index is shown exactly when there is a summary and entity management is on |
| `Context.StyleLines` | scripts/generate-context.js:193-198 | the style section appears exactly when a communication style is set, and names that style in bold under its header |
| `Context.StatsLines` | scripts/generate-context.js:200-208 | the statistics section appears exactly when a last scan is recorded, and a missing count shows as 0 |
| `Context.StatsLastScan` | scripts/generate-context.js:201-208 | the section names the time of the last scan and ends with a blank line |
| `Context.StatsProjects` | scripts/generate-context.js:204 | the project line shows the cached count when it is truthy and 0 otherwise |
| `Context.StatsEntities` | scripts/generate-context.js:205 | the entity line shows the cached count when it is truthy and 0 otherwise |
| `Context.StatsServices` | scripts/generate-context.js:206 | the service line shows the cached count when it is truthy and 0 otherwise |
| `Context.Generate` | scripts/generate-context.js:9-33 | no brain path prints usage; a missing configuration prints only the fixed not-configured text; a configuration that does not parse, or has no profile, crashes |
| `Context.ContextLinesLayout` | scripts/generate-context.js:112-211 | the output lines open with the header section, then after the feature and command sections come the projects and then the action items, and the statistics close it |
| `Context.SectionsOfFields` | scripts/generate-context.js:112-208 | each section is built from its own source: header from the profile, projects from the project folders, action items from the to-do file, statistics from the scan cache |
| `Context.NotConfiguredIgnoresBrain` | scripts/generate-context.js:15-30 | without a configuration the output is the same whatever else the brain holds |
| `Context.OutputOpensWithTitle` | scripts/generate-context.js:112-114 | a configured brain's output starts with its title line |
| `Context.EntityIndexNeedsFeature` | scripts/generate-context.js:96-191 | with entity management off there is no entity index, no watchdog and no entity command |

## Left out

- Audio capture, WAV writing, the capture thread, its lock and its join timeout: the recorder is a sequential value, and the chunk paths the thread appends are an input (`Env.appended`).
- The speech model and the diarization pipeline are foreign calls: their outputs (`WhisperOutput`, the speaker timeline) are inputs, and so are their failures. A failure of `transcribe_chunks` (the import, the model load, decoding or an unreadable WAV) is `Env.transcribeError` for the daemon and the `failure` argument of `Cli.TranscribeCommand`; it is one per pass, not per chunk, since any of them aborts the whole call.
- Regular-expression matching and the Win32 window-title lookup are function parameters of the detector; `is_meeting_still_active` and `_get_window_title` are not part of this model.
- psutil's liveness check, signals, `time.sleep` and `sys.exit`: liveness and psutil's presence are inputs of `Daemon.StartDaemon`; the loop is a sequence of passes.
- The clock and `strftime`/`isoformat`: a `Stamp` carries the instant and its renderings.
- Files and directories are maps and listings; `mkdir` and write failures are not modelled.
- Floating point: times, durations and means are exact reals and integers. `np.linspace`'s float arithmetic is replaced by the exact floor of i·(n-1)/(num-1), which can differ by one at rounding edges.
- `print` output of the daemon, and `stop()`, which only clears the loop flag (`Daemon.Shutdown` covers the flag cleared).
- `cmd_status`, `cmd_stop`, `cmd_setup` and `find_brain_path`: environment and printing plumbing.
- `__init__.py`, which only holds a version string.
- Nested entries in session directories: `_cleanup_old_audio` calls `unlink` on each entry (daemon.py:193-194), which raises on a subdirectory before `rmdir` is reached. The exception leaves `_on_meeting_end` at daemon.py:179, before the reset at daemon.py:182-183, so every later pass transcribes and saves the same meeting again and fails again. The model's audio store holds flat session directories only, so it does not represent this.
- JavaScript details beyond the data the script reads: non-integer numbers, the order of integer-like keys, and errors from `readFileSync`.
- Formatter.MarkdownLines: states the line count and the header block; the text of each body line is given by `Formatter.Body` and the footer constant, not restated.
- Formatter.FormatTimestamp: its own contract gives only the shape; the field values are stated by `Formatter.TimestampRoundTrip` and `Formatter.TimestampSplits`.
- Context.ProjectLines: a row's text is `ProjectRow`'s rendering; its fields are stated only for a project without metadata (`Context.UnknownProjectRow`).
- Context.ActionLines: each line is `ActionLine`'s rendering of its item, whose `id`/`text`/`description` fallbacks are not stated separately.
- Context.Generate: states the usage, not-configured and crash outcomes; a configured brain's output is described by `Context.OutputOpensWithTitle`, `Context.ContextLinesLayout` and `Context.SectionsOfFields`, which place the header, project, action-item and statistics sections but not the feature, command, entity, behaviour, watchdog and style sections between them.
- Recorder.ChunkAudio: the sample count is stated only for a 16 kHz device.
- Models.Sanitize / Models.Slug: ASCII-only lower()/isalnum(). Python's `str.lower` and `str.isalnum` also act on non-ASCII letters and digits, which the model drops: "Réunion équipe" sanitises to `runion-quipe` here but to `réunion-équipe` in Python, so such a meeting's file names differ.
- Context.ObjectEntriesFacts: states that each key is listed once with its last value; that a repeated key keeps the position of its first occurrence is how `FirstKeys` builds the list, and is stated only for objects without repeats (`Context.ObjectEntriesOfDistinct`) and by the example `Context.DuplicateKeyLastWins`.
- Daemon.ParsePid: `int` also accepts non-ASCII decimal digits (Unicode category Nd, such as Arabic-Indic digits); the model reads only ASCII digits and gives no PID for those.

=== FILE: base.dfy ===
/** Failure-carrying wrappers shared by every module of the model. */
module Base {

  /** A value that may be absent: Python's `None`, JavaScript's `undefined`. */
  datatype Option<+T> = None | Some(value: T) {

    /** The wrapped value, or `default` when absent (Python's `x or default` on non-empty values). */
    function GetOr(default: T): T {
      match this
      case Some(v) => v
      case None => default
    }
  }

  /** The outcome of an operation that can raise: `Err` carries the exception's description. */
  datatype Result<+T> = Ok(value: T) | Err(error: string)

  /** Sum of a sequence of reals, folded from the left. */
  function SumReals(xs: seq<real>): real
  {
    if |xs| == 0 then 0.0 else SumReals(xs[..|xs| - 1]) + xs[|xs| - 1]
  }

  /** Sum of a sequence of naturals, folded from the left. */
  function SumNats(xs: seq<nat>): nat
  {
    if |xs| == 0 then 0 else SumNats(xs[..|xs| - 1]) + xs[|xs| - 1]
  }

  function Min(a: int, b: int): int { if a <= b then a else b }

  function Max(a: int, b: int): int { if a >= b then a else b }

  function MinReal(a: real, b: real): real { if a <= b then a else b }

  function MaxReal(a: real, b: real): real { if a >= b then a else b }
}

=== FILE: cli.dfy ===
/** The command-line entry point (`cli.py`): the `daemon` command's flag scan, the
    `transcribe` command's model flag and timestamped output, and `main`'s dispatch. */
module Cli {
  import opened Base
  import opened Text
  import Formatter
  import Transcriber

  // ---------------------------------------------------------------------------
  // cmd_daemon: the flag scan
  // ---------------------------------------------------------------------------

  /** The daemon's options. */
  datatype DaemonFlags = DaemonFlags(model: string, language: Option<string>, diarize: bool, hfToken: Option<string>)

  /** Before the scan: model "base", no language, no diarization, the token from `HF_TOKEN`. */
  function Defaults(hfTokenEnv: Option<string>): (f: DaemonFlags)
    ensures f.model == Transcriber.DefaultModel && f.language.None? && !f.diarize && f.hfToken == hfTokenEnv
  {
    DaemonFlags("base", None, false, hfTokenEnv)
  }

  predicate IsModelFlag(t: string) { t == "--model" || t == "-m" }

  predicate IsLanguageFlag(t: string) { t == "--language" || t == "-l" }

  predicate IsTokenFlag(t: string) { t == "--hf-token" }

  /** The flags that consume the following token. */
  predicate TakesValue(t: string)
  {
    IsModelFlag(t) || IsLanguageFlag(t) || IsTokenFlag(t)
  }

  /** How many tokens the loop consumes at `args[i]`: two for a value flag with a token
      after it, one otherwise. */
  function Width(args: seq<string>, i: nat): (w: nat)
    requires i < |args|
    ensures w == 1 || w == 2
    ensures i + w <= |args|
  {
    if TakesValue(args[i]) && i + 1 < |args| then 2 else 1
  }

  /** The effect of the tokens the loop consumes at `args[i]`. */
  function Apply(args: seq<string>, i: nat, f: DaemonFlags): DaemonFlags
    requires i < |args|
  {
    var t := args[i];
    if IsModelFlag(t) && i + 1 < |args| then f.(model := args[i + 1])
    else if IsLanguageFlag(t) && i + 1 < |args| then f.(language := Some(args[i + 1]))
    else if t == "--diarize" then f.(diarize := true)
    else if IsTokenFlag(t) && i + 1 < |args| then f.(hfToken := Some(args[i + 1]))
    else f
  }

  /** The scan from the front, by recursion on the remaining tokens. */
  function Scan(args: seq<string>, f: DaemonFlags): DaemonFlags
    decreases |args|
  {
    if |args| == 0 then f else Scan(args[Width(args, 0)..], Apply(args, 0, f))
  }

  /** The `while i < len(args)` loop of `cmd_daemon`. The index grows by one or two every
      iteration, so the loop ends. */
  method ParseDaemonFlags(args: seq<string>, hfTokenEnv: Option<string>) returns (f: DaemonFlags)
    ensures f == Scan(args, Defaults(hfTokenEnv))
  {
    f := Defaults(hfTokenEnv);
    var i := 0;
    while i < |args|
      invariant 0 <= i <= |args|
      invariant Scan(args[i..], f) == Scan(args, Defaults(hfTokenEnv))
      decreases |args| - i
    {
      var w := Width(args, i);
      ScanShift(args, i);
      f := Apply(args, i, f);
      i := i + w;
    }
  }

  /** The loop's view at index `i` is the scan of the remaining tokens. */
  lemma ScanShift(args: seq<string>, i: nat)
    requires i < |args|
    ensures Width(args[i..], 0) == Width(args, i)
    ensures forall f :: Apply(args[i..], 0, f) == Apply(args, i, f)
    ensures args[i..][Width(args, i)..] == args[i + Width(args, i)..]
  {
  }

  /** A token list whose scan ends cleanly: no value flag is left dangling at the end. */
  predicate Closed(args: seq<string>)
    decreases |args|
  {
    if |args| == 0 then true
    else if TakesValue(args[0]) && |args| == 1 then false
    else Closed(args[Width(args, 0)..])
  }

  /** After a cleanly ending prefix the scan carries on from the options it produced. */
  lemma {:induction false} ScanAppend(a: seq<string>, b: seq<string>, f: DaemonFlags)
    requires Closed(a)
    ensures Scan(a + b, f) == Scan(b, Scan(a, f))
    decreases |a|
  {
    if |a| > 0 {
      var w := Width(a, 0);
      assert Width(a + b, 0) == w;
      assert Apply(a + b, 0, f) == Apply(a, 0, f);
      assert (a + b)[w..] == a[w..] + b;
      assert Closed(a[w..]);
      ScanAppend(a[w..], b, Apply(a, 0, f));
      assert Scan(a + b, f) == Scan((a + b)[w..], Apply(a + b, 0, f));
      assert Scan(a, f) == Scan(a[w..], Apply(a, 0, f));
    } else {
      assert a + b == b;
    }
  }

  /** A value flag followed by a token takes that token verbatim, even when it looks
      like a flag itself. */
  lemma ValueTakenVerbatim(x: string, rest: seq<string>, f: DaemonFlags)
    ensures Scan(["--model"] + [x] + rest, f) == Scan(rest, f.(model := x))
    ensures Scan(["-l"] + [x] + rest, f) == Scan(rest, f.(language := Some(x)))
    ensures Scan(["--hf-token"] + [x] + rest, f) == Scan(rest, f.(hfToken := Some(x)))
  {
    assert (["--model"] + [x] + rest)[2..] == rest;
    assert (["-l"] + [x] + rest)[2..] == rest;
    assert (["--hf-token"] + [x] + rest)[2..] == rest;
  }

  /** So `--model --diarize` sets the model to "--diarize" and leaves diarization off. */
  lemma FlagLikeValue(hfTokenEnv: Option<string>)
    ensures Scan(["--model", "--diarize"], Defaults(hfTokenEnv)) == Defaults(hfTokenEnv).(model := "--diarize")
  {
    ValueTakenVerbatim("--diarize", [], Defaults(hfTokenEnv));
    assert ["--model", "--diarize"] == ["--model"] + ["--diarize"] + [];
  }

  /** The last occurrence of a flag wins: after any cleanly ending prefix, `--model x`
      sets the model to `x` whatever the prefix set. */
  lemma LaterModelOverrides(a: seq<string>, x: string, f: DaemonFlags)
    requires Closed(a)
    ensures Scan(a + ["--model", x], f).model == x
  {
    ScanAppend(a, ["--model", x], f);
    ValueTakenVerbatim(x, [], Scan(a, f));
    assert ["--model", x] == ["--model"] + [x] + [];
  }

  /** A value flag in last position, and an unknown token anywhere the scan reaches, are
      skipped. */
  lemma SkippedTokens(a: seq<string>, t: string, b: seq<string>, f: DaemonFlags)
    requires Closed(a)
    ensures TakesValue(t) ==> Scan(a + [t], f) == Scan(a, f)
    ensures !TakesValue(t) && t != "--diarize" ==> Scan(a + [t] + b, f) == Scan(a + b, f)
  {
    ScanAppend(a, [t], f);
    assert [t][1..] == [];
    if !TakesValue(t) && t != "--diarize" {
      ScanAppend(a, [t] + b, f);
      ScanAppend(a, b, f);
      assert ([t] + b)[1..] == b;
      assert a + [t] + b == a + ([t] + b);
    }
  }

  /** Once diarization is on, nothing later in the scan turns it off. */
  lemma {:induction false} DiarizeSticky(args: seq<string>, f: DaemonFlags)
    requires f.diarize
    ensures Scan(args, f).diarize
    decreases |args|
  {
    if |args| > 0 {
      DiarizeSticky(args[Width(args, 0)..], Apply(args, 0, f));
    }
  }

  /** `--diarize` reached by the scan turns diarization on for good. */
  lemma DiarizeFlagWins(a: seq<string>, b: seq<string>, f: DaemonFlags)
    requires Closed(a)
    ensures Scan(a + ["--diarize"] + b, f).diarize
  {
    ScanAppend(a, ["--diarize"] + b, f);
    assert (["--diarize"] + b)[1..] == b;
    assert a + ["--diarize"] + b == a + (["--diarize"] + b);
    DiarizeSticky(b, Scan(a, f).(diarize := true));
  }

  // ---------------------------------------------------------------------------
  // cmd_transcribe
  // ---------------------------------------------------------------------------

  /** `cmd_transcribe`'s model: every position from 1 on is looked at (a value does not
      skip the next position), and the last `--model`/`-m` with a token after it wins. */
  function TranscribeModel(args: seq<string>): (m: string)
    ensures m == "base" || exists i :: 1 <= i && i + 1 < |args| && IsModelFlag(args[i]) && args[i + 1] == m
    ensures forall i :: 1 <= i && i + 1 < |args| && IsModelFlag(args[i]) ==>
      exists j :: i <= j && j + 1 < |args| && IsModelFlag(args[j]) && args[j + 1] == m
  {
    LastModelFlag(args, |args|)
  }

  /** The model chosen by the positions before `n`. */
  function LastModelFlag(args: seq<string>, n: nat): (m: string)
    requires n <= |args|
    ensures m == "base" || exists i :: 1 <= i < n && i + 1 < |args| && IsModelFlag(args[i]) && args[i + 1] == m
    ensures forall i :: 1 <= i < n && i + 1 < |args| && IsModelFlag(args[i]) ==>
      exists j :: i <= j < n && j + 1 < |args| && IsModelFlag(args[j]) && args[j + 1] == m
    decreases n
  {
    if n <= 1 then "base"
    else
      var i := n - 1;
      if IsModelFlag(args[i]) && i + 1 < |args| then args[i + 1]
      else LastModelFlag(args, n - 1)
  }

  /** The timestamp `cmd_transcribe` prints: the same split as `format_timestamp`, but
      the hour field is shown whenever the hour count is non-zero (`if h`), negative
      counts included. */
  function CliTimestamp(sec: real): (r: string)
    ensures sec >= 0.0 ==> r == Formatter.FormatTimestamp(sec)
    ensures sec < 0.0 ==> |r| >= 8 && r != Formatter.FormatTimestamp(sec)
  {
    var c := Formatter.SplitSeconds(sec);
    Formatter.TwoDigits(c.m);
    Formatter.TwoDigits(c.s);
    if c.h != 0 then FormatInt(c.h, 2) + ":" + ZeroPad(c.m, 2) + ":" + ZeroPad(c.s, 2)
    else ZeroPad(c.m, 2) + ":" + ZeroPad(c.s, 2)
  }

  /** For every non-negative time the command prints what the formatter writes; for a
      negative time the two disagree. */
  lemma CliTimestampAgrees(sec: real)
    ensures sec >= 0.0 ==> CliTimestamp(sec) == Formatter.FormatTimestamp(sec)
    ensures sec < 0.0 ==> CliTimestamp(sec) != Formatter.FormatTimestamp(sec)
  {
    var c := Formatter.SplitSeconds(sec);
    if sec < 0.0 {
      assert c.h < 0;
      Formatter.TwoDigits(c.m);
      Formatter.TwoDigits(c.s);
      assert |CliTimestamp(sec)| >= 8;
      assert |Formatter.FormatTimestamp(sec)| == 5;
    }
  }

  /** What a command leaves behind: its exit code and the lines it printed. */
  datatype Outcome = Outcome(code: nat, lines: seq<string>)

  /** `cmd_transcribe`: usage with exit 1 without arguments, an error with exit 1 for a
      missing file, the constructor's `ValueError` (uncaught, exit 1) for an invalid
      model, otherwise one `[timestamp] text` line per segment. `failure` is the
      exception `transcribe` raises for the file, if any (the speech library fails to
      import, or the model fails to load or to decode the file); it too is uncaught and
      exits 1 before anything is printed. */
  function TranscribeCommand(args: seq<string>, files: map<string, Transcriber.WavChunk>, failure: Option<string>): (r: Outcome)
    ensures |args| == 0 ==> r.code == 1
    ensures |args| > 0 && args[0] !in files ==> r.code == 1
    ensures |args| > 0 && args[0] in files && TranscribeModel(args) !in Transcriber.ModelSizes ==> r.code == 1
    ensures |args| > 0 && args[0] in files && TranscribeModel(args) in Transcriber.ModelSizes && failure.Some? ==>
      r == Outcome(1, [failure.value])
    ensures |args| > 0 && args[0] in files && TranscribeModel(args) in Transcriber.ModelSizes && failure.None? ==>
      && r.code == 0
      && |r.lines| == |Transcriber.Transcribe(files[args[0]].whisper)|
      && forall k :: 0 <= k < |r.lines| ==>
           var seg := Transcriber.Transcribe(files[args[0]].whisper)[k];
           r.lines[k] == "[" + CliTimestamp(seg.start) + "] " + seg.text
  {
    if |args| == 0 then Outcome(1, ["Usage: bizbrain-meetings transcribe <audio-file> [--model base]"])
    else if args[0] !in files then Outcome(1, ["Error: File not found: " + args[0]])
    else
      var t := Transcriber.NewTranscriber(TranscribeModel(args), "auto");
      if t.Err? then Outcome(1, [t.error])
      else if failure.Some? then Outcome(1, [failure.value])
      else
        var segs := Transcriber.Transcribe(files[args[0]].whisper);
        Outcome(0, seq(|segs|, k requires 0 <= k < |segs| => "[" + CliTimestamp(segs[k].start) + "] " + segs[k].text))
  }

  // ---------------------------------------------------------------------------
  // main
  // ---------------------------------------------------------------------------

  /** The keys of `COMMANDS`, in insertion order. */
  const CommandNames: seq<string> := ["daemon", "transcribe", "status", "stop", "setup"]

  datatype Dispatched = Usage | Unknown(command: string) | Run(command: string, args: seq<string>)

  /** `main`'s decision on `sys.argv`. */
  function Dispatch(argv: seq<string>): (r: Dispatched)
    ensures r.Usage? <==> |argv| < 2 || argv[1] == "-h" || argv[1] == "--help"
    ensures r.Unknown? <==> !r.Usage? && argv[1] !in CommandNames
    ensures r.Unknown? ==> r.command == argv[1]
    ensures r.Run? ==> r.command == argv[1] && r.command in CommandNames && r.args == argv[2..]
  {
    if |argv| < 2 || argv[1] == "-h" || argv[1] == "--help" then Usage
    else if argv[1] !in CommandNames then Unknown(argv[1])
    else Run(argv[1], argv[2..])
  }

  /** The exit code and text of the two outcomes `main` handles itself. */
  function MainOutcome(r: Dispatched): Option<Outcome>
  {
    match r
    case Usage => Some(Outcome(0, [
      "Usage: bizbrain-meetings <command> [args]",
      "\nCommands:",
      "  daemon      Start the meeting transcription daemon",
      "  transcribe  Transcribe a specific audio file",
      "  status      Show daemon status",
      "  stop        Stop the running daemon",
      "  setup       Check prerequisites and show setup info"]))
    case Unknown(c) => Some(Outcome(1, ["Unknown command: " + c, "Available: " + Join(CommandNames, ", ")]))
    case Run(_, _) => None
  }

  /** Every command name reaches its handler with the arguments after it; help and an
      empty command line print usage and succeed; anything else fails with code 1. */
  lemma DispatchTotal(prog: string, c: string, rest: seq<string>)
    ensures c in CommandNames ==> Dispatch([prog, c] + rest) == Run(c, rest)
    ensures Dispatch([prog]) == Usage && MainOutcome(Usage).value.code == 0
    ensures c !in CommandNames && c != "-h" && c != "--help" ==>
      Dispatch([prog, c] + rest) == Unknown(c) && MainOutcome(Unknown(c)).value.code == 1
  {
    assert ([prog, c] + rest)[1] == c;
    assert ([prog, c] + rest)[2..] == rest;
  }
}

=== FILE: context.dfy ===
/** The session-context renderer (`scripts/generate-context.js`): from a brain folder's
    configuration, to-do list, project folders and entity index to the markdown text it
    prints for the start of a session. JSON documents are seen as JavaScript sees them:
    objects keep their key order, a missing property reads as `undefined`, and `if`, `||`
    and `filter` test truthiness. */
module Context {
  import opened Base
  import opened Text

  // ---------------------------------------------------------------------------
  // JavaScript values
  // ---------------------------------------------------------------------------

  /** A parsed JSON document as JavaScript holds it. `Obj` lists its entries in key order. */
  datatype Js =
    | Undefined
    | Null
    | Bool(b: bool)
    | Num(n: int)
    | Str(s: string)
    | Arr(items: seq<Js>)
    | Obj(entries: seq<(string, Js)>)

  /** `undefined`, `null`, `false`, `0` and `""` are falsy; everything else is truthy. */
  predicate Truthy(v: Js)
  {
    match v
    case Undefined => false
    case Null => false
    case Bool(b) => b
    case Num(n) => n != 0
    case Str(s) => s != ""
    case Arr(_) => true
    case Obj(_) => true
  }

  /** `null` and `undefined`: the values whose properties cannot be read. */
  predicate Nullish(v: Js) { v.Null? || v.Undefined? }

  /** `a || b`. */
  function Or(a: Js, b: Js): Js { if Truthy(a) then a else b }

  predicate HasKey(entries: seq<(string, Js)>, key: string)
  {
    exists i :: 0 <= i < |entries| && entries[i].0 == key
  }

  /** The value of `key` in an object's entries: the last entry with that key wins, as in
      `JSON.parse` and in an object literal; `undefined` when there is none. */
  function Lookup(entries: seq<(string, Js)>, key: string): (v: Js)
    ensures !HasKey(entries, key) ==> v == Undefined
    ensures HasKey(entries, key) ==>
      (exists i :: 0 <= i < |entries| && entries[i] == (key, v) &&
         forall j :: i < j < |entries| ==> entries[j].0 != key)
    decreases |entries|
  {
    if |entries| == 0 then Undefined
    else if entries[|entries| - 1].0 == key then
      entries[|entries| - 1].1
    else
      var init := entries[..|entries| - 1];
      assert HasKey(entries, key) ==> HasKey(init, key) by {
        if HasKey(entries, key) {
          var i :| 0 <= i < |entries| && entries[i].0 == key;
          assert init[i].0 == key;
        }
      }
      Lookup(init, key)
  }

  /** Entries written after others override them. */
  lemma {:induction false} LookupAppend(a: seq<(string, Js)>, b: seq<(string, Js)>, key: string)
    ensures Lookup(a + b, key) == (if HasKey(b, key) then Lookup(b, key) else Lookup(a, key))
    decreases |b|
  {
    if |b| == 0 {
      assert a + b == a;
    } else {
      var ab := a + b;
      assert ab[..|ab| - 1] == a + b[..|b| - 1];
      if b[|b| - 1].0 != key {
        LookupAppend(a, b[..|b| - 1], key);
        assert HasKey(b, key) <==> HasKey(b[..|b| - 1], key) by {
          if HasKey(b, key) {
            var i :| 0 <= i < |b| && b[i].0 == key;
            assert b[..|b| - 1][i].0 == key;
          }
          if HasKey(b[..|b| - 1], key) {
            var i :| 0 <= i < |b| - 1 && b[..|b| - 1][i].0 == key;
            assert b[i].0 == key;
          }
        }
      } else {
        assert HasKey(b, key) by { assert b[|b| - 1].0 == key; }
      }
    }
  }

  /** `v.key` on a value that is not `null` or `undefined`, and `v?.key` on any value.
      Only objects have the properties the renderer reads. */
  function Get(v: Js, key: string): Js
  {
    if v.Obj? then Lookup(v.entries, key) else Undefined
  }

  /** The keys of `es` not in `seen`, each once, in the order of their first occurrence. */
  function FirstKeys(es: seq<(string, Js)>, seen: set<string>): (ks: seq<string>)
    ensures forall k :: k in ks <==> k !in seen && HasKey(es, k)
    ensures forall i, j :: 0 <= i < j < |ks| ==> ks[i] != ks[j]
    decreases |es|
  {
    if |es| == 0 then []
    else
      var rest := FirstKeys(es[1..], seen + {es[0].0});
      assert forall k :: HasKey(es, k) <==> k == es[0].0 || HasKey(es[1..], k) by {
        forall k ensures HasKey(es, k) <==> k == es[0].0 || HasKey(es[1..], k) {
          if HasKey(es, k) && k != es[0].0 {
            var i :| 0 <= i < |es| && es[i].0 == k;
            assert es[1..][i - 1].0 == k;
          }
          if HasKey(es[1..], k) {
            var i :| 0 <= i < |es[1..]| && es[1..][i].0 == k;
            assert es[i + 1].0 == k;
          }
          if k == es[0].0 {
            assert es[0].0 == k;
          }
        }
      }
      if es[0].0 in seen then rest else [es[0].0] + rest
  }

  predicate DistinctKeys(es: seq<(string, Js)>)
  {
    forall i, j :: 0 <= i < j < |es| ==> es[i].0 != es[j].0
  }

  /** The own properties of a parsed object: a key written more than once is kept once, at
      its first position, holding the value written last (`JSON.parse` redefines the
      existing property, which keeps its place). */
  function ObjectEntries(es: seq<(string, Js)>): seq<(string, Js)>
  {
    var ks := FirstKeys(es, {});
    seq(|ks|, i requires 0 <= i < |ks| => (ks[i], Lookup(es, ks[i])))
  }

  /** Each key of the object is listed exactly once, with the value `Lookup` reads. */
  lemma ObjectEntriesFacts(es: seq<(string, Js)>)
    ensures DistinctKeys(ObjectEntries(es))
    ensures forall k :: HasKey(ObjectEntries(es), k) <==> HasKey(es, k)
    ensures forall i :: 0 <= i < |ObjectEntries(es)| ==> ObjectEntries(es)[i].1 == Lookup(es, ObjectEntries(es)[i].0)
  {
    var ks := FirstKeys(es, {});
    var r := ObjectEntries(es);
    assert forall k :: HasKey(r, k) <==> k in ks by {
      forall k ensures HasKey(r, k) <==> k in ks {
        if k in ks {
          var i :| 0 <= i < |ks| && ks[i] == k;
          assert r[i].0 == k;
        }
      }
    }
  }

  /** In entries with distinct keys each entry is the one `Lookup` finds. */
  lemma LookupDistinct(es: seq<(string, Js)>, i: nat)
    requires DistinctKeys(es) && i < |es|
    ensures Lookup(es, es[i].0) == es[i].1
  {
    assert HasKey(es, es[i].0);
  }

  /** Reading a key through the deduplicated entries gives the same value as `Lookup`. */
  lemma ObjectEntriesLookup(es: seq<(string, Js)>, key: string)
    ensures Lookup(ObjectEntries(es), key) == Lookup(es, key)
  {
    var r := ObjectEntries(es);
    ObjectEntriesFacts(es);
    if HasKey(r, key) {
      var i :| 0 <= i < |r| && r[i].0 == key;
      LookupDistinct(r, i);
    }
  }

  lemma {:induction false} FirstKeysOfDistinct(es: seq<(string, Js)>, seen: set<string>)
    requires DistinctKeys(es)
    requires forall i :: 0 <= i < |es| ==> es[i].0 !in seen
    ensures FirstKeys(es, seen) == seq(|es|, i requires 0 <= i < |es| => es[i].0)
    decreases |es|
  {
    if |es| > 0 {
      assert DistinctKeys(es[1..]) by {
        forall i, j | 0 <= i < j < |es[1..]| ensures es[1..][i].0 != es[1..][j].0 {
          assert es[1..][i] == es[i + 1] && es[1..][j] == es[j + 1];
        }
      }
      assert forall i :: 0 <= i < |es[1..]| ==> es[1..][i].0 !in seen + {es[0].0} by {
        forall i | 0 <= i < |es[1..]| ensures es[1..][i].0 !in seen + {es[0].0} {
          assert es[1..][i] == es[i + 1];
        }
      }
      FirstKeysOfDistinct(es[1..], seen + {es[0].0});
    }
  }

  /** An object without repeated keys keeps its entries as written. */
  lemma ObjectEntriesOfDistinct(es: seq<(string, Js)>)
    requires DistinctKeys(es)
    ensures ObjectEntries(es) == es
  {
    FirstKeysOfDistinct(es, {});
    var r := ObjectEntries(es);
    forall i | 0 <= i < |es| ensures r[i] == es[i] {
      LookupDistinct(es, i);
    }
  }

  /** `{"a": true, "a": false}` holds `a` once, switched off, so no feature is listed. */
  lemma DuplicateKeyLastWins()
    ensures Entries(Obj([("a", Bool(true)), ("a", Bool(false))])) == [("a", Bool(false))]
    ensures FeatureLines(Obj([("a", Bool(true)), ("a", Bool(false))])) == []
  {
    var es := [("a", Bool(true)), ("a", Bool(false))];
    assert es[1..] == [("a", Bool(false))];
    assert FirstKeys(es[1..], {"a"}) == [] by {
      assert es[1..][1..] == [];
    }
    assert FirstKeys(es, {}) == ["a"];
    assert Lookup(es, "a") == Bool(false);
  }

  /** `Object.entries(v)`; also what `{ ...v }` copies: an array or a string gives its
      indices as keys, other primitives nothing. */
  function Entries(v: Js): (es: seq<(string, Js)>)
    ensures v.Obj? ==> es == ObjectEntries(v.entries)
    ensures v.Arr? ==> |es| == |v.items| && forall i :: 0 <= i < |es| ==> es[i] == (NatToString(i), v.items[i])
    ensures !v.Obj? && !v.Arr? && !v.Str? ==> es == []
  {
    match v
    case Obj(es) => ObjectEntries(es)
    case Arr(xs) => seq(|xs|, i requires 0 <= i < |xs| => (NatToString(i), xs[i]))
    case Str(s) => seq(|s|, i requires 0 <= i < |s| => (NatToString(i), Str([s[i]])))
    case _ => []
  }

  /** `String(v)`, as a template literal `${v}` renders it. */
  function Show(v: Js): string
    decreases v
  {
    match v
    case Undefined => "undefined"
    case Null => "null"
    case Bool(b) => if b then "true" else "false"
    case Num(n) => FormatInt(n, 0)
    case Str(s) => s
    case Arr(xs) =>
      Join(seq(|xs|, i requires 0 <= i < |xs| => if Nullish(xs[i]) then "" else Show(xs[i])), ",")
    case Obj(_) => "[object Object]"
  }

  /** `k.replace(/_/g, ' ')`. */
  function Spaced(k: string): string { ReplaceChar(k, '_', ' ') }

  // ---------------------------------------------------------------------------
  // What the script reads
  // ---------------------------------------------------------------------------

  /** A JSON file: not there, there but not valid JSON, or parsed. */
  datatype JsFile = Absent | Malformed | Loaded(doc: Js)

  /** One entry of the `Projects` folder listing, with its `_meta.json`. */
  datatype DirEntry = DirEntry(name: string, isDir: bool, meta: JsFile)

  /** The files under the brain folder: `config.json`, `Entities/People/ENTITY-INDEX.md`,
      `Operations/todos/aggregated-todos.json` and the `Projects` listing (`None` when
      the folder is absent). */
  datatype Brain = Brain(config: JsFile, entityIndex: Option<string>, todos: JsFile,
                         projects: Option<seq<DirEntry>>)

  /** How the script ends: the usage message with exit code 1, an uncaught exception, or
      the text written to standard output with exit code 0. */
  datatype Outcome = Usage | Crash | Output(text: string)

  // ---------------------------------------------------------------------------
  // The brain that is not configured yet
  // ---------------------------------------------------------------------------

  const NotConfiguredLines: seq<string> := [
    "# BizBrain OS",
    "",
    "Brain not yet configured. Run `/brain setup` to scan your machine and create your knowledge brain.",
    "",
    "## Available Commands",
    "| Command | Description |",
    "|---------|-------------|",
    "| `/brain setup` | First-time setup: scan machine, pick profile, create brain |",
    "| `/brain status` | Show brain status and statistics |"
  ]

  // ---------------------------------------------------------------------------
  // Entity index summary
  // ---------------------------------------------------------------------------

  const SummaryLineLimit: nat := 60

  /** The first 60 lines of the entity index, joined again; "" when there is no index. */
  function EntitySummary(index: Option<string>): (r: string)
    ensures index.None? ==> r == ""
    ensures index.Some? ==> StartsWith(index.value, r)
    ensures |Split(r, '\n')| <= SummaryLineLimit
    ensures index.Some? && |Split(index.value, '\n')| <= SummaryLineLimit ==> r == index.value
    ensures index.Some? ==> Split(r, '\n') == Take(Split(index.value, '\n'), SummaryLineLimit)
  {
    match index
    case None =>
      assert Split("", '\n') == [[]];
      ""
    case Some(content) =>
      var parts := Split(content, '\n');
      var kept := Take(parts, SummaryLineLimit);
      assert forall i :: 0 <= i < |kept| ==> kept[i] == parts[i];
      SplitJoinRoundTrip(kept, '\n');
      JoinPrefix(parts, |kept|, "\n");
      assert parts[..|kept|] == kept;
      assert |parts| <= SummaryLineLimit ==> kept == parts;
      assert Join(parts, "\n") == content;
      Join(kept, "\n")
  }

  // ---------------------------------------------------------------------------
  // Action items
  // ---------------------------------------------------------------------------

  predicate Completed(t: Js) { Truthy(Get(t, "completed")) }

  /** `items.filter(t => !t.completed)`. */
  function Open(items: seq<Js>): (r: seq<Js>)
    ensures |r| <= |items|
    ensures forall t :: t in r ==> t in items && !Completed(t)
    ensures forall t :: t in items && !Completed(t) ==> t in r
    decreases |items|
  {
    if |items| == 0 then []
    else
      var rest := Open(items[1..]);
      assert forall t :: t in items ==> t == items[0] || t in items[1..];
      if Completed(items[0]) then rest else [items[0]] + rest
  }

  /** Filtering keeps the order of the list. */
  lemma {:induction false} OpenAppend(a: seq<Js>, b: seq<Js>)
    ensures Open(a + b) == Open(a) + Open(b)
    decreases |a|
  {
    if |a| == 0 {
      assert a + b == b;
    } else {
      assert (a + b)[1..] == a[1..] + b;
      OpenAppend(a[1..], b);
    }
  }

  const ActionItemLimit: nat := 10

  /** `todos.items || []`. */
  function ItemList(doc: Js): Js
  {
    Or(Get(doc, "items"), Arr([]))
  }

  /** The open to-dos shown: the first ten not completed. A failure while reading them
      (no file, bad JSON, a `null` document or item, an `items` that is not a list) is
      swallowed and leaves none. */
  function ActionItems(todos: JsFile): (r: seq<Js>)
    ensures |r| <= ActionItemLimit
    ensures forall t :: t in r ==> !Completed(t)
    ensures !todos.Loaded? ==> r == []
    ensures todos.Loaded? && (Nullish(todos.doc) || !ItemList(todos.doc).Arr?) ==> r == []
    ensures (todos.Loaded? && ItemList(todos.doc).Arr?
             && exists i :: 0 <= i < |ItemList(todos.doc).items| && Nullish(ItemList(todos.doc).items[i]))
            ==> r == []
    ensures (todos.Loaded? && !Nullish(todos.doc) && ItemList(todos.doc).Arr?
             && forall i :: 0 <= i < |ItemList(todos.doc).items| ==> !Nullish(ItemList(todos.doc).items[i]))
            ==> |r| == Min(ActionItemLimit, |Open(ItemList(todos.doc).items)|) && r == Open(ItemList(todos.doc).items)[..|r|]
    ensures todos.Loaded? && Get(todos.doc, "items").Arr? ==>
      (var items := Get(todos.doc, "items").items;
       (forall t :: t in r ==> t in items) &&
       ((forall i :: 0 <= i < |items| ==> !Nullish(items[i])) ==>
          |r| == Min(ActionItemLimit, |Open(items)|) && r == Open(items)[..|r|]))
  {
    match todos
    case Loaded(doc) =>
      if Nullish(doc) then []
      else
        var items := ItemList(doc);
        if !items.Arr? then []
        else if exists i :: 0 <= i < |items.items| && Nullish(items.items[i]) then []
        else
          var r := Take(Open(items.items), ActionItemLimit);
          assert forall t :: t in r ==> t in Open(items.items);
          r
    case _ => []
  }

  function ActionLine(t: Js): string
  {
    "- [ ] " + Show(Or(Get(t, "id"), Str(""))) + ": "
      + Show(Or(Get(t, "text"), Or(Get(t, "description"), Str(""))))
  }

  // ---------------------------------------------------------------------------
  // Projects
  // ---------------------------------------------------------------------------

  /** The folders listed as projects: directories whose name does not start with `_`. */
  predicate Listed(e: DirEntry) { e.isDir && !StartsWith(e.name, "_") }

  /** `{ name: entry.name, ...meta }` for a parsed meta file, and
      `{ name: entry.name, status: 'unknown' }` otherwise. */
  function ProjectOf(e: DirEntry): Js
  {
    match e.meta
    case Loaded(meta) => Obj([("name", Str(e.name))] + Entries(meta))
    case _ => Obj([("name", Str(e.name)), ("status", Str("unknown"))])
  }

  /** The meta file's own `name` replaces the folder's name; without one the folder's name stays. */
  lemma ProjectName(e: DirEntry)
    ensures e.meta.Loaded? && HasKey(Entries(e.meta.doc), "name") ==>
      Get(ProjectOf(e), "name") == Lookup(Entries(e.meta.doc), "name")
    ensures !(e.meta.Loaded? && HasKey(Entries(e.meta.doc), "name")) ==>
      Get(ProjectOf(e), "name") == Str(e.name)
  {
    var head: seq<(string, Js)> := [("name", Str(e.name))];
    if e.meta.Loaded? {
      LookupAppend(head, Entries(e.meta.doc), "name");
    } else {
      assert [("name", Str(e.name)), ("status", Str("unknown"))] == head + [("status", Str("unknown"))];
      LookupAppend(head, [("status", Str("unknown"))], "name");
    }
  }

  /** `readdirSync` order, keeping only listed folders. */
  function Projects(listing: seq<DirEntry>): (r: seq<Js>)
    ensures |r| <= |listing|
    ensures forall p :: p in r ==> exists e :: e in listing && Listed(e) && p == ProjectOf(e)
    ensures forall e :: e in listing && Listed(e) ==> ProjectOf(e) in r
  {
    ProjectListFacts(listing);
    ProjectList(listing)
  }

  /** The recursion behind `Projects`, kept free of quantified contracts. */
  function ProjectList(listing: seq<DirEntry>): seq<Js>
    decreases |listing|
  {
    if |listing| == 0 then []
    else
      var head := if Listed(listing[0]) then [ProjectOf(listing[0])] else [];
      head + ProjectList(listing[1..])
  }

  lemma ProjectListFacts(listing: seq<DirEntry>)
    ensures |ProjectList(listing)| <= |listing|
    ensures forall p :: p in ProjectList(listing) ==> exists e :: e in listing && Listed(e) && p == ProjectOf(e)
    ensures forall e :: e in listing && Listed(e) ==> ProjectOf(e) in ProjectList(listing)
    decreases |listing|
  {
    if |listing| > 0 {
      ProjectListFacts(listing[1..]);
      assert forall e :: e in listing ==> e == listing[0] || e in listing[1..];
    }
  }

  lemma ProjectsAppend(a: seq<DirEntry>, b: seq<DirEntry>)
    ensures Projects(a + b) == Projects(a) + Projects(b)
  {
    ProjectListAppend(a, b);
  }

  lemma {:induction false} ProjectListAppend(a: seq<DirEntry>, b: seq<DirEntry>)
    ensures ProjectList(a + b) == ProjectList(a) + ProjectList(b)
    decreases |a|
  {
    if |a| == 0 {
      assert a + b == b;
    } else {
      assert (a + b)[1..] == a[1..] + b && (a + b)[0] == a[0];
      ProjectListAppend(a[1..], b);
    }
  }

  function ProjectRow(p: Js): string
  {
    "| " + Show(Get(p, "name")) + " | " + Show(Or(Get(p, "status"), Str("unknown")))
      + " | " + Show(Or(Get(p, "stack"), Str(""))) + " | " + Show(Or(Get(p, "repoPath"), Str(""))) + " |"
  }

  /** A project folder without a readable meta file shows its name, status "unknown"
      and empty stack and repository cells. */
  lemma UnknownProjectRow(e: DirEntry)
    requires !e.meta.Loaded?
    ensures ProjectRow(ProjectOf(e)) == "| " + e.name + " | unknown |  |  |"
  {
    var p := ProjectOf(e);
    var es := [("name", Str(e.name)), ("status", Str("unknown"))];
    assert p == Obj(es);
    assert Get(p, "name") == Str(e.name) by { ProjectName(e); }
    assert Get(p, "status") == Str("unknown") by { assert HasKey(es[1..], "status"); }
    assert Get(p, "stack") == Undefined by { assert !HasKey(es, "stack"); }
    assert Get(p, "repoPath") == Undefined by { assert !HasKey(es, "repoPath"); }
  }

  // ---------------------------------------------------------------------------
  // Features and commands
  // ---------------------------------------------------------------------------

  /** The keys whose value is truthy, in key order, with `_` shown as a space. */
  function ActiveFeatures(entries: seq<(string, Js)>): (r: seq<string>)
    ensures |r| <= |entries|
    ensures forall j :: 0 <= j < |entries| && Truthy(entries[j].1) ==> Spaced(entries[j].0) in r
    ensures forall f :: f in r ==>
      (exists j :: 0 <= j < |entries| && Truthy(entries[j].1) && f == Spaced(entries[j].0))
  {
    FeatureNamesFacts(entries);
    FeatureNames(entries)
  }

  /** The recursion behind `ActiveFeatures`, kept free of quantified contracts. */
  function FeatureNames(entries: seq<(string, Js)>): seq<string>
    decreases |entries|
  {
    if |entries| == 0 then []
    else
      var head := if Truthy(entries[0].1) then [Spaced(entries[0].0)] else [];
      head + FeatureNames(entries[1..])
  }

  lemma FeatureNamesFacts(entries: seq<(string, Js)>)
    ensures |FeatureNames(entries)| <= |entries|
    ensures forall j :: 0 <= j < |entries| && Truthy(entries[j].1) ==> Spaced(entries[j].0) in FeatureNames(entries)
    ensures forall f :: f in FeatureNames(entries) ==>
      (exists j :: 0 <= j < |entries| && Truthy(entries[j].1) && f == Spaced(entries[j].0))
    decreases |entries|
  {
    if |entries| > 0 {
      FeatureNamesFacts(entries[1..]);
      assert forall j :: 1 <= j < |entries| ==> entries[j] == entries[1..][j - 1];
    }
  }

  lemma ActiveFeaturesAppend(a: seq<(string, Js)>, b: seq<(string, Js)>)
    ensures ActiveFeatures(a + b) == ActiveFeatures(a) + ActiveFeatures(b)
  {
    FeatureNamesAppend(a, b);
  }

  lemma {:induction false} FeatureNamesAppend(a: seq<(string, Js)>, b: seq<(string, Js)>)
    ensures FeatureNames(a + b) == FeatureNames(a) + FeatureNames(b)
    decreases |a|
  {
    if |a| == 0 {
      assert a + b == b;
    } else {
      assert (a + b)[1..] == a[1..] + b && (a + b)[0] == a[0];
      FeatureNamesAppend(a[1..], b);
    }
  }

  /** The "Active Features" section: present exactly when some feature is on. */
  function FeatureLines(features: Js): (r: seq<string>)
    ensures r == [] <==> forall j :: 0 <= j < |Entries(features)| ==> !Truthy(Entries(features)[j].1)
    ensures r != [] ==> |r| == 3 && r[0] == "## Active Features" && r[2] == ""
    ensures r != [] ==>
      var a := ActiveFeatures(Entries(features));
      r[1] == Join(seq(|a|, i requires 0 <= i < |a| => "- " + a[i]), "\n")
  {
    var entries := Entries(Or(features, Obj([])));
    assert entries == Entries(features);
    var active := ActiveFeatures(entries);
    assert |active| > 0 ==> active[0] in active;
    FeatureBlock(active)
  }

  /** The section for a list of active feature names: none for an empty list. */
  function FeatureBlock(active: seq<string>): (r: seq<string>)
    ensures active == [] ==> r == []
    ensures active != [] ==> |r| == 3 && r[0] == "## Active Features" && r[2] == ""
    ensures active != [] ==> r[1] == Join(seq(|active|, i requires 0 <= i < |active| => "- " + active[i]), "\n")
  {
    if |active| > 0 then
      ["## Active Features", Join(seq(|active|, i requires 0 <= i < |active| => "- " + active[i]), "\n"), ""]
    else []
  }

  /** The rows the commands table can hold, in table order. */
  datatype Command =
    | BrainCmd | KnowledgeCmd | TodoCmd
    | EntityCmd | GsdCmd | HoursCmd | ContentCmd | CommsCmd
  {
    /** The row's position in the full table. */
    function Rank(): nat
    {
      match this
      case BrainCmd => 0
      case KnowledgeCmd => 1
      case TodoCmd => 2
      case EntityCmd => 3
      case GsdCmd => 4
      case HoursCmd => 5
      case ContentCmd => 6
      case CommsCmd => 7
    }

    function Name(): string
    {
      match this
      case BrainCmd => "`/brain`"
      case KnowledgeCmd => "`/knowledge <topic>`"
      case TodoCmd => "`/todo`"
      case EntityCmd => "`/entity <name>`"
      case GsdCmd => "`/gsd`"
      case HoursCmd => "`/hours`"
      case ContentCmd => "`/content`"
      case CommsCmd => "`/comms`"
    }

    function Description(): string
    {
      match this
      case BrainCmd => "Brain status, scan, configure, profiles"
      case KnowledgeCmd => "Load specific brain knowledge"
      case TodoCmd => "View and manage tasks"
      case EntityCmd => "Look up or add an entity"
      case GsdCmd => "Project management workflow"
      case HoursCmd => "Time tracking summary"
      case ContentCmd => "Content pipeline management"
      case CommsCmd => "Unified communications"
    }
  }

  const BaseCommands: seq<Command> := [BrainCmd, KnowledgeCmd, TodoCmd]

  const OptionalCommands: seq<Command> := [EntityCmd, GsdCmd, HoursCmd, ContentCmd, CommsCmd]

  /** Whether a row is shown: the base rows always, each optional row when its feature is on. */
  predicate Enabled(features: Js, c: Command)
  {
    match c
    case EntityCmd => Truthy(Get(features, "entity_management"))
    case GsdCmd => Truthy(Get(features, "gsd_workflow"))
    case HoursCmd => Truthy(Get(features, "time_tracking"))
    case ContentCmd => Truthy(Get(features, "content_pipeline"))
    case CommsCmd => Truthy(Get(features, "communications"))
    case _ => true
  }

  predicate InTableOrder(cs: seq<Command>)
  {
    forall i, j :: 0 <= i < j < |cs| ==> cs[i].Rank() < cs[j].Rank()
  }

  /** A row placed before rows of higher rank keeps table order. */
  lemma ConsInOrder(x: Command, rest: seq<Command>)
    requires InTableOrder(rest)
    requires forall c :: c in rest ==> x.Rank() < c.Rank()
    ensures InTableOrder([x] + rest)
  {
    var r := [x] + rest;
    forall i, j | 0 <= i < j < |r|
      ensures r[i].Rank() < r[j].Rank()
    {
      assert r[j] == rest[j - 1];
      if i > 0 {
        assert r[i] == rest[i - 1];
      }
    }
  }

  /** The rows of `cs` that `keep` selects, in their order. */
  function KeepRows(cs: seq<Command>, keep: Command -> bool): (r: seq<Command>)
    requires InTableOrder(cs)
    ensures forall c :: c in r <==> c in cs && keep(c)
    ensures InTableOrder(r)
    decreases |cs|
  {
    if |cs| == 0 then []
    else
      var rest := KeepRows(cs[1..], keep);
      assert forall c :: c in cs <==> c == cs[0] || c in cs[1..];
      assert forall c :: c in rest ==> cs[0].Rank() < c.Rank() by {
        forall c | c in rest ensures cs[0].Rank() < c.Rank() {
          var k :| 0 <= k < |cs[1..]| && cs[1..][k] == c;
          assert cs[k + 1] == c;
        }
      }
      if keep(cs[0]) then ConsInOrder(cs[0], rest); [cs[0]] + rest else rest
  }

  /** The base rows followed by a selection of the optional rows keep table order, and
      hold a row exactly when it is a base row or a selected one. */
  lemma BaseThen(opt: seq<Command>, features: Js)
    requires forall c :: c in opt <==> c in OptionalCommands && Enabled(features, c)
    requires InTableOrder(opt)
    ensures (BaseCommands + opt)[..3] == BaseCommands
    ensures forall c :: c in BaseCommands + opt <==> Enabled(features, c)
    ensures InTableOrder(BaseCommands + opt)
  {
    var r := BaseCommands + opt;
    assert r[..3] == BaseCommands;
    forall c
      ensures c in r <==> Enabled(features, c)
    {
      if c.Rank() < 3 {
        assert c in BaseCommands && c !in opt;
      } else {
        assert c in OptionalCommands && c !in BaseCommands;
      }
    }
    forall i, j | 0 <= i < j < |r|
      ensures r[i].Rank() < r[j].Rank()
    {
      if j >= 3 {
        assert r[j] in opt;
      }
    }
  }

  /** The commands table: the three base rows first, then exactly the enabled optional rows,
      every row in table order. */
  function Commands(features: Js): (r: seq<Command>)
    ensures |r| >= 3 && r[..3] == BaseCommands
    ensures forall c :: c in r <==> Enabled(features, c)
    ensures InTableOrder(r)
  {
    var opt := KeepRows(OptionalCommands, c => Enabled(features, c));
    BaseThen(opt, features);
    BaseCommands + opt
  }

  function CommandLines(features: Js): seq<string>
  {
    var cs := Commands(features);
    ["## Commands", "| Command | Description |", "|---------|-------------|"]
      + seq(|cs|, i requires 0 <= i < |cs| => "| " + cs[i].Name() + " | " + cs[i].Description() + " |")
      + [""]
  }

  // ---------------------------------------------------------------------------
  // Auto-behaviors and the entity watchdog
  // ---------------------------------------------------------------------------

  function BehaviorLine(key: string, v: Js): string
  {
    "- **" + Spaced(key) + "**: " + Show(v)
  }

  /** One line for every behavior not switched `'off'` (compared strictly), in key order. */
  function ActiveBehaviors(entries: seq<(string, Js)>): (r: seq<string>)
    ensures |r| <= |entries|
    ensures r == [] <==> forall j :: 0 <= j < |entries| ==> entries[j].1 == Str("off")
    ensures forall j :: 0 <= j < |entries| && entries[j].1 != Str("off") ==> BehaviorLine(entries[j].0, entries[j].1) in r
    ensures forall l :: l in r ==>
      (exists j :: 0 <= j < |entries| && entries[j].1 != Str("off") && l == BehaviorLine(entries[j].0, entries[j].1))
  {
    BehaviorLinesMembers(entries);
    BehaviorLines(entries)
  }

  /** The recursion behind `ActiveBehaviors`, kept free of quantified contracts. */
  function BehaviorLines(entries: seq<(string, Js)>): seq<string>
    decreases |entries|
  {
    if |entries| == 0 then []
    else
      var head := if entries[0].1 != Str("off") then [BehaviorLine(entries[0].0, entries[0].1)] else [];
      head + BehaviorLines(entries[1..])
  }

  lemma BehaviorLinesMembers(entries: seq<(string, Js)>)
    ensures |BehaviorLines(entries)| <= |entries|
    ensures BehaviorLines(entries) == [] <==> forall j :: 0 <= j < |entries| ==> entries[j].1 == Str("off")
    ensures forall j :: 0 <= j < |entries| && entries[j].1 != Str("off") ==>
      BehaviorLine(entries[j].0, entries[j].1) in BehaviorLines(entries)
    ensures forall l :: l in BehaviorLines(entries) ==>
      (exists j :: 0 <= j < |entries| && entries[j].1 != Str("off") && l == BehaviorLine(entries[j].0, entries[j].1))
    decreases |entries|
  {
    if |entries| > 0 {
      BehaviorLinesMembers(entries[1..]);
      assert forall j :: 1 <= j < |entries| ==> entries[j] == entries[1..][j - 1];
    }
  }

  /** The behaviours keep their key order: the lines of a concatenation are the lines of
      its parts, one after the other. */
  lemma ActiveBehaviorsAppend(a: seq<(string, Js)>, b: seq<(string, Js)>)
    ensures ActiveBehaviors(a + b) == ActiveBehaviors(a) + ActiveBehaviors(b)
  {
    BehaviorLinesAppend(a, b);
  }

  lemma {:induction false} BehaviorLinesAppend(a: seq<(string, Js)>, b: seq<(string, Js)>)
    ensures BehaviorLines(a + b) == BehaviorLines(a) + BehaviorLines(b)
    decreases |a|
  {
    if |a| == 0 {
      assert a + b == b;
    } else {
      assert (a + b)[1..] == a[1..] + b && (a + b)[0] == a[0];
      BehaviorLinesAppend(a[1..], b);
    }
  }

  function AutoBehaviorLines(behaviors: Js): (r: seq<string>)
    ensures r == [] <==> !Truthy(behaviors) || forall j :: 0 <= j < |Entries(behaviors)| ==> Entries(behaviors)[j].1 == Str("off")
    ensures r != [] ==> |r| == 3 && r[0] == "## Active Auto-Behaviors"
    ensures r != [] ==> r[1] == Join(ActiveBehaviors(Entries(behaviors)), "\n") && r[2] == ""
  {
    if Truthy(behaviors) then
      var active := ActiveBehaviors(Entries(behaviors));
      if |active| > 0 then ["## Active Auto-Behaviors", Join(active, "\n"), ""] else []
    else []
  }

  /** `auto_behaviors?.entity_detection || 'auto_update'`. */
  function WatchdogMode(behaviors: Js): (m: Js)
    ensures Truthy(m)
    ensures !Truthy(Get(behaviors, "entity_detection")) ==> m == Str("auto_update")
  {
    Or(Get(behaviors, "entity_detection"), Str("auto_update"))
  }

  const AutoUpdateLines: seq<string> := [
    "**ACTIVE \U{2014} Auto-update mode.** Watch every conversation for entity mentions.",
    "- New info about known entity -> update their brain record, briefly notify user",
    "- Unknown entity mentioned with substance -> ask user before creating"
  ]

  const AskFirstLine: string :=
    "**ACTIVE \U{2014} Ask-first mode.** Detect entity mentions but confirm before updating."

  /** The "Entity Watchdog" section, shown only with entity management on. */
  function WatchdogLines(brainPath: string, features: Js, behaviors: Js): (r: seq<string>)
    ensures !Truthy(Get(features, "entity_management")) ==> r == []
    ensures Truthy(Get(features, "entity_management")) ==>
      |r| >= 2 && r[0] == "## Entity Watchdog" && r[|r| - 1] == ""
    ensures Truthy(Get(features, "entity_management")) && WatchdogMode(behaviors) == Str("auto_update") ==>
      |r| == 6 && r[1..4] == AutoUpdateLines
      && r[4] == "- Entity Index: `" + brainPath + "/Entities/People/ENTITY-INDEX.md`"
    ensures Truthy(Get(features, "entity_management")) && WatchdogMode(behaviors) == Str("ask_first") ==>
      r == ["## Entity Watchdog", AskFirstLine, ""]
    ensures (Truthy(Get(features, "entity_management")) && WatchdogMode(behaviors) != Str("auto_update")
             && WatchdogMode(behaviors) != Str("ask_first")) ==> r == ["## Entity Watchdog", ""]
  {
    if Truthy(Get(features, "entity_management")) then
      var mode := WatchdogMode(behaviors);
      var body :=
        if mode == Str("auto_update") then
          AutoUpdateLines + ["- Entity Index: `" + brainPath + "/Entities/People/ENTITY-INDEX.md`"]
        else if mode == Str("ask_first") then [AskFirstLine]
        else [];
      ["## Entity Watchdog"] + body + [""]
    else []
  }

  /** With no detection mode configured, the watchdog runs in auto-update mode. */
  lemma WatchdogDefaultsToAutoUpdate(brainPath: string, features: Js, behaviors: Js)
    requires Truthy(Get(features, "entity_management"))
    requires !Truthy(Get(behaviors, "entity_detection"))
    ensures |WatchdogLines(brainPath, features, behaviors)| == 6
    ensures WatchdogLines(brainPath, features, behaviors)[1..4] == AutoUpdateLines
  {
  }

  // ---------------------------------------------------------------------------
  // The remaining sections
  // ---------------------------------------------------------------------------

  /** The optional `> Type:` and `> Industry:` lines of the header. */
  function ProfileLines(profile: Js): (r: seq<string>)
    ensures |r| == (if Truthy(Get(profile, "businessType")) then 1 else 0)
                 + (if Truthy(Get(profile, "industry")) then 1 else 0)
  {
    (if Truthy(Get(profile, "businessType")) then ["> Type: " + Show(Get(profile, "businessType"))] else [])
      + (if Truthy(Get(profile, "industry")) then ["> Industry: " + Show(Get(profile, "industry"))] else [])
  }

  /** The title names the business, "My" when it has none. */
  function TitleLine(profile: Js): (t: string)
    ensures !Truthy(Get(profile, "businessName")) ==> t == "# My Brain \U{2014} BizBrain OS"
    ensures Truthy(Get(profile, "businessName")) ==>
      t == "# " + Show(Get(profile, "businessName")) + " Brain \U{2014} BizBrain OS"
  {
    var name := Or(Get(profile, "businessName"), Str("My"));
    assert !Truthy(Get(profile, "businessName")) ==> Show(name) == "My";
    "# " + Show(name) + " Brain \U{2014} BizBrain OS"
  }

  /** The owner line names the user, "Unknown" when there is none. */
  function OwnerLine(profile: Js): (t: string)
    ensures !Truthy(Get(profile, "userName")) ==> t == "> Owner: Unknown"
    ensures Truthy(Get(profile, "userName")) ==> t == "> Owner: " + Show(Get(profile, "userName"))
  {
    var name := Or(Get(profile, "userName"), Str("Unknown"));
    assert !Truthy(Get(profile, "userName")) ==> Show(name) == "Unknown";
    "> Owner: " + Show(name)
  }

  function HeaderLines(brainPath: string, profile: Js): (r: seq<string>)
    ensures 5 <= |r| <= 7 && r[1] == "" && r[|r| - 1] == ""
    ensures r[|r| - 2] == "> Brain: " + brainPath
    ensures !Truthy(Get(profile, "businessName")) ==> r[0] == "# My Brain \U{2014} BizBrain OS"
    ensures !Truthy(Get(profile, "userName")) ==> r[2] == "> Owner: Unknown"
    ensures Truthy(Get(profile, "businessName")) ==>
      r[0] == "# " + Show(Get(profile, "businessName")) + " Brain \U{2014} BizBrain OS"
    ensures Truthy(Get(profile, "userName")) ==> r[2] == "> Owner: " + Show(Get(profile, "userName"))
    ensures |r| == 5 + |ProfileLines(profile)|
  {
    var top := [TitleLine(profile), "", OwnerLine(profile)];
    var extra := ProfileLines(profile);
    var r := top + extra + ["> Brain: " + brainPath, ""];
    assert r[..3] == top;
    r
  }

  function ProjectLines(projects: seq<Js>): (r: seq<string>)
    ensures projects == [] <==> r == []
    ensures projects != [] ==> |r| == |projects| + 4
    ensures projects != [] ==>
      && r[..3] == ["## Active Projects", "| Project | Status | Stack | Repo |", "|---------|--------|-------|------|"]
      && (forall i :: 0 <= i < |projects| ==> r[3 + i] == ProjectRow(projects[i]))
      && r[|r| - 1] == ""
  {
    if |projects| > 0 then
      ["## Active Projects", "| Project | Status | Stack | Repo |", "|---------|--------|-------|------|"]
        + seq(|projects|, i requires 0 <= i < |projects| => ProjectRow(projects[i])) + [""]
    else []
  }

  function ActionLines(items: seq<Js>): (r: seq<string>)
    ensures items == [] <==> r == []
    ensures items != [] ==> |r| == |items| + 2
    ensures items != [] ==>
      && r[0] == "## Open Action Items"
      && (forall i :: 0 <= i < |items| ==> r[1 + i] == ActionLine(items[i]))
      && r[|r| - 1] == ""
  {
    if |items| > 0 then
      ["## Open Action Items"] + seq(|items|, i requires 0 <= i < |items| => ActionLine(items[i])) + [""]
    else []
  }

  /** The "Entity Index" section: a non-empty summary, and entity management on. */
  function EntityIndexLines(summary: string, features: Js): (r: seq<string>)
    ensures r != [] <==> summary != "" && Truthy(Get(features, "entity_management"))
    ensures r != [] ==> r == ["## Entity Index", summary, ""]
  {
    if summary != "" && Truthy(Get(features, "entity_management")) then ["## Entity Index", summary, ""]
    else []
  }

  function StyleLines(preferences: Js): (r: seq<string>)
    ensures r != [] <==> Truthy(Get(preferences, "commStyle"))
    ensures r != [] ==> |r| == 3 && r[0] == "## Communication Style" && r[2] == ""
    ensures r != [] ==> r[1] == "Preferred: **" + Show(Get(preferences, "commStyle")) + "**"
  {
    if Truthy(Get(preferences, "commStyle")) then
      ["## Communication Style", "Preferred: **" + Show(Get(preferences, "commStyle")) + "**", ""]
    else []
  }

  /** A count as `${n || 0}` renders it: the value itself when truthy, `0` otherwise. */
  function CountText(v: Js): (t: string)
    ensures !Truthy(v) ==> t == "0"
    ensures Truthy(v) ==> t == Show(v)
  {
    Show(Or(v, Num(0)))
  }

  /** The "Brain Statistics" section, with missing counts shown as 0. */
  function StatsLines(scanCache: Js): (r: seq<string>)
    ensures r != [] <==> Truthy(Get(scanCache, "lastScanAt"))
    ensures r != [] ==> |r| == 6 && r[0] == "## Brain Statistics"
    ensures r != [] && !Truthy(Get(scanCache, "projectCount")) ==> r[2] == "- Projects: 0"
  {
    assert "- Projects: " + "0" == "- Projects: 0";
    if Truthy(Get(scanCache, "lastScanAt")) then
      StatsBlock(Show(Get(scanCache, "lastScanAt")), CountText(Get(scanCache, "projectCount")),
                 CountText(Get(scanCache, "entityCount")), CountText(Get(scanCache, "serviceCount")))
    else []
  }

  /** The section's six lines for the rendered scan time and counts. */
  function StatsBlock(lastScan: string, projects: string, entities: string, services: string): (r: seq<string>)
    ensures |r| == 6 && r[0] == "## Brain Statistics"
    ensures r[1] == "- Last scan: " + lastScan && r[5] == ""
    ensures r[2] == "- Projects: " + projects
    ensures r[3] == "- Entities: " + entities
    ensures r[4] == "- Services: " + services
  {
    ["## Brain Statistics",
     "- Last scan: " + lastScan,
     "- Projects: " + projects,
     "- Entities: " + entities,
     "- Services: " + services,
     ""]
  }

  /** The section names the time of the last scan and ends with a blank line. */
  lemma StatsLastScan(scanCache: Js)
    requires Truthy(Get(scanCache, "lastScanAt"))
    ensures StatsLines(scanCache)[1] == "- Last scan: " + Show(Get(scanCache, "lastScanAt"))
    ensures StatsLines(scanCache)[5] == ""
  {
    var block := StatsBlock(Show(Get(scanCache, "lastScanAt")), CountText(Get(scanCache, "projectCount")),
                            CountText(Get(scanCache, "entityCount")), CountText(Get(scanCache, "serviceCount")));
    assert StatsLines(scanCache) == block;
  }

  /** The Projects line shows the cached `projectCount` when it is truthy and `0` otherwise. */
  lemma StatsProjects(scanCache: Js)
    requires Truthy(Get(scanCache, "lastScanAt"))
    ensures StatsLines(scanCache)[2]
         == "- Projects: " + (if Truthy(Get(scanCache, "projectCount")) then Show(Get(scanCache, "projectCount")) else "0")
  {
    var block := StatsBlock(Show(Get(scanCache, "lastScanAt")), CountText(Get(scanCache, "projectCount")),
                            CountText(Get(scanCache, "entityCount")), CountText(Get(scanCache, "serviceCount")));
    assert StatsLines(scanCache) == block;
  }

  /** The Entities line shows the cached `entityCount` when it is truthy and `0` otherwise. */
  lemma StatsEntities(scanCache: Js)
    requires Truthy(Get(scanCache, "lastScanAt"))
    ensures StatsLines(scanCache)[3]
         == "- Entities: " + (if Truthy(Get(scanCache, "entityCount")) then Show(Get(scanCache, "entityCount")) else "0")
  {
    var block := StatsBlock(Show(Get(scanCache, "lastScanAt")), CountText(Get(scanCache, "projectCount")),
                            CountText(Get(scanCache, "entityCount")), CountText(Get(scanCache, "serviceCount")));
    assert StatsLines(scanCache) == block;
  }

  /** The Services line shows the cached `serviceCount` when it is truthy and `0` otherwise. */
  lemma StatsServices(scanCache: Js)
    requires Truthy(Get(scanCache, "lastScanAt"))
    ensures StatsLines(scanCache)[4]
         == "- Services: " + (if Truthy(Get(scanCache, "serviceCount")) then Show(Get(scanCache, "serviceCount")) else "0")
  {
    var block := StatsBlock(Show(Get(scanCache, "lastScanAt")), CountText(Get(scanCache, "projectCount")),
                            CountText(Get(scanCache, "entityCount")), CountText(Get(scanCache, "serviceCount")));
    assert StatsLines(scanCache) == block;
  }

  // ---------------------------------------------------------------------------
  // The whole script
  // ---------------------------------------------------------------------------

  /** The sections of the context file, each a list of lines, in output order. */
  datatype Sections = Sections(
    head: seq<string>, features: seq<string>, commands: seq<string>, projects: seq<string>,
    actions: seq<string>, entities: seq<string>, behaviors: seq<string>, watchdog: seq<string>,
    style: seq<string>, stats: seq<string>)

  function SectionsOf(brainPath: string, config: Js, b: Brain): Sections
  {
    var features := Get(config, "features");
    var behaviors := Get(config, "auto_behaviors");
    Sections(
      HeaderLines(brainPath, Get(config, "profile")),
      FeatureLines(features),
      CommandLines(features),
      ProjectLines(if b.projects.Some? then Projects(b.projects.value) else []),
      ActionLines(ActionItems(b.todos)),
      EntityIndexLines(EntitySummary(b.entityIndex), features),
      AutoBehaviorLines(behaviors),
      WatchdogLines(brainPath, features, behaviors),
      StyleLines(Get(config, "preferences")),
      StatsLines(Get(config, "scan_cache")))
  }

  /** The sections one after the other, in output order. */
  function Assemble(s: Sections): seq<string>
  {
    s.head + s.features + s.commands + s.projects + s.actions + s.entities + s.behaviors
      + s.watchdog + s.style + s.stats
  }

  /** Where each section sits: the header first, the projects and then the open action
      items after the header, feature and command sections, and the stats last. */
  lemma AssembleLayout(s: Sections)
    ensures var r := Assemble(s);
      var at := |s.head| + |s.features| + |s.commands|;
      && |r| >= at + |s.projects| + |s.actions| + |s.stats|
      && r[..|s.head|] == s.head
      && r[at..at + |s.projects|] == s.projects
      && r[at + |s.projects|..at + |s.projects| + |s.actions|] == s.actions
      && r[|r| - |s.stats|..] == s.stats
  {
    var pre := s.head + s.features + s.commands;
    var r := Assemble(s);
    assert r == pre + s.projects + s.actions + s.entities + s.behaviors + s.watchdog + s.style + s.stats;
    assert r[..|s.head|] == s.head;
    assert r[|pre|..|pre| + |s.projects|] == s.projects;
    assert r[|pre| + |s.projects|..|pre| + |s.projects| + |s.actions|] == s.actions;
    assert r[|r| - |s.stats|..] == s.stats;
  }

  function ContextLines(brainPath: string, config: Js, b: Brain): seq<string>
  {
    Assemble(SectionsOf(brainPath, config, b))
  }

  /** The context file opens with its header, lists the projects and then the open
      action items after the header, feature and command sections, and ends with the
      stats section. */
  lemma ContextLinesLayout(brainPath: string, config: Js, b: Brain)
    ensures var s := SectionsOf(brainPath, config, b);
      var r := ContextLines(brainPath, config, b);
      var at := |s.head| + |s.features| + |s.commands|;
      && |r| >= at + |s.projects| + |s.actions| + |s.stats|
      && r[..|s.head|] == s.head
      && r[at..at + |s.projects|] == s.projects
      && r[at + |s.projects|..at + |s.projects| + |s.actions|] == s.actions
      && r[|r| - |s.stats|..] == s.stats
  {
    AssembleLayout(SectionsOf(brainPath, config, b));
  }

  /** What each section holds. */
  lemma SectionsOfFields(brainPath: string, config: Js, b: Brain)
    ensures SectionsOf(brainPath, config, b).head == HeaderLines(brainPath, Get(config, "profile"))
    ensures SectionsOf(brainPath, config, b).features == FeatureLines(Get(config, "features"))
    ensures SectionsOf(brainPath, config, b).commands == CommandLines(Get(config, "features"))
    ensures SectionsOf(brainPath, config, b).projects
         == ProjectLines(if b.projects.Some? then Projects(b.projects.value) else [])
    ensures SectionsOf(brainPath, config, b).actions == ActionLines(ActionItems(b.todos))
    ensures SectionsOf(brainPath, config, b).stats == StatsLines(Get(config, "scan_cache"))
  {
  }

  /** Reading the configuration raises: the file is not JSON, or it holds `null` (which
      cannot be destructured), or its `profile` is missing or `null`. */
  predicate ConfigRaises(config: JsFile)
  {
    config.Malformed? || (config.Loaded? && (Nullish(config.doc) || Nullish(Get(config.doc, "profile"))))
  }

  /** `node generate-context.js <brainPath>`. An empty or missing path prints the usage
      message; a config file that is not JSON, is `null`, or has no `profile` object
      raises; a missing one prints the fixed setup text. */
  function Generate(brainPath: string, b: Brain): (r: Outcome)
    ensures r.Usage? <==> brainPath == ""
    ensures brainPath != "" && b.config.Absent? ==> r == Output(Join(NotConfiguredLines, "\n"))
    ensures r.Crash? <==> (brainPath != "" && ConfigRaises(b.config))
  {
    if brainPath == "" then Usage
    else
      match b.config
      case Absent => Output(Join(NotConfiguredLines, "\n"))
      case Malformed => Crash
      case Loaded(config) =>
        if Nullish(config) || Nullish(Get(config, "profile")) then Crash
        else Output(Join(ContextLines(brainPath, config, b), "\n"))
  }

  /** Without a config file the output depends on nothing else: not the folder's path,
      not its other files. */
  lemma NotConfiguredIgnoresBrain(p1: string, b1: Brain, p2: string, b2: Brain)
    requires p1 != "" && p2 != ""
    requires b1.config.Absent? && b2.config.Absent?
    ensures Generate(p1, b1) == Generate(p2, b2)
  {
  }

  /** A configured brain's output opens with its title line. */
  lemma OutputOpensWithTitle(brainPath: string, b: Brain)
    requires Generate(brainPath, b).Output? && b.config.Loaded?
    ensures StartsWith(Generate(brainPath, b).text,
                       HeaderLines(brainPath, Get(b.config.doc, "profile"))[0])
  {
    assert Generate(brainPath, b).text == Join(ContextLines(brainPath, b.config.doc, b), "\n");
    ContextOpensWithTitle(brainPath, b.config.doc, b);
  }

  /** The joined context lines start with the header's title line. */
  lemma ContextOpensWithTitle(brainPath: string, config: Js, b: Brain)
    ensures StartsWith(Join(ContextLines(brainPath, config, b), "\n"),
                       HeaderLines(brainPath, Get(config, "profile"))[0])
  {
    var lines := ContextLines(brainPath, config, b);
    var header := HeaderLines(brainPath, Get(config, "profile"));
    assert lines[0] == header[0] by {
      ContextLinesLayout(brainPath, config, b);
      SectionsOfFields(brainPath, config, b);
      assert lines[..|header|] == header;
    }
    JoinStartsWithFirst(lines, "\n");
  }

  /** The entity index shows only with entity management on, whatever the index holds. */
  lemma EntityIndexNeedsFeature(brainPath: string, config: Js, b: Brain)
    requires !Truthy(Get(Get(config, "features"), "entity_management"))
    ensures EntityIndexLines(EntitySummary(b.entityIndex), Get(config, "features")) == []
    ensures WatchdogLines(brainPath, Get(config, "features"), Get(config, "auto_behaviors")) == []
    ensures EntityCmd !in Commands(Get(config, "features"))
  {
  }
}

=== FILE: daemon.dfy ===
/** The daemon (`daemon.py`) as a step function: one pass of the main loop takes the
    daemon's state and what the outside world shows at that moment (the detector's
    answer, the clock, the chunks the capture thread appended, the audio on disk, the
    speaker timeline) and returns the next state together with the trace of effects it
    caused. An exception inside a pass ends the trace with `Raised` and keeps every
    mutation made before it, as the loop's `except Exception` does. */
module Daemon {
  import opened Base
  import opened Text
  import opened Json
  import opened Models
  import opened Detector
  import Recorder
  import Transcriber
  import Diarizer
  import Formatter

  const PollIntervalSec: nat := 5
  const AudioRetentionDays: nat := 7
  const SecondsPerDay: nat := 86400

  /** The constructor's arguments. `language` is passed to the speech model, whose output
      the audio store already stands for. */
  datatype Config = Config(brain: string, modelSize: string, language: Option<string>, diarize: bool, hfToken: Option<string>)

  /** `brain / "Operations" / "meetings" / "_audio"`. */
  function AudioDir(brain: string): string
  {
    Formatter.Under(brain, "Operations/meetings/_audio")
  }

  /** The daemon object: its loop flag, the PID file's text (absent once unlinked), the
      meeting and recorder it tracks, and the status file's content. */
  datatype Daemon = Daemon(
    cfg: Config,
    running: bool,
    pidFile: Option<string>,
    meeting: Option<MeetingInfo>,
    recorder: Option<Recorder.LoopbackRecorder>,
    status: JsonFile)

  /** A meeting is tracked exactly when a recorder is. */
  predicate Consistent(d: Daemon)
  {
    d.meeting.Some? <==> d.recorder.Some?
  }

  /** One entry of the audio folder: its name, whether it is a directory, its
      modification time and the files inside it. */
  datatype AudioEntry = AudioEntry(name: string, isDir: bool, mtime: real, files: seq<string>)

  /** What one pass of the loop observes: `detected` is what `detect_meeting()` returns
      (`Detector.DetectMeeting`), `now` the clock, `pid` the process id, `appended` the
      chunk paths the capture thread appended since the last look, `store` the WAV files
      on disk, `transcribeError` the exception `transcribe_chunks` raises in this pass, if
      any (the speech library fails to import, the model fails to load or to decode a
      chunk, or a chunk is not a readable WAV file), `diarizationAvailable` whether the
      diarization library imported,
      `timeline(path)` the speaker turns found in a file or the exception raised trying,
      and `audio` the audio folder's entries (`None` when the folder does not exist). */
  datatype Env = Env(
    detected: Option<DetectedMeeting>,
    now: Stamp,
    pid: nat,
    appended: seq<string>,
    store: map<string, Transcriber.WavChunk>,
    transcribeError: Option<string>,
    diarizationAvailable: bool,
    timeline: string -> Result<seq<Diarizer.Turn>>,
    audio: Option<seq<AudioEntry>>)

  /** The observable effects of the daemon, in the order they happen. */
  datatype Effect =
    | RecorderStarted(dir: string)
    | RecorderStopped(chunks: seq<string>)
    | Transcribed(chunks: seq<string>, segments: nat)
    | Diarized(audio: string, succeeded: bool)
    | TranscriptSaved(writes: seq<Formatter.FileWrite>)
    | AudioRemoved(dirs: seq<string>)
    | StatusWritten(status: DaemonStatus)
    | PidFileRemoved
    | Raised(error: string)

  /** The state after a pass, the effects of the pass, and whether it ended in an exception. */
  datatype Step = Step(d: Daemon, effects: seq<Effect>, raised: bool)

  // ---------------------------------------------------------------------------
  // _update_status
  // ---------------------------------------------------------------------------

  /** The keyword arguments of `_update_status`; `None` leaves the loaded value. */
  datatype StatusKw = StatusKw(running: Option<bool>, meetingActive: Option<bool>)

  function Override(v: Option<bool>, loaded: Json): Json
  {
    if v.Some? then JBool(v.value) else loaded
  }

  /** `_update_status`: load the file, restamp pid and last check, apply the keyword
      arguments, take `chunks_recorded` from the recorder when there is one. Loading a
      file whose document is not an object raises. */
  function UpdateStatus(file: JsonFile, rec: Option<Recorder.LoopbackRecorder>, pid: nat, now: Stamp, kw: StatusKw): (r: Result<DaemonStatus>)
    ensures r.Err? <==> LoadStatus(file).Err?
    ensures r.Ok? ==> r.value.pid == JInt(pid) && r.value.lastCheck == JStr(now.iso)
    ensures r.Ok? ==> r.value.currentMeeting.None?
    ensures r.Ok? && kw.running.Some? ==> r.value.running == JBool(kw.running.value)
    ensures r.Ok? && kw.meetingActive.Some? ==> r.value.meetingActive == JBool(kw.meetingActive.value)
    ensures r.Ok? && rec.Some? ==> r.value.chunksRecorded == JInt(|rec.value.chunks|)
    ensures r.Ok? ==> var prev := LoadStatus(file).value;
      && (kw.running.None? ==> r.value.running == prev.running)
      && (kw.meetingActive.None? ==> r.value.meetingActive == prev.meetingActive)
      && (rec.None? ==> r.value.chunksRecorded == prev.chunksRecorded)
      && r.value.chunksTranscribed == prev.chunksTranscribed
      && r.value.startedAt == prev.startedAt
  {
    var loaded := LoadStatus(file);
    if loaded.Err? then Err(loaded.error)
    else
      var st := loaded.value.(pid := JInt(pid), lastCheck := JStr(now.iso));
      var st := st.(running := Override(kw.running, st.running), meetingActive := Override(kw.meetingActive, st.meetingActive));
      Ok(if rec.Some? then st.(chunksRecorded := JInt(|rec.value.chunks|)) else st)
  }

  /** The fields an update leaves alone are the ones the file held before, or their
      defaults when the file held none. */
  lemma UpdateKeepsStoredFields(doc: map<string, Json>, rec: Option<Recorder.LoopbackRecorder>, pid: nat, now: Stamp, kw: StatusKw)
    ensures var r := UpdateStatus(Parsed(JObj(doc)), rec, pid, now, kw);
      && r.Ok?
      && r.value.chunksTranscribed == Get(doc, "chunks_transcribed", JInt(0))
      && r.value.startedAt == Get(doc, "started_at", JNull)
      && (kw.running.None? ==> r.value.running == Get(doc, "running", JBool(false)))
      && (kw.meetingActive.None? ==> r.value.meetingActive == Get(doc, "meeting_active", JBool(false)))
  {
    var prev := LoadStatus(Parsed(JObj(doc))).value;
    assert FieldOf(prev, "chunks_transcribed") == Get(doc, "chunks_transcribed", JInt(0));
    assert FieldOf(prev, "started_at") == Get(doc, "started_at", JNull);
    assert FieldOf(prev, "running") == Get(doc, "running", JBool(false));
    assert FieldOf(prev, "meeting_active") == Get(doc, "meeting_active", JBool(false));
  }

  /** The status written by the pass, when its last effect is a status write. */
  function LastWritten(effects: seq<Effect>): Option<DaemonStatus>
  {
    if |effects| > 0 && effects[|effects| - 1].StatusWritten? then Some(effects[|effects| - 1].status) else None
  }

  lemma LastWrittenCons(e: Effect, es: seq<Effect>)
    requires |es| >= 1
    ensures LastWritten([e] + es) == LastWritten(es)
  {
    assert ([e] + es)[|es|] == es[|es| - 1];
  }

  /** Ends a pass with `_update_status(**kw)`: a status write, or the exception loading raised. */
  function Finish(d: Daemon, env: Env, effects: seq<Effect>, kw: StatusKw): (r: Step)
    ensures |r.effects| == |effects| + 1 && r.effects[..|effects|] == effects
    ensures r.raised <==> LoadStatus(d.status).Err?
    ensures r.raised ==> r.d == d && r.effects[|effects|].Raised?
    ensures !r.raised ==> r.d == d.(status := r.d.status) && LastWritten(r.effects).Some?
    ensures !r.raised ==> r.effects[|effects|].StatusWritten?
    ensures !r.raised ==> LoadStatus(r.d.status) == Ok(LastWritten(r.effects).value)
    ensures !r.raised ==> LastWritten(r.effects).value.pid == JInt(env.pid)
    ensures !r.raised && kw.meetingActive.Some? ==> LastWritten(r.effects).value.meetingActive == JBool(kw.meetingActive.value)
    ensures !r.raised && kw.running.Some? ==> LastWritten(r.effects).value.running == JBool(kw.running.value)
  {
    var u := UpdateStatus(d.status, d.recorder, env.pid, env.now, kw);
    if u.Err? then Step(d, effects + [Raised(u.error)], true)
    else
      SaveLoadRoundTrip(u.value);
      Step(d.(status := Parsed(SaveStatus(u.value))), effects + [StatusWritten(u.value)], false)
  }

  // ---------------------------------------------------------------------------
  // _cleanup_old_audio
  // ---------------------------------------------------------------------------

  /** `time.time() - AUDIO_RETENTION_DAYS * 86400`. */
  function Cutoff(now: real): real
  {
    now - (AudioRetentionDays * SecondsPerDay) as real
  }

  /** A session directory older than the retention period. */
  predicate Expired(e: AudioEntry, cutoff: real)
  {
    e.isDir && e.mtime < cutoff
  }

  /** The names of the expired directories, in listing order: what is deleted. */
  function Expire(entries: seq<AudioEntry>, cutoff: real): (removed: seq<string>)
    ensures |removed| <= |entries|
  {
    if |entries| == 0 then []
    else
      var rest := Expire(entries[..|entries| - 1], cutoff);
      var e := entries[|entries| - 1];
      if Expired(e, cutoff) then rest + [e.name] else rest
  }

  /** The entries left in the folder afterwards. */
  function Kept(entries: seq<AudioEntry>, cutoff: real): (kept: seq<AudioEntry>)
    ensures |kept| <= |entries|
  {
    if |entries| == 0 then []
    else
      var rest := Kept(entries[..|entries| - 1], cutoff);
      var e := entries[|entries| - 1];
      if Expired(e, cutoff) then rest else rest + [e]
  }

  /** Exactly the directories modified strictly before the cutoff are removed, and every
      other entry stays: the two lists partition the folder. */
  lemma {:induction false} CleanupPartition(entries: seq<AudioEntry>, cutoff: real)
    ensures |Expire(entries, cutoff)| + |Kept(entries, cutoff)| == |entries|
    ensures forall e :: e in Kept(entries, cutoff) <==> e in entries && !Expired(e, cutoff)
    ensures forall e :: e in entries && Expired(e, cutoff) ==> e.name in Expire(entries, cutoff)
    ensures forall n :: n in Expire(entries, cutoff) ==> exists e :: e in entries && Expired(e, cutoff) && e.name == n
    decreases |entries|
  {
    if |entries| > 0 {
      var init := entries[..|entries| - 1];
      CleanupPartition(init, cutoff);
      assert entries == init + [entries[|entries| - 1]];
      assert forall e :: e in entries <==> e in init || e == entries[|entries| - 1];
    }
  }

  /** `_cleanup_old_audio`: nothing when the folder is missing, otherwise the expired directories. */
  function CleanupOldAudio(audio: Option<seq<AudioEntry>>, now: real): (removed: seq<string>)
    ensures audio.None? ==> removed == []
    ensures audio.Some? ==> forall e :: e in audio.value && e.isDir ==> (e.mtime < Cutoff(now) ==> e.name in removed)
    ensures audio.Some? ==> forall n :: n in removed ==>
      exists e :: e in audio.value && e.isDir && e.mtime < Cutoff(now) && e.name == n
  {
    if audio.None? then []
    else
      CleanupPartition(audio.value, Cutoff(now));
      Expire(audio.value, Cutoff(now))
  }

  /** The retention window is seven days: a directory one week and one second old goes,
      one modified exactly at the cutoff stays. */
  lemma RetentionBoundary(name: string, files: seq<string>, now: real)
    ensures Expire([AudioEntry(name, true, now - 604801.0, files)], Cutoff(now)) == [name]
    ensures Expire([AudioEntry(name, true, now - 604800.0, files)], Cutoff(now)) == []
  {
    assert [AudioEntry(name, true, now - 604801.0, files)][..0] == [];
    assert [AudioEntry(name, true, now - 604800.0, files)][..0] == [];
  }

  // ---------------------------------------------------------------------------
  // The meeting transitions
  // ---------------------------------------------------------------------------

  /** `_on_meeting_start`: a meeting titled with the window title (the platform when the
      title is empty), a recorder started on a session folder named after the start time,
      and `meeting_active=True` written. */
  function OnMeetingStart(d: Daemon, env: Env, det: DetectedMeeting): (r: Step)
    ensures r.d.meeting.Some? && r.d.recorder.Some?
    ensures r.d.meeting.value.platform == det.platform && r.d.meeting.value.startedAt == env.now
    ensures r.d.meeting.value.title == (if det.windowTitle != "" then det.windowTitle else det.platform)
    ensures r.d.meeting.value.endedAt.None? && r.d.meeting.value.audioChunks == []
    ensures r.d.recorder.value.recording && r.d.recorder.value.threadsStarted == 1 && r.d.recorder.value.chunks == []
    ensures r.d.recorder.value.outputDir == Formatter.Under(AudioDir(d.cfg.brain), env.now.compact)
    ensures |r.effects| == 2 && r.effects[0] == RecorderStarted(r.d.recorder.value.outputDir)
    ensures !r.raised ==> LastWritten(r.effects).Some? && LastWritten(r.effects).value.meetingActive == JBool(true)
    ensures !r.raised ==> LastWritten(r.effects).value.chunksRecorded == JInt(0)
  {
    var m := MeetingInfo(det.platform, if det.windowTitle != "" then det.windowTitle else det.platform,
                         env.now, None, det.processName, det.windowTitle, [], None);
    var dir := Formatter.Under(AudioDir(d.cfg.brain), env.now.compact);
    var rec := Recorder.Start(Recorder.NewRecorder(dir, Recorder.ChunkDurationSec));
    var r := Finish(d.(meeting := Some(m), recorder := Some(rec)), env, [RecorderStarted(dir)], StatusKw(None, Some(true)));
    assert !r.raised ==> LastWritten(r.effects) == Some(UpdateStatus(d.status, Some(rec), env.pid, env.now, StatusKw(None, Some(true))).value);
    r
  }

  /** The outcome of the optional diarization: the segments to save and its effects. */
  datatype Diarization = Diarization(segments: seq<Segment>, effects: seq<Effect>)

  function AsPlain(segs: seq<TranscriptSegment>): (r: seq<Segment>)
    ensures |r| == |segs| && forall k :: 0 <= k < |segs| ==> r[k] == Plain(segs[k])
  {
    seq(|segs|, k requires 0 <= k < |segs| => Plain(segs[k]))
  }

  function AsSpoken(segs: seq<SpeakerSegment>): (r: seq<Segment>)
    ensures |r| == |segs| && forall k :: 0 <= k < |segs| ==> r[k] == Spoken(segs[k])
  {
    seq(|segs|, k requires 0 <= k < |segs| => Spoken(segs[k]))
  }

  /** Whether the end transition runs the diarizer at all. */
  predicate Diarizes(cfg: Config, env: Env)
  {
    cfg.diarize && env.diarizationAvailable
  }

  /** The diarization block: skipped unless requested and installed; run on `audio`
      (the first chunk) only; any exception it raises is caught and the undiarized
      segments go on. */
  function Diarize(cfg: Config, env: Env, audio: string, segs: seq<TranscriptSegment>): (r: Diarization)
    ensures |r.segments| == |segs|
    ensures !Diarizes(cfg, env) ==> r.segments == AsPlain(segs) && r.effects == []
    ensures Diarizes(cfg, env) ==> r.effects == [Diarized(audio, env.timeline(audio).Ok?)]
    ensures Diarizes(cfg, env) && env.timeline(audio).Err? ==> r.segments == AsPlain(segs)
    ensures Diarizes(cfg, env) && env.timeline(audio).Ok? ==>
      r.segments == AsSpoken(Diarizer.DiarizeAndMerge(segs, env.timeline(audio).value))
  {
    if !Diarizes(cfg, env) then Diarization(AsPlain(segs), [])
    else
      var tl := env.timeline(audio);
      if tl.Err? then Diarization(AsPlain(segs), [Diarized(audio, false)])
      else Diarization(AsSpoken(Diarizer.DiarizeAndMerge(segs, tl.value)), [Diarized(audio, true)])
  }

  /** The chunk list the end transition gets back from the recorder. */
  function StoppedChunks(d: Daemon, env: Env): seq<string>
    requires d.recorder.Some?
  {
    Recorder.Stop(d.recorder.value, env.appended).1
  }

  /** The segments an end transition saves: the chunks transcribed in sorted order,
      then diarized on the first chunk when that is asked for and succeeds. */
  function SavedSegments(cfg: Config, env: Env, chunkPaths: seq<string>): seq<Segment>
    requires chunkPaths != []
  {
    Diarize(cfg, env, chunkPaths[0], Transcriber.Stitch(Sort(chunkPaths), Transcriber.Prepare(env.store))).segments
  }

  /** What the transcription stage produces: the number of segments transcribed, the
      diarization effects, the files saved and the audio folders removed. */
  datatype EndOutputs = EndOutputs(transcribed: nat, diarization: seq<Effect>, writes: seq<Formatter.FileWrite>, removed: seq<string>)

  /** Transcribe, diarize when asked, save the meeting `m`, clean up old audio. */
  function RunPipeline(cfg: Config, env: Env, m: MeetingInfo, chunkPaths: seq<string>): (o: EndOutputs)
    requires chunkPaths != []
    ensures Diarizes(cfg, env) ==> o.diarization == [Diarized(chunkPaths[0], env.timeline(chunkPaths[0]).Ok?)]
    ensures !Diarizes(cfg, env) ==> o.diarization == []
    ensures o.writes == Formatter.SaveTranscript(cfg.brain, m, SavedSegments(cfg, env, chunkPaths), env.now.seconds, env.now).writes
    ensures o.removed == CleanupOldAudio(env.audio, env.now.seconds)
  {
    var dz := Diarize(cfg, env, chunkPaths[0], Transcriber.Stitch(Sort(chunkPaths), Transcriber.Prepare(env.store)));
    EndOutputs(|dz.segments|, dz.effects,
      Formatter.SaveTranscript(cfg.brain, m, SavedSegments(cfg, env, chunkPaths), env.now.seconds, env.now).writes,
      CleanupOldAudio(env.audio, env.now.seconds))
  }

  /** The effects of the transcription stage, in the order they happen. */
  function PipelineEffects(chunkPaths: seq<string>, o: EndOutputs): (e: seq<Effect>)
    requires |o.diarization| <= 1
    ensures |e| == |o.diarization| + 3
    ensures e[0] == Transcribed(chunkPaths, o.transcribed)
    ensures |o.diarization| == 1 ==> e[1] == o.diarization[0]
    ensures e[|e| - 2] == TranscriptSaved(o.writes) && e[|e| - 1] == AudioRemoved(o.removed)
  {
    [Transcribed(chunkPaths, o.transcribed)] + o.diarization + [TranscriptSaved(o.writes), AudioRemoved(o.removed)]
  }

  /** The effect trace of an end transition that gets through: stop, transcribe, diarize
      when asked, save, clean up, write status — in that order. */
  predicate PipelineOrder(effects: seq<Effect>, chunks: seq<string>, diarizes: bool)
    requires chunks != []
  {
    var n := if diarizes then 6 else 5;
    && |effects| == n
    && effects[0] == RecorderStopped(chunks)
    && effects[1].Transcribed? && effects[1].chunks == chunks
    && (diarizes ==> effects[2].Diarized? && effects[2].audio == chunks[0])
    && effects[n - 3].TranscriptSaved?
    && effects[n - 2].AudioRemoved?
    && effects[n - 1].StatusWritten?
  }

  /** The end transition once the recorder has returned chunks and the transcriber
      accepted the model size: `d` is the daemon with the meeting `m` (end time and chunks
      set) and the stopped recorder. The daemon is reset before the status write, so a
      failing write leaves it idle all the same. */
  function EndWithChunks(d: Daemon, env: Env, chunkPaths: seq<string>, diarizes: bool, o: EndOutputs): (r: Step)
    requires chunkPaths != []
    requires |o.diarization| == (if diarizes then 1 else 0)
    requires diarizes ==> o.diarization[0].Diarized? && o.diarization[0].audio == chunkPaths[0]
    ensures r.d == d.(meeting := None, recorder := None, status := r.d.status)
    ensures r.raised <==> LoadStatus(d.status).Err?
    ensures !r.raised ==> PipelineOrder([RecorderStopped(chunkPaths)] + r.effects, chunkPaths, diarizes)
    ensures !r.raised ==> LastWritten(r.effects).Some? && LastWritten(r.effects).value.meetingActive == JBool(false)
    ensures |r.effects| >= 1 && r.effects[..|r.effects| - 1] == PipelineEffects(chunkPaths, o)
  {
    var effects := PipelineEffects(chunkPaths, o);
    var r := Finish(d.(meeting := None, recorder := None), env, effects, StatusKw(None, Some(false)));
    assert !r.raised ==> PipelineOrder([RecorderStopped(chunkPaths)] + r.effects, chunkPaths, diarizes) by {
      if !r.raised {
        StoppedPipelineOrder(chunkPaths, diarizes, o, r.effects);
      }
    }
    r
  }

  /** The stop, the pipeline's effects and a status write are in the fixed order. */
  lemma StoppedPipelineOrder(chunkPaths: seq<string>, diarizes: bool, o: EndOutputs, all: seq<Effect>)
    requires chunkPaths != []
    requires |o.diarization| == (if diarizes then 1 else 0)
    requires diarizes ==> o.diarization[0].Diarized? && o.diarization[0].audio == chunkPaths[0]
    requires |all| == |o.diarization| + 4 && all[..|all| - 1] == PipelineEffects(chunkPaths, o)
    requires all[|all| - 1].StatusWritten?
    ensures PipelineOrder([RecorderStopped(chunkPaths)] + all, chunkPaths, diarizes)
  {
    var effects := PipelineEffects(chunkPaths, o);
    var full := [RecorderStopped(chunkPaths)] + all;
    assert forall k :: 0 <= k < |effects| ==> full[k + 1] == effects[k];
  }

  /** `_on_meeting_end`: a no-op unless both a meeting and a recorder are tracked;
      otherwise the recorder is stopped first, and a pass that gets through leaves the
      daemon idle with `meeting_active=False` written. */
  function OnMeetingEnd(d: Daemon, env: Env): (r: Step)
    ensures r.d.cfg == d.cfg && r.d.running == d.running && r.d.pidFile == d.pidFile
    ensures Consistent(d) ==> Consistent(r.d)
    ensures d.meeting.None? || d.recorder.None? ==> r == Step(d, [], false)
    ensures d.meeting.Some? && d.recorder.Some? ==>
      && |r.effects| >= 2
      && r.effects[0] == RecorderStopped(StoppedChunks(d, env))
      && (!r.raised ==> r.d.meeting.None? && r.d.recorder.None?)
      && (!r.raised ==> LastWritten(r.effects).Some? && LastWritten(r.effects).value.meetingActive == JBool(false))
  {
    if d.meeting.None? || d.recorder.None? then Step(d, [], false)
    else
      var stopped := Recorder.Stop(d.recorder.value, env.appended);
      var m := d.meeting.value.(endedAt := Some(env.now), audioChunks := stopped.1);
      EndAfterStop(d.(meeting := Some(m), recorder := Some(stopped.0)), env)
  }

  /** The rest of `_on_meeting_end` once the recorder is stopped and its chunks are set on
      the tracked meeting: finish at once without chunks, raise on a rejected model size,
      otherwise run the pipeline. */
  function EndAfterStop(d: Daemon, env: Env): (r: Step)
    requires d.meeting.Some? && d.recorder.Some?
    ensures r.d.cfg == d.cfg && r.d.running == d.running && r.d.pidFile == d.pidFile
    ensures Consistent(r.d)
    ensures |r.effects| >= 2 && r.effects[0] == RecorderStopped(d.meeting.value.audioChunks)
    ensures !r.raised ==> r.d.meeting.None? && r.d.recorder.None?
    ensures !r.raised ==> LastWritten(r.effects).Some? && LastWritten(r.effects).value.meetingActive == JBool(false)
  {
    var m := d.meeting.value;
    var chunkPaths := m.audioChunks;
    if chunkPaths == [] then
      Finish(d.(meeting := None, recorder := None), env, [RecorderStopped(chunkPaths)], StatusKw(None, Some(false)))
    else if Transcriber.NewTranscriber(d.cfg.modelSize, "auto").Err? then
      Step(d, [RecorderStopped(chunkPaths), Raised(Transcriber.NewTranscriber(d.cfg.modelSize, "auto").error)], true)
    else
      EndPipeline(d, env)
  }

  /** A pass with chunks and a valid model: stop, then transcribe, diarize and save. An
      exception from the transcription escapes `_on_meeting_end` before the reset, so the
      meeting stays tracked with its chunks, and the recorder stays tracked, stopped. */
  function EndPipeline(d: Daemon, env: Env): (r: Step)
    requires d.meeting.Some? && d.recorder.Some? && d.meeting.value.audioChunks != []
    ensures r.d.cfg == d.cfg && r.d.running == d.running && r.d.pidFile == d.pidFile
    ensures Consistent(r.d)
    ensures |r.effects| >= 2 && r.effects[0] == RecorderStopped(d.meeting.value.audioChunks)
    ensures !r.raised ==> r.d.meeting.None? && r.d.recorder.None?
    ensures !r.raised ==> LastWritten(r.effects).Some? && LastWritten(r.effects).value.meetingActive == JBool(false)
  {
    if env.transcribeError.Some? then
      Step(d, [RecorderStopped(d.meeting.value.audioChunks), Raised(env.transcribeError.value)], true)
    else EndTranscribed(d, env)
  }

  /** The pipeline once the transcription has gone through. */
  function EndTranscribed(d: Daemon, env: Env): (r: Step)
    requires d.meeting.Some? && d.recorder.Some? && d.meeting.value.audioChunks != []
    ensures r.d.cfg == d.cfg && r.d.running == d.running && r.d.pidFile == d.pidFile
    ensures r.d.meeting.None? && r.d.recorder.None?
    ensures |r.effects| >= 2 && r.effects[0] == RecorderStopped(d.meeting.value.audioChunks)
    ensures !r.raised ==> LastWritten(r.effects).Some? && LastWritten(r.effects).value.meetingActive == JBool(false)
  {
    var m := d.meeting.value;
    var rest := EndWithChunks(d, env, m.audioChunks, Diarizes(d.cfg, env), RunPipeline(d.cfg, env, m, m.audioChunks));
    StoppedThen(m.audioChunks, rest)
  }

  /** The recorder's stop put in front of what the rest of the pass did. */
  function StoppedThen(chunkPaths: seq<string>, rest: Step): (r: Step)
    requires rest.d.meeting.None? && rest.d.recorder.None?
    ensures r.d == rest.d && r.raised == rest.raised
    ensures r.effects == [RecorderStopped(chunkPaths)] + rest.effects && |r.effects| == |rest.effects| + 1
    ensures LastWritten(rest.effects).Some? ==> LastWritten(r.effects) == LastWritten(rest.effects)
  {
    if rest.effects == [] then Step(rest.d, [RecorderStopped(chunkPaths)], rest.raised)
    else
      LastWrittenCons(RecorderStopped(chunkPaths), rest.effects);
      Step(rest.d, [RecorderStopped(chunkPaths)] + rest.effects, rest.raised)
  }

  /** With no chunks the transition never transcribes, diarizes or saves: it stops the
      recorder, resets to idle and writes the status. */
  lemma EndWithoutChunks(d: Daemon, env: Env)
    requires d.meeting.Some? && d.recorder.Some? && StoppedChunks(d, env) == []
    ensures var r := OnMeetingEnd(d, env);
      && r.effects[0] == RecorderStopped([]) && |r.effects| == 2
      && !r.effects[1].Transcribed? && !r.effects[1].Diarized? && !r.effects[1].TranscriptSaved?
      && r.d == d.(meeting := None, recorder := None, status := r.d.status)
  {
  }

  /** A model size the transcriber rejects makes the transition raise right after the
      recorder stopped: the meeting stays tracked, with its end time and chunks set, and
      the recorder stays tracked, stopped. */
  lemma EndRejectsModel(d: Daemon, env: Env)
    requires d.meeting.Some? && d.recorder.Some? && StoppedChunks(d, env) != []
    requires d.cfg.modelSize !in Transcriber.ModelSizes
    ensures var r := OnMeetingEnd(d, env);
      && r.raised && |r.effects| == 2 && r.effects[1].Raised?
      && r.d.meeting.Some? && r.d.meeting.value.endedAt == Some(env.now)
      && r.d.meeting.value.audioChunks == StoppedChunks(d, env)
      && r.d.recorder.Some? && !r.d.recorder.value.hasThread && r.d.recorder.value.chunks == StoppedChunks(d, env)
  {
  }

  /** With chunks and an accepted model size the transition runs stop, transcribe,
      diarize (when asked), save, clean up and status write, in that order. It raises
      when the transcription raises, right after the stop, and otherwise only when the
      status file cannot be loaded. */
  lemma EndRunsPipeline(d: Daemon, env: Env)
    requires d.meeting.Some? && d.recorder.Some? && StoppedChunks(d, env) != []
    requires d.cfg.modelSize in Transcriber.ModelSizes
    ensures var r := OnMeetingEnd(d, env);
      && (r.raised <==> env.transcribeError.Some? || LoadStatus(d.status).Err?)
      && (env.transcribeError.Some? ==>
            r.effects == [RecorderStopped(StoppedChunks(d, env)), Raised(env.transcribeError.value)])
      && (!r.raised ==> PipelineOrder(r.effects, StoppedChunks(d, env), Diarizes(d.cfg, env)))
  {
  }

  /** A transcription that raises leaves the meeting as a rejected model size does: the
      meeting stays tracked with its end time and chunks set, the recorder stays tracked,
      stopped, and nothing is saved. */
  lemma EndRaisesOnTranscription(d: Daemon, env: Env)
    requires d.meeting.Some? && d.recorder.Some? && StoppedChunks(d, env) != []
    requires env.transcribeError.Some?
    ensures var r := OnMeetingEnd(d, env);
      && r.raised && |r.effects| == 2 && r.effects[1].Raised?
      && r.d.meeting.Some? && r.d.meeting.value.endedAt == Some(env.now)
      && r.d.meeting.value.audioChunks == StoppedChunks(d, env)
      && r.d.recorder.Some? && !r.d.recorder.value.hasThread && r.d.recorder.value.chunks == StoppedChunks(d, env)
  {
  }

  /** A failed diarization does not stop the save: the transcript written is the
      undiarized one, and the diarizer was only ever given the first chunk. */
  lemma DiarizationFailureStillSaves(cfg: Config, env: Env, m: MeetingInfo, chunkPaths: seq<string>)
    requires chunkPaths != []
    requires Diarizes(cfg, env) && env.timeline(chunkPaths[0]).Err?
    ensures var o := RunPipeline(cfg, env, m, chunkPaths);
      && o.diarization == [Diarized(chunkPaths[0], false)]
      && o.writes == Formatter.SaveTranscript(cfg.brain, m,
           AsPlain(Transcriber.Stitch(Sort(chunkPaths), Transcriber.Prepare(env.store))), env.now.seconds, env.now).writes
  {
  }

  // ---------------------------------------------------------------------------
  // One pass of the main loop, and the loop
  // ---------------------------------------------------------------------------

  /** One pass of `_main_loop`. */
  function Tick(d: Daemon, env: Env): (r: Step)
    ensures r.d.cfg == d.cfg && r.d.running == d.running && r.d.pidFile == d.pidFile
    ensures Consistent(d) ==> Consistent(r.d)
    ensures d.meeting.None? && env.detected.None? ==> r == Step(d, [], false)
    ensures d.meeting.None? && env.detected.Some? ==>
      && r.d.meeting.Some? && r.d.recorder.Some? && r.d.recorder.value.threadsStarted == 1
      && |r.effects| == 2 && r.effects[0].RecorderStarted?
      && (!r.raised ==> LastWritten(r.effects).Some? && LastWritten(r.effects).value.meetingActive == JBool(true))
    ensures d.meeting.Some? && env.detected.Some? ==>
      && r.d.meeting == d.meeting
      && |r.effects| == 1
      && (!r.raised ==> LastWritten(r.effects).Some? && LastWritten(r.effects).value.meetingActive == JBool(true))
    ensures d.meeting.Some? && env.detected.None? ==> r == OnMeetingEnd(d, env)
  {
    if d.meeting.Some? then
      if env.detected.None? then OnMeetingEnd(d, env)
      else
        var rec := if d.recorder.Some? then Some(Recorder.Captured(d.recorder.value, env.appended)) else None;
        Finish(d.(recorder := rec), env, [], StatusKw(None, Some(true)))
    else if env.detected.Some? then OnMeetingStart(d, env, env.detected.value)
    else Step(d, [], false)
  }

  /** The state after the loop has made one pass per element of `envs`. */
  function Run(d: Daemon, envs: seq<Env>): Daemon
    decreases |envs|
  {
    if |envs| == 0 then d else Tick(Run(d, envs[..|envs| - 1]), envs[|envs| - 1]).d
  }

  /** The loop never loses track of the recorder of the meeting it tracks, nor changes the
      configuration, the loop flag or the PID file. */
  lemma {:induction false} RunConsistent(d: Daemon, envs: seq<Env>)
    requires Consistent(d)
    ensures Consistent(Run(d, envs))
    ensures Run(d, envs).cfg == d.cfg && Run(d, envs).running == d.running && Run(d, envs).pidFile == d.pidFile
    decreases |envs|
  {
    if |envs| > 0 {
      RunConsistent(d, envs[..|envs| - 1]);
    }
  }

  /** A tracked meeting whose recorder is stopped, holding chunks: what an end attempt
      leaves behind when it raises before the reset. */
  predicate StoppedWithChunks(d: Daemon)
  {
    && d.meeting.Some? && d.recorder.Some?
    && !d.recorder.value.hasThread && d.recorder.value.chunks != []
  }

  /** Such a meeting under a model size the transcriber rejects: every end attempt raises
      before anything is reset. */
  predicate StuckMeeting(d: Daemon)
  {
    StoppedWithChunks(d) && d.cfg.modelSize !in Transcriber.ModelSizes
  }

  lemma StuckStep(d: Daemon, env: Env)
    requires StuckMeeting(d)
    ensures StuckMeeting(Tick(d, env).d)
  {
    if env.detected.None? {
      assert StoppedChunks(d, env) == d.recorder.value.chunks;
    }
  }

  /** With a model size outside the five the transcriber accepts, a meeting that recorded
      anything is never left: however many passes follow, the daemon still tracks it and
      no transcript is saved. */
  lemma {:induction false} InvalidModelNeverLeavesMeeting(d: Daemon, envs: seq<Env>)
    requires StuckMeeting(d)
    ensures StuckMeeting(Run(d, envs))
    ensures Run(d, envs).meeting.Some?
    decreases |envs|
  {
    if |envs| > 0 {
      InvalidModelNeverLeavesMeeting(d, envs[..|envs| - 1]);
      StuckStep(Run(d, envs[..|envs| - 1]), envs[|envs| - 1]);
    }
  }

  /** The first end attempt under an invalid model size puts a recording meeting into
      that state. */
  lemma InvalidModelGetsStuck(d: Daemon, env: Env)
    requires d.meeting.Some? && d.recorder.Some? && env.detected.None?
    requires StoppedChunks(d, env) != [] && d.cfg.modelSize !in Transcriber.ModelSizes
    ensures StuckMeeting(Tick(d, env).d)
  {
  }

  /** A pass whose transcription raises leaves a stopped meeting stopped and tracked,
      whatever the detector reports. */
  lemma TranscriptionFailureStep(d: Daemon, env: Env)
    requires StoppedWithChunks(d) && env.transcribeError.Some?
    ensures StoppedWithChunks(Tick(d, env).d)
    ensures env.detected.None? ==> Tick(d, env).raised
  {
    if env.detected.None? {
      assert StoppedChunks(d, env) == d.recorder.value.chunks;
    }
  }

  /** While the transcription keeps raising (the speech library is missing, or a chunk is
      unreadable), a meeting whose end was attempted is never left: the daemon still
      tracks it after any number of passes. */
  lemma {:induction false} TranscriptionFailureNeverLeavesMeeting(d: Daemon, envs: seq<Env>)
    requires StoppedWithChunks(d)
    requires forall i :: 0 <= i < |envs| ==> envs[i].transcribeError.Some?
    ensures StoppedWithChunks(Run(d, envs))
    ensures Run(d, envs).meeting.Some?
    decreases |envs|
  {
    if |envs| > 0 {
      TranscriptionFailureNeverLeavesMeeting(d, envs[..|envs| - 1]);
      TranscriptionFailureStep(Run(d, envs[..|envs| - 1]), envs[|envs| - 1]);
    }
  }

  /** The first end attempt whose transcription raises puts a recording meeting into
      that state. */
  lemma TranscriptionFailureGetsStuck(d: Daemon, env: Env)
    requires d.meeting.Some? && d.recorder.Some? && env.detected.None?
    requires StoppedChunks(d, env) != [] && env.transcribeError.Some?
    ensures StoppedWithChunks(Tick(d, env).d) && Tick(d, env).raised
  {
  }

  // ---------------------------------------------------------------------------
  // start and _cleanup
  // ---------------------------------------------------------------------------

  /** `int(text.strip())`: an optional sign and digits, single underscores allowed
      between digits; anything else raises `ValueError`, which `start` catches. */
  function ParsePid(text: string): (r: Option<int>)
    ensures AllSpace(text) ==> r.None?
    ensures r.Some? <==> IsIntText(Strip(text))
    ensures IsDigits(Strip(text)) && Strip(text) != [] ==> r == Some(ParseNat(Strip(text)))
  {
    ParseInt(Strip(text))
  }

  /** Underscores between digits are accepted and ignored. */
  lemma ParsePidUnderscores()
    ensures ParsePid("1_234") == Some(1234)
  {
    StripStripped("1_234");
    ParseIntUnderscore();
  }

  /** A doubled underscore makes the PID file unreadable. */
  lemma ParsePidBadUnderscores()
    ensures ParsePid("1__2") == None
  {
    StripStripped("1__2");
    ParseIntBadUnderscores();
  }

  /** Text without whitespace at either end is its own strip. */
  lemma StripStripped(s: string)
    requires s != [] && !IsSpace(s[0]) && !IsSpace(s[|s| - 1])
    ensures StripLeading(s) == s && StripTrailing(s) == s && Strip(s) == s
  {
    assert StripLeading(s) == s;
    assert StripTrailing(s) == s;
  }

  /** The PID file the daemon writes reads back as its own process id. */
  lemma PidRoundTrip(pid: nat)
    ensures ParsePid(NatToString(pid)) == Some(pid)
  {
    var s := NatToString(pid);
    StripStripped(s);
  }

  /** So does one that an editor has given a trailing newline. */
  lemma PidRoundTripNewline(pid: nat)
    ensures ParsePid(NatToString(pid) + "\n") == Some(pid)
  {
    var s := NatToString(pid);
    var s' := s + "\n";
    StripStripped(s);
    assert s'[0] == s[0];
    assert StripLeading(s') == s';
    StripTrailingNewline(s);
    assert Strip(s') == s;
    PidRoundTrip(pid);
  }

  /** A final newline is stripped and nothing before it. */
  lemma StripTrailingNewline(s: string)
    requires s != [] && !IsSpace(s[|s| - 1])
    ensures StripTrailing(s + "\n") == s
  {
    var s' := s + "\n";
    assert s'[..|s'| - 1] == s;
    assert StripTrailing(s) == s;
  }

  /** What `start` does before the loop: refuse when the PID file names a live process
      (`sys.exit(1)`), otherwise claim the PID file and write `running=True`. */
  datatype Launch = AlreadyRunning(pid: int) | Launched(step: Step)

  function StartDaemon(cfg: Config, pidFile: Option<string>, status: JsonFile, psutilAvailable: bool,
                       alive: int -> bool, env: Env): (r: Launch)
    ensures r.AlreadyRunning? <==>
      pidFile.Some? && ParsePid(pidFile.value).Some? && psutilAvailable && alive(ParsePid(pidFile.value).value)
    ensures r.AlreadyRunning? ==> r.pid == ParsePid(pidFile.value).value
    ensures r.Launched? ==>
      && r.step.d.running && r.step.d.pidFile == Some(NatToString(env.pid))
      && r.step.d.meeting.None? && r.step.d.recorder.None? && r.step.d.cfg == cfg
      && (!r.step.raised ==> LastWritten(r.step.effects).Some? && LastWritten(r.step.effects).value.running == JBool(true))
  {
    var existing := if pidFile.Some? then ParsePid(pidFile.value) else None;
    if existing.Some? && psutilAvailable && alive(existing.value) then AlreadyRunning(existing.value)
    else Launched(Finish(Daemon(cfg, true, Some(NatToString(env.pid)), None, None, status), env, [], StatusKw(Some(true), None)))
  }

  /** A second daemon started while the first one's process is alive is refused, naming
      the first one's pid. */
  lemma SecondStartRefused(cfg: Config, status: JsonFile, alive: int -> bool, env: Env, pid: nat)
    requires alive(pid)
    ensures StartDaemon(cfg, Some(NatToString(pid)), status, true, alive, env) == AlreadyRunning(pid)
  {
    PidRoundTrip(pid);
  }

  /** `_cleanup` after the loop has stopped: stop the recorder, end a tracked meeting
      (whose exception, unlike the loop's, is not caught), unlink the PID file, write
      `running=False, meeting_active=False`. */
  function Shutdown(d: Daemon, env: Env): (r: Step)
    ensures !r.raised ==> !r.d.running && r.d.pidFile.None?
    ensures !r.raised && Consistent(d) ==> r.d.meeting.None?
    ensures !r.raised ==> (LastWritten(r.effects).Some?
      && LastWritten(r.effects).value.running == JBool(false)
      && LastWritten(r.effects).value.meetingActive == JBool(false))
    ensures r.d.pidFile.Some? ==> r.raised
    ensures d.meeting.None? ==> forall e :: e in r.effects ==> !e.TranscriptSaved?
  {
    var d1 := Halted(d, env);
    var end := if d1.meeting.Some? then OnMeetingEnd(d1, env) else Step(d1, [], false);
    CloseOut(end, HaltEffects(d, env), env)
  }

  /** The daemon once the loop flag is down and `_cleanup` has stopped the recorder. */
  function Halted(d: Daemon, env: Env): (d1: Daemon)
    ensures !d1.running && d1.meeting == d.meeting && d1.cfg == d.cfg && d1.status == d.status && d1.pidFile == d.pidFile
    ensures d.recorder.Some? ==> d1.recorder == Some(Recorder.Stop(d.recorder.value, env.appended).0)
    ensures d.recorder.None? ==> d1.recorder.None?
  {
    d.(running := false, recorder := if d.recorder.Some? then Some(Recorder.Stop(d.recorder.value, env.appended).0) else None)
  }

  function HaltEffects(d: Daemon, env: Env): seq<Effect>
  {
    if d.recorder.Some? then [RecorderStopped(StoppedChunks(d, env))] else []
  }

  /** The rest of `_cleanup` after the meeting was ended (or there was none): an
      exception from the end transition escapes; otherwise unlink the PID file and
      write the final status. */
  function CloseOut(end: Step, e0: seq<Effect>, env: Env): (r: Step)
    ensures end.raised ==> r == Step(end.d, e0 + end.effects, true)
    ensures !end.raised ==> |r.effects| > |e0 + end.effects| && r.effects[..|e0 + end.effects|] == e0 + end.effects
    ensures !end.raised ==> r.d.pidFile.None? && r.d.meeting == end.d.meeting && r.d.running == end.d.running
    ensures !r.raised ==> (LastWritten(r.effects).Some?
      && LastWritten(r.effects).value.running == JBool(false)
      && LastWritten(r.effects).value.meetingActive == JBool(false))
    ensures r.d.pidFile.Some? ==> r.raised
    ensures (forall e :: e in e0 + end.effects ==> !e.TranscriptSaved?) ==> forall e :: e in r.effects ==> !e.TranscriptSaved?
  {
    if end.raised then Step(end.d, e0 + end.effects, true)
    else
      var e1 := e0 + end.effects + (if end.d.pidFile.Some? then [PidFileRemoved] else []);
      var r := Finish(end.d.(pidFile := None), env, e1, StatusKw(Some(false), Some(false)));
      assert r.effects == r.effects[..|e1|] + [r.effects[|e1|]];
      assert e1[..|e0 + end.effects|] == e0 + end.effects;
      r
  }

  /** Stopping the recorder a second time returns the chunks the first stop collected. */
  lemma HaltedKeepsChunks(d: Daemon, env: Env)
    requires d.recorder.Some?
    ensures StoppedChunks(Halted(d, env), env) == StoppedChunks(d, env)
  {
  }

  /** `_cleanup` with a tracked meeting hands the end transition's effects, after the
      recorder stop, to the close-out. */
  lemma ShutdownDuringMeeting(d: Daemon, env: Env)
    requires d.meeting.Some? && d.recorder.Some?
    ensures Shutdown(d, env)
         == CloseOut(OnMeetingEnd(Halted(d, env), env), [RecorderStopped(StoppedChunks(d, env))], env)
  {
  }

  /** The close-out starts with the effects it is handed. */
  lemma CloseOutHead(end: Step, e0: seq<Effect>, env: Env, k: nat)
    requires k < |e0 + end.effects|
    ensures k < |CloseOut(end, e0, env).effects|
    ensures CloseOut(end, e0, env).effects[k] == (e0 + end.effects)[k]
  {
    var r := CloseOut(end, e0, env);
    if !end.raised {
      assert r.effects[..|e0 + end.effects|][k] == r.effects[k];
    }
  }

  /** Shutting down during a meeting transcribes the chunks the first `stop` collected:
      the end transition's own `stop` returns the same list. A transcription that raises
      ends the shutdown right there. */
  lemma ShutdownTranscribesCollectedChunks(d: Daemon, env: Env)
    requires d.meeting.Some? && d.recorder.Some?
    requires StoppedChunks(d, env) != [] && d.cfg.modelSize in Transcriber.ModelSizes
    requires LoadStatus(d.status).Ok?
    ensures var r := Shutdown(d, env); var ps := StoppedChunks(d, env);
      && |r.effects| >= 3
      && r.effects[0] == RecorderStopped(ps) && r.effects[1] == RecorderStopped(ps)
      && (env.transcribeError.None? ==> r.effects[2].Transcribed? && r.effects[2].chunks == ps)
      && (env.transcribeError.Some? ==> r.effects[2] == Raised(env.transcribeError.value))
  {
    var ps := StoppedChunks(d, env);
    var d1 := Halted(d, env);
    HaltedKeepsChunks(d, env);
    EndRunsPipeline(d1, env);
    var end := OnMeetingEnd(d1, env);
    if env.transcribeError.None? {
      assert PipelineOrder(end.effects, ps, Diarizes(d1.cfg, env));
    }
    var e0 := [RecorderStopped(ps)];
    ShutdownDuringMeeting(d, env);
    CloseOutHead(end, e0, env, 0);
    CloseOutHead(end, e0, env, 1);
    CloseOutHead(end, e0, env, 2);
  }
}

=== FILE: detector.dfy ===
/** Meeting detection (`detector.py`): a scan of the running processes against the
    pattern table, first process first and, within a process, first pattern first.
    Regular-expression search and the window-title lookup are parameters: `search(p, t)`
    stands for a case-insensitive `re.search(p, t)` and `titleOf(pid)` for the first
    visible window title of the process, "" when there is none or the lookup fails. */
module Detector {
  import opened Base

  /** One row of the table: process-name pattern, platform id, window-title pattern. */
  datatype Pattern = Pattern(procPattern: string, platform: string, titlePattern: Option<string>)

  const MeetingPatterns: seq<Pattern> := [
    Pattern("zoom\\.exe", "zoom", Some("zoom meeting|zoom webinar")),
    Pattern("slack\\.exe", "slack", Some("huddle|slack call")),
    Pattern("teams\\.exe", "teams", Some("meeting|call")),
    Pattern("discord\\.exe", "discord", Some("voice connected")),
    Pattern("webex\\.exe", "webex", Some("meeting|webex")),
    Pattern("chrome\\.exe|msedge\\.exe|firefox\\.exe|brave\\.exe", "meet", Some("meet\\.google\\.com")),
    Pattern("chrome\\.exe|msedge\\.exe|firefox\\.exe|brave\\.exe", "teams-web", Some("teams\\.microsoft\\.com.*meeting")),
    Pattern("chrome\\.exe|msedge\\.exe|firefox\\.exe|brave\\.exe", "zoom-web", Some("zoom\\.us/j/"))
  ]

  datatype DetectedMeeting = DetectedMeeting(platform: string, processName: string, windowTitle: string, pid: int)

  /** A process as the scan sees it: its info, or gone / inaccessible by the time it is read
      (`NoSuchProcess`, `AccessDenied`). */
  datatype Proc = Vanished | Proc(pid: int, name: Option<string>)

  /** `proc.info["name"] or ""`. */
  function ProcName(p: Proc): string
    requires p.Proc?
  {
    if p.name.Some? then p.name.value else ""
  }

  /** Python's `if title_pattern:` — absent and empty patterns are both false. */
  predicate Gated(p: Pattern)
  {
    p.titlePattern.Some? && p.titlePattern.value != ""
  }

  /** One (process, pattern) attempt: the process name must match; a title-gated pattern
      also needs a non-empty window title that matches; a pattern without a title uses the
      process name as the window title. */
  function TryPattern(p: Pattern, name: string, pid: int,
                      search: (string, string) -> bool, titleOf: int -> string): (r: Option<DetectedMeeting>)
    ensures r.Some? ==> search(p.procPattern, name)
    ensures r.Some? ==> r.value.platform == p.platform && r.value.processName == name && r.value.pid == pid
    ensures Gated(p) && r.Some? ==> r.value.windowTitle == titleOf(pid) != "" && search(p.titlePattern.value, titleOf(pid))
    ensures !Gated(p) ==> (r.Some? <==> search(p.procPattern, name)) && (r.Some? ==> r.value.windowTitle == name)
  {
    if !search(p.procPattern, name) then None
    else if Gated(p) then
      var title := titleOf(pid);
      if title == "" || !search(p.titlePattern.value, title) then None
      else Some(DetectedMeeting(p.platform, name, title, pid))
    else Some(DetectedMeeting(p.platform, name, name, pid))
  }

  /** The first element of `xs` for which `f` yields a value, and that value; both loops
      of the scan have this shape. */
  function FirstSome<T, U(==)>(xs: seq<T>, f: T -> Option<U>): (r: Option<U>)
    ensures r.None? <==> forall j :: 0 <= j < |xs| ==> f(xs[j]).None?
    ensures r.Some? ==> exists j :: 0 <= j < |xs| && r == f(xs[j]) && forall k :: 0 <= k < j ==> f(xs[k]).None?
  {
    if |xs| == 0 then None
    else if f(xs[0]).Some? then f(xs[0])
    else
      var rest := FirstSome(xs[1..], f);
      assert forall j :: 1 <= j < |xs| ==> xs[j] == xs[1..][j - 1];
      if rest.Some? then
        var j' :| 0 <= j' < |xs| - 1 && rest == f(xs[1..][j']) && forall k :: 0 <= k < j' ==> f(xs[1..][k]).None?;
        assert rest == f(xs[j' + 1]);
        rest
      else rest
  }

  /** The inner loop: the first pattern that yields a detection. */
  function FirstPattern(pats: seq<Pattern>, name: string, pid: int,
                        search: (string, string) -> bool, titleOf: int -> string): (r: Option<DetectedMeeting>)
    ensures r.None? <==> forall j :: 0 <= j < |pats| ==> TryPattern(pats[j], name, pid, search, titleOf).None?
    ensures r.Some? ==> exists j :: (0 <= j < |pats| && r == TryPattern(pats[j], name, pid, search, titleOf)
      && forall k :: 0 <= k < j ==> TryPattern(pats[k], name, pid, search, titleOf).None?)
  {
    FirstSome(pats, p => TryPattern(p, name, pid, search, titleOf))
  }

  /** What the scan finds for one process: nothing for a vanished one. */
  function ScanProc(p: Proc, pats: seq<Pattern>, search: (string, string) -> bool, titleOf: int -> string): Option<DetectedMeeting>
  {
    if p.Vanished? then None else FirstPattern(pats, ProcName(p), p.pid, search, titleOf)
  }

  /** `detect_meeting` over the pattern table `pats`: the first process, in iteration
      order, for which some pattern yields a detection. */
  function DetectWith(procs: seq<Proc>, pats: seq<Pattern>,
                      search: (string, string) -> bool, titleOf: int -> string): (r: Option<DetectedMeeting>)
    ensures r.None? <==> forall i :: 0 <= i < |procs| ==> ScanProc(procs[i], pats, search, titleOf).None?
    ensures r.Some? ==> exists i :: (0 <= i < |procs| && r == ScanProc(procs[i], pats, search, titleOf)
      && forall k :: 0 <= k < i ==> ScanProc(procs[k], pats, search, titleOf).None?)
  {
    FirstSome(procs, p => ScanProc(p, pats, search, titleOf))
  }

  function DetectMeeting(procs: seq<Proc>, search: (string, string) -> bool, titleOf: int -> string): (r: Option<DetectedMeeting>)
    ensures r.Some? ==> exists i, j :: (0 <= i < |procs| && procs[i].Proc? && 0 <= j < |MeetingPatterns|
      && r.value == DetectedMeeting(MeetingPatterns[j].platform, ProcName(procs[i]), titleOf(procs[i].pid), procs[i].pid)
      && titleOf(procs[i].pid) != ""
      && search(MeetingPatterns[j].procPattern, ProcName(procs[i]))
      && search(MeetingPatterns[j].titlePattern.value, titleOf(procs[i].pid)))
    ensures r.None? <==> forall i, j :: 0 <= i < |procs| && procs[i].Proc? && 0 <= j < |MeetingPatterns| ==>
      TryPattern(MeetingPatterns[j], ProcName(procs[i]), procs[i].pid, search, titleOf).None?
  {
    TableIsGated();
    GatedDetection(procs, MeetingPatterns, search, titleOf);
    DetectWith(procs, MeetingPatterns, search, titleOf)
  }

  /** With a table whose rows are all title-gated, a detection is a live process whose
      name matches some row and whose non-empty window title matches that row's title
      pattern; nothing is detected exactly when no (process, row) pair matches. */
  lemma GatedDetection(procs: seq<Proc>, pats: seq<Pattern>, search: (string, string) -> bool, titleOf: int -> string)
    requires forall j :: 0 <= j < |pats| ==> Gated(pats[j])
    ensures var r := DetectWith(procs, pats, search, titleOf);
      r.Some? ==> exists i, j :: (0 <= i < |procs| && procs[i].Proc? && 0 <= j < |pats|
        && r.value == DetectedMeeting(pats[j].platform, ProcName(procs[i]), titleOf(procs[i].pid), procs[i].pid)
        && titleOf(procs[i].pid) != ""
        && search(pats[j].procPattern, ProcName(procs[i]))
        && search(pats[j].titlePattern.value, titleOf(procs[i].pid)))
    ensures DetectWith(procs, pats, search, titleOf).None? <==>
      forall i, j :: 0 <= i < |procs| && procs[i].Proc? && 0 <= j < |pats| ==>
        TryPattern(pats[j], ProcName(procs[i]), procs[i].pid, search, titleOf).None?
  {
    var r := DetectWith(procs, pats, search, titleOf);
    if r.Some? {
      var i :| 0 <= i < |procs| && r == ScanProc(procs[i], pats, search, titleOf);
      var p := procs[i];
      var j :| 0 <= j < |pats| && r == TryPattern(pats[j], ProcName(p), p.pid, search, titleOf);
      assert Gated(pats[j]);
    } else {
      forall i, j | 0 <= i < |procs| && procs[i].Proc? && 0 <= j < |pats|
        ensures TryPattern(pats[j], ProcName(procs[i]), procs[i].pid, search, titleOf).None?
      {
        assert ScanProc(procs[i], pats, search, titleOf).None?;
      }
    }
  }

  /** Vanished processes are skipped: they change nothing about the result. */
  lemma VanishedSkipped(procs: seq<Proc>, pats: seq<Pattern>, search: (string, string) -> bool, titleOf: int -> string)
    ensures DetectWith([Vanished] + procs, pats, search, titleOf) == DetectWith(procs, pats, search, titleOf)
  {
    assert ([Vanished] + procs)[1..] == procs;
  }

  /** Every row of the table is title-gated. */
  lemma TableIsGated()
    ensures forall j :: 0 <= j < |MeetingPatterns| ==> Gated(MeetingPatterns[j])
  {
  }

  /** With the current table a process name alone never yields a detection: when no process
      has a window title, nothing is detected, whatever the names. */
  lemma NoTitleNoMeeting(procs: seq<Proc>, search: (string, string) -> bool, titleOf: int -> string)
    requires forall i :: 0 <= i < |procs| && procs[i].Proc? ==> titleOf(procs[i].pid) == ""
    ensures DetectMeeting(procs, search, titleOf).None?
  {
    TableIsGated();
    forall i | 0 <= i < |procs| ensures ScanProc(procs[i], MeetingPatterns, search, titleOf).None? {
      if procs[i].Proc? {
        var p := procs[i];
        forall j | 0 <= j < |MeetingPatterns|
          ensures TryPattern(MeetingPatterns[j], ProcName(p), p.pid, search, titleOf).None?
        {
          assert Gated(MeetingPatterns[j]);
        }
      }
    }
  }
}

=== FILE: diarizer.dfy ===
/** Speaker attribution (`diarizer.py`): every transcript segment is labelled with
    the speaker whose turns overlap its time range the most. The diarization
    pipeline itself is an input: its output is the list of speaker turns. */
module Diarizer {
  import opened Base
  import opened Models

  /** One turn of the diarization timeline: who spoke from `start` to `end`. */
  datatype Turn = Turn(start: real, end: real, speaker: string)

  /** The label of a segment no turn overlaps. */
  const Unknown: string := "Unknown"

  datatype SpeakerDiarizer = SpeakerDiarizer(hfToken: Option<string>)

  /** The constructor raises `RuntimeError` when the diarization library is not installed. */
  function NewDiarizer(available: bool, hfToken: Option<string>): (r: Result<SpeakerDiarizer>)
    ensures r.Ok? <==> available
    ensures r.Ok? ==> r.value.hfToken == hfToken
  {
    if available then Ok(SpeakerDiarizer(hfToken))
    else Err("RuntimeError: Speaker diarization requires pyannote-audio.")
  }

  // ---------------------------------------------------------------------------
  // Overlap of one turn with a time range
  // ---------------------------------------------------------------------------

  /** The turn shares a stretch of positive length with `[start, end]`; turns that only
      touch the range, or lie outside it, do not. */
  predicate Hits(start: real, end: real, t: Turn)
  {
    MaxReal(start, t.start) < MinReal(end, t.end)
  }

  /** Length of the shared stretch. */
  function Overlap(start: real, end: real, t: Turn): (o: real)
    requires Hits(start, end, t)
    ensures o > 0.0
    ensures o <= end - start && o <= t.end - t.start
  {
    MinReal(end, t.end) - MaxReal(start, t.start)
  }

  predicate HitBy(spk: string, start: real, end: real, t: Turn)
  {
    t.speaker == spk && Hits(start, end, t)
  }

  // ---------------------------------------------------------------------------
  // Reference definitions: per-speaker totals and first appearance
  // ---------------------------------------------------------------------------

  /** Total time `spk` overlaps `[start, end]`, summed over all of their turns. */
  function Total(spk: string, start: real, end: real, tl: seq<Turn>): real
  {
    if |tl| == 0 then 0.0
    else
      var last := tl[|tl| - 1];
      Total(spk, start, end, tl[..|tl| - 1]) + (if HitBy(spk, start, end, last) then Overlap(start, end, last) else 0.0)
  }

  /** Index of the first turn of `spk` that overlaps `[start, end]`, or `|tl|` if none does. */
  function FirstHit(spk: string, start: real, end: real, tl: seq<Turn>): (r: nat)
    ensures r <= |tl|
  {
    if |tl| == 0 then 0
    else
      var f := FirstHit(spk, start, end, tl[..|tl| - 1]);
      if f < |tl| - 1 then f
      else if HitBy(spk, start, end, tl[|tl| - 1]) then |tl| - 1
      else |tl|
  }

  lemma {:induction false} FirstHitSpec(spk: string, start: real, end: real, tl: seq<Turn>)
    ensures FirstHit(spk, start, end, tl) < |tl| ==> HitBy(spk, start, end, tl[FirstHit(spk, start, end, tl)])
    ensures forall k :: 0 <= k < FirstHit(spk, start, end, tl) ==> !HitBy(spk, start, end, tl[k])
    decreases |tl|
  {
    if |tl| > 0 {
      var init := tl[..|tl| - 1];
      FirstHitSpec(spk, start, end, init);
      assert forall k :: 0 <= k < |init| ==> init[k] == tl[k];
    }
  }

  /** A total is positive exactly when the speaker has an overlapping turn. */
  lemma {:induction false} TotalPositive(spk: string, start: real, end: real, tl: seq<Turn>)
    ensures Total(spk, start, end, tl) >= 0.0
    ensures Total(spk, start, end, tl) > 0.0 <==> FirstHit(spk, start, end, tl) < |tl|
    decreases |tl|
  {
    if |tl| > 0 {
      TotalPositive(spk, start, end, tl[..|tl| - 1]);
    }
  }

  // ---------------------------------------------------------------------------
  // The accumulation loop of `_find_dominant_speaker`
  // ---------------------------------------------------------------------------

  /** The `overlap` dictionary: its keys in insertion order and its values. */
  datatype Table = Table(keys: seq<string>, totals: map<string, real>)

  /** One pass of the loop over the timeline: an overlapping turn adds its overlap to
      its speaker's entry, creating the entry (at the end of the key order) on the
      speaker's first overlapping turn. */
  function Accumulate(start: real, end: real, tl: seq<Turn>): Table
  {
    if |tl| == 0 then Table([], map[])
    else
      var t := Accumulate(start, end, tl[..|tl| - 1]);
      var last := tl[|tl| - 1];
      if !Hits(start, end, last) then t
      else if last.speaker in t.totals then
        Table(t.keys, t.totals[last.speaker := t.totals[last.speaker] + Overlap(start, end, last)])
      else
        Table(t.keys + [last.speaker], t.totals[last.speaker := 0.0 + Overlap(start, end, last)])
  }

  /** What the dictionary holds after the loop, stated against the reference definitions. */
  ghost predicate TableInv(t: Table, start: real, end: real, tl: seq<Turn>)
  {
    && (forall i, j :: 0 <= i < j < |t.keys| ==>
          FirstHit(t.keys[i], start, end, tl) < FirstHit(t.keys[j], start, end, tl))
    && (forall i :: 0 <= i < |t.keys| ==> t.keys[i] in t.totals)
    && (forall s :: s in t.totals ==> s in t.keys)
    && (forall s :: s in t.totals <==> FirstHit(s, start, end, tl) < |tl|)
    && (forall s :: s in t.totals ==> t.totals[s] == Total(s, start, end, tl))
  }

  /** The first hit of a speaker over one more turn. */
  lemma FirstHitStep(s: string, start: real, end: real, tl: seq<Turn>)
    requires |tl| > 0
    ensures var init := tl[..|tl| - 1];
      && (FirstHit(s, start, end, init) < |init| ==> FirstHit(s, start, end, tl) == FirstHit(s, start, end, init))
      && (FirstHit(s, start, end, init) == |init| ==>
            (FirstHit(s, start, end, tl) < |tl| <==> HitBy(s, start, end, tl[|tl| - 1]))
            && FirstHit(s, start, end, tl) >= |init|)
  {
  }

  /** The loop step when the last turn overlaps and its speaker already has an entry. */
  lemma AccumulateExisting(start: real, end: real, tl: seq<Turn>, t: Table)
    requires |tl| > 0
    requires TableInv(t, start, end, tl[..|tl| - 1])
    requires Hits(start, end, tl[|tl| - 1]) && tl[|tl| - 1].speaker in t.totals
    ensures var last := tl[|tl| - 1];
      TableInv(Table(t.keys, t.totals[last.speaker := t.totals[last.speaker] + Overlap(start, end, last)]), start, end, tl)
  {
    var init := tl[..|tl| - 1];
    var last := tl[|tl| - 1];
    var t' := Table(t.keys, t.totals[last.speaker := t.totals[last.speaker] + Overlap(start, end, last)]);
    forall s ensures FirstHit(s, start, end, init) < |init| ==> FirstHit(s, start, end, tl) == FirstHit(s, start, end, init)
      ensures s in t'.totals <==> FirstHit(s, start, end, tl) < |tl|
    {
      FirstHitStep(s, start, end, tl);
    }
    forall s | s in t'.totals ensures t'.totals[s] == Total(s, start, end, tl) {
      assert Total(s, start, end, tl) == Total(s, start, end, init) + (if HitBy(s, start, end, last) then Overlap(start, end, last) else 0.0);
    }
  }

  /** The loop step when the last turn overlaps and its speaker is new. */
  lemma AccumulateNew(start: real, end: real, tl: seq<Turn>, t: Table)
    requires |tl| > 0
    requires TableInv(t, start, end, tl[..|tl| - 1])
    requires Hits(start, end, tl[|tl| - 1]) && tl[|tl| - 1].speaker !in t.totals
    ensures var last := tl[|tl| - 1];
      TableInv(Table(t.keys + [last.speaker], t.totals[last.speaker := 0.0 + Overlap(start, end, last)]), start, end, tl)
  {
    var init := tl[..|tl| - 1];
    var last := tl[|tl| - 1];
    var t' := Table(t.keys + [last.speaker], t.totals[last.speaker := 0.0 + Overlap(start, end, last)]);
    forall s ensures FirstHit(s, start, end, init) < |init| ==> FirstHit(s, start, end, tl) == FirstHit(s, start, end, init)
      ensures s in t'.totals <==> FirstHit(s, start, end, tl) < |tl|
    {
      FirstHitStep(s, start, end, tl);
    }
    FirstHitStep(last.speaker, start, end, tl);
    assert FirstHit(last.speaker, start, end, tl) == |init|;
    forall i, j | 0 <= i < j < |t'.keys|
      ensures FirstHit(t'.keys[i], start, end, tl) < FirstHit(t'.keys[j], start, end, tl)
    {
      assert t'.keys[i] == t.keys[i] && t.keys[i] in t.totals;
      if j < |t.keys| {
        assert t'.keys[j] == t.keys[j] && t.keys[j] in t.totals;
      }
    }
    forall s | s in t'.totals ensures t'.totals[s] == Total(s, start, end, tl) {
      assert Total(s, start, end, tl) == Total(s, start, end, init) + (if HitBy(s, start, end, last) then Overlap(start, end, last) else 0.0);
      if s == last.speaker {
        assert FirstHit(s, start, end, init) == |init|;
        TotalPositive(s, start, end, init);
      }
    }
  }

  /** The loop step when the last turn does not overlap. */
  lemma AccumulateMiss(start: real, end: real, tl: seq<Turn>, t: Table)
    requires |tl| > 0
    requires TableInv(t, start, end, tl[..|tl| - 1])
    requires !Hits(start, end, tl[|tl| - 1])
    ensures TableInv(t, start, end, tl)
  {
    var init := tl[..|tl| - 1];
    forall s ensures FirstHit(s, start, end, init) < |init| ==> FirstHit(s, start, end, tl) == FirstHit(s, start, end, init)
      ensures s in t.totals <==> FirstHit(s, start, end, tl) < |tl|
      ensures Total(s, start, end, tl) == Total(s, start, end, init)
    {
      FirstHitStep(s, start, end, tl);
    }
  }

  /** The dictionary holds exactly the speakers with an overlapping turn, each with their
      total overlap, keyed in the order of their first overlapping turn. */
  lemma {:induction false} AccumulateInvariant(start: real, end: real, tl: seq<Turn>)
    ensures TableInv(Accumulate(start, end, tl), start, end, tl)
    decreases |tl|
  {
    if |tl| > 0 {
      var init := tl[..|tl| - 1];
      var last := tl[|tl| - 1];
      AccumulateInvariant(start, end, init);
      var t := Accumulate(start, end, init);
      assert tl[..|tl| - 1] == init;
      if !Hits(start, end, last) {
        AccumulateMiss(start, end, tl, t);
        assert Accumulate(start, end, tl) == t;
      } else if last.speaker in t.totals {
        AccumulateExisting(start, end, tl, t);
        assert Accumulate(start, end, tl)
            == Table(t.keys, t.totals[last.speaker := t.totals[last.speaker] + Overlap(start, end, last)]);
      } else {
        AccumulateNew(start, end, tl, t);
        assert Accumulate(start, end, tl)
            == Table(t.keys + [last.speaker], t.totals[last.speaker := 0.0 + Overlap(start, end, last)]);
      }
    }
  }

  // ---------------------------------------------------------------------------
  // The argmax: `max(overlap, key=overlap.get)`
  // ---------------------------------------------------------------------------

  /** Index of the first key with the largest value: later keys replace the current best
      only when strictly greater. */
  function ArgMax(keys: seq<string>, totals: map<string, real>): (r: nat)
    requires |keys| > 0
    requires forall i :: 0 <= i < |keys| ==> keys[i] in totals
    ensures r < |keys|
    ensures forall j :: 0 <= j < |keys| ==> totals[keys[j]] <= totals[keys[r]]
    ensures forall j :: 0 <= j < r ==> totals[keys[j]] < totals[keys[r]]
  {
    if |keys| == 1 then 0
    else
      var b := ArgMax(keys[..|keys| - 1], totals);
      if totals[keys[|keys| - 1]] > totals[keys[b]] then |keys| - 1 else b
  }

  /** `_find_dominant_speaker`: "Unknown" when no turn overlaps `[start, end]`; otherwise a
      speaker with an overlapping turn whose total overlap is maximal, the one whose first
      overlapping turn comes earliest among those tied. */
  function DominantSpeaker(start: real, end: real, tl: seq<Turn>): (r: string)
    ensures (forall k :: 0 <= k < |tl| ==> !Hits(start, end, tl[k])) ==> r == Unknown
    ensures (exists k :: 0 <= k < |tl| && Hits(start, end, tl[k])) ==>
      && FirstHit(r, start, end, tl) < |tl|
      && HitBy(r, start, end, tl[FirstHit(r, start, end, tl)])
    ensures forall k :: 0 <= k < |tl| && Hits(start, end, tl[k]) ==>
      && Total(tl[k].speaker, start, end, tl) <= Total(r, start, end, tl)
      && (Total(tl[k].speaker, start, end, tl) == Total(r, start, end, tl) ==> FirstHit(r, start, end, tl) <= k)
  {
    AccumulateInvariant(start, end, tl);
    var t := Accumulate(start, end, tl);
    DominantSpeakerFacts(start, end, tl, t);
    if |t.keys| == 0 then Unknown else t.keys[ArgMax(t.keys, t.totals)]
  }

  /** Every speaker with an overlapping turn has an entry. */
  lemma HitSpeakerHasEntry(start: real, end: real, tl: seq<Turn>, t: Table, k: nat)
    requires TableInv(t, start, end, tl)
    requires k < |tl| && Hits(start, end, tl[k])
    ensures tl[k].speaker in t.totals && tl[k].speaker in t.keys
    ensures FirstHit(tl[k].speaker, start, end, tl) <= k
  {
    FirstHitSpec(tl[k].speaker, start, end, tl);
  }

  /** The argmax entry beats or ties every overlapping speaker, and wins ties by first hit. */
  lemma ArgMaxDominates(start: real, end: real, tl: seq<Turn>, t: Table, k: nat)
    requires TableInv(t, start, end, tl) && |t.keys| > 0
    requires k < |tl| && Hits(start, end, tl[k])
    ensures var r := t.keys[ArgMax(t.keys, t.totals)];
      && Total(tl[k].speaker, start, end, tl) <= Total(r, start, end, tl)
      && (Total(tl[k].speaker, start, end, tl) == Total(r, start, end, tl) ==> FirstHit(r, start, end, tl) <= k)
  {
    var a := ArgMax(t.keys, t.totals);
    var r := t.keys[a];
    var s := tl[k].speaker;
    HitSpeakerHasEntry(start, end, tl, t, k);
    var j :| 0 <= j < |t.keys| && t.keys[j] == s;
    assert t.totals[s] <= t.totals[r];
    if t.totals[s] == t.totals[r] {
      assert !(j < a);
      if j > a {
        assert FirstHit(r, start, end, tl) < FirstHit(s, start, end, tl);
      }
    }
  }

  lemma DominantSpeakerFacts(start: real, end: real, tl: seq<Turn>, t: Table)
    requires TableInv(t, start, end, tl)
    ensures |t.keys| == 0 <==> forall k :: 0 <= k < |tl| ==> !Hits(start, end, tl[k])
    ensures |t.keys| > 0 ==>
      var r := t.keys[ArgMax(t.keys, t.totals)];
      && FirstHit(r, start, end, tl) < |tl|
      && HitBy(r, start, end, tl[FirstHit(r, start, end, tl)])
      && forall k :: 0 <= k < |tl| && Hits(start, end, tl[k]) ==>
        && Total(tl[k].speaker, start, end, tl) <= Total(r, start, end, tl)
        && (Total(tl[k].speaker, start, end, tl) == Total(r, start, end, tl) ==> FirstHit(r, start, end, tl) <= k)
  {
    if |t.keys| == 0 {
      forall k | 0 <= k < |tl| ensures !Hits(start, end, tl[k]) {
        if Hits(start, end, tl[k]) {
          HitSpeakerHasEntry(start, end, tl, t, k);
        }
      }
    } else {
      var r := t.keys[ArgMax(t.keys, t.totals)];
      FirstHitSpec(r, start, end, tl);
      assert Hits(start, end, tl[FirstHit(r, start, end, tl)]);
      forall k | 0 <= k < |tl| && Hits(start, end, tl[k])
        ensures Total(tl[k].speaker, start, end, tl) <= Total(r, start, end, tl)
        ensures Total(tl[k].speaker, start, end, tl) == Total(r, start, end, tl) ==> FirstHit(r, start, end, tl) <= k
      {
        ArgMaxDominates(start, end, tl, t, k);
      }
    }
  }

  /** When no turn is labelled "Unknown", a segment is labelled "Unknown" exactly when no
      turn overlaps it. */
  lemma UnknownIffNoOverlap(start: real, end: real, tl: seq<Turn>)
    requires forall k :: 0 <= k < |tl| ==> tl[k].speaker != Unknown
    ensures DominantSpeaker(start, end, tl) == Unknown <==> forall k :: 0 <= k < |tl| ==> !Hits(start, end, tl[k])
  {
    var r := DominantSpeaker(start, end, tl);
    if exists k :: 0 <= k < |tl| && Hits(start, end, tl[k]) {
      assert tl[FirstHit(r, start, end, tl)].speaker == r;
    }
  }

  /** A turn that only touches or misses the range changes no label. */
  lemma NonOverlappingTurnIgnored(start: real, end: real, tl: seq<Turn>, t: Turn)
    requires !Hits(start, end, t)
    ensures Accumulate(start, end, tl + [t]) == Accumulate(start, end, tl)
    ensures DominantSpeaker(start, end, tl + [t]) == DominantSpeaker(start, end, tl)
  {
    assert (tl + [t])[..|tl|] == tl;
  }

  /** Two turns of one speaker count together: their overlaps add up. */
  lemma TurnsOfOneSpeakerAdd(start: real, end: real, tl: seq<Turn>, t: Turn)
    requires Hits(start, end, t)
    ensures Total(t.speaker, start, end, tl + [t]) == Total(t.speaker, start, end, tl) + Overlap(start, end, t)
    ensures forall s :: s != t.speaker ==> Total(s, start, end, tl + [t]) == Total(s, start, end, tl)
  {
    assert (tl + [t])[..|tl|] == tl;
  }

  // ---------------------------------------------------------------------------
  // diarize_and_merge
  // ---------------------------------------------------------------------------

  /** `diarize_and_merge`: one speaker segment per transcript segment, in order, with the
      times, text and language copied and the dominant speaker attached. */
  function DiarizeAndMerge(segs: seq<TranscriptSegment>, tl: seq<Turn>): (r: seq<SpeakerSegment>)
    ensures |r| == |segs|
    ensures forall k :: 0 <= k < |segs| ==>
      && r[k].start == segs[k].start && r[k].end == segs[k].end
      && r[k].text == segs[k].text && r[k].language == segs[k].language
    ensures forall k :: 0 <= k < |segs| ==>
      r[k].speaker == Unknown || exists i :: 0 <= i < |tl| && tl[i].speaker == r[k].speaker
    ensures forall k :: 0 <= k < |segs| ==> r[k].speaker == DominantSpeaker(segs[k].start, segs[k].end, tl)
    ensures forall k, i :: 0 <= k < |segs| && 0 <= i < |tl| && Hits(segs[k].start, segs[k].end, tl[i]) ==>
      Total(tl[i].speaker, segs[k].start, segs[k].end, tl) <= Total(r[k].speaker, segs[k].start, segs[k].end, tl)
  {
    seq(|segs|, k requires 0 <= k < |segs| =>
      var s := segs[k];
      SpeakerSegment(s.start, s.end, s.text, DominantSpeaker(s.start, s.end, tl), s.language))
  }
}

=== FILE: formatter.dfy ===
/** Rendering (`formatter.py`): segment timestamps, the markdown transcript with
    its speaker-run headers, the JSON metadata sidecar, the intake summary, and the
    three files a saved transcript consists of. */
module Formatter {
  import opened Base
  import opened Text
  import opened Json
  import opened Models

  // ---------------------------------------------------------------------------
  // format_timestamp
  // ---------------------------------------------------------------------------

  /** Hours, minutes and seconds of a time in seconds. */
  datatype Clock = Clock(h: int, m: nat, s: nat)

  /** `h = int(seconds // 3600)`, `m = int((seconds % 3600) // 60)`, `s = int(seconds % 60)`,
      with Python's flooring division and non-negative remainder. */
  function SplitSeconds(sec: real): (c: Clock)
    ensures c.h * 3600 + c.m * 60 + c.s == sec.Floor
    ensures c.m < 60 && c.s < 60
    ensures sec >= 0.0 ==> c.h >= 0
    ensures c.h > 0 <==> sec >= 3600.0
  {
    var h := (sec / 3600.0).Floor;
    var rem := sec - 3600.0 * (h as real);
    var m := (rem / 60.0).Floor;
    var sm := sec - 60.0 * ((sec / 60.0).Floor as real);
    ClockFacts(sec, h, rem, m, sm);
    Clock(h, m, sm.Floor)
  }

  lemma ClockFacts(sec: real, h: int, rem: real, m: int, sm: real)
    requires h == (sec / 3600.0).Floor && rem == sec - 3600.0 * (h as real)
    requires m == (rem / 60.0).Floor && sm == sec - 60.0 * ((sec / 60.0).Floor as real)
    ensures 0.0 <= rem < 3600.0 && 0 <= m < 60
    ensures 0.0 <= sm < 60.0 && 0 <= sm.Floor < 60
    ensures h * 3600 + m * 60 + sm.Floor == sec.Floor
  {
    // sec % 60 is also (sec % 3600) % 60, because 3600 is a multiple of 60.
    var q := (sec / 60.0).Floor;
    assert q == 60 * h + m by {
      assert (q as real) <= sec / 60.0 < q as real + 1.0;
      assert (m as real) <= rem / 60.0 < m as real + 1.0;
    }
    assert sm == rem - 60.0 * (m as real);
  }

  /** `format_timestamp`: `HH:MM:SS` when the hour count is positive, `MM:SS` otherwise,
      every field zero-padded to two digits. */
  function FormatTimestamp(sec: real): (r: string)
    ensures |r| >= 5
    ensures 0.0 <= sec < 3600.0 ==> |r| == 5 && r[2] == ':'
  {
    var c := SplitSeconds(sec);
    TwoDigits(c.m);
    TwoDigits(c.s);
    if c.h > 0 then ZeroPad(c.h, 2) + ":" + ZeroPad(c.m, 2) + ":" + ZeroPad(c.s, 2)
    else ZeroPad(c.m, 2) + ":" + ZeroPad(c.s, 2)
  }

  lemma TwoDigits(n: nat)
    requires n < 100
    ensures |ZeroPad(n, 2)| == 2
  {
    if n >= 10 {
      assert NatToString(n) == NatToString(n / 10) + [DigitChar(n % 10)];
    }
  }

  function TimestampFields(c: Clock): (parts: seq<string>)
    ensures |parts| == (if c.h > 0 then 3 else 2)
    ensures forall i :: 0 <= i < |parts| ==> IsDigits(parts[i]) && |parts[i]| >= 2
  {
    (if c.h > 0 then [ZeroPad(c.h, 2)] else []) + [ZeroPad(c.m, 2), ZeroPad(c.s, 2)]
  }

  /** Reads `HH:MM:SS` or `MM:SS` back into whole seconds. */
  function ParseTimestamp(t: string): (r: Option<int>)
  {
    var parts := Split(t, ':');
    if |parts| == 3 && IsDigits(parts[0]) && IsDigits(parts[1]) && IsDigits(parts[2]) then
      Some(ParseNat(parts[0]) * 3600 + ParseNat(parts[1]) * 60 + ParseNat(parts[2]))
    else if |parts| == 2 && IsDigits(parts[0]) && IsDigits(parts[1]) then
      Some(ParseNat(parts[0]) * 60 + ParseNat(parts[1]))
    else None
  }

  lemma DigitsHaveNoColon(s: string)
    requires IsDigits(s)
    ensures ':' !in s
  {
    forall k | 0 <= k < |s| ensures s[k] != ':' {
      assert IsAsciiDigit(s[k]);
    }
  }

  /** The timestamp is its fields joined by colons. */
  lemma TimestampIsJoin(sec: real)
    ensures FormatTimestamp(sec) == Join(TimestampFields(SplitSeconds(sec)), ":")
  {
    var c := SplitSeconds(sec);
    if c.h > 0 {
      JoinThree(ZeroPad(c.h, 2), ZeroPad(c.m, 2), ZeroPad(c.s, 2), ":");
    } else {
      JoinTwo(ZeroPad(c.m, 2), ZeroPad(c.s, 2), ":");
    }
  }

  /** Splitting the timestamp on colons gives back its fields. */
  lemma TimestampSplits(sec: real)
    ensures Split(FormatTimestamp(sec), ':') == TimestampFields(SplitSeconds(sec))
  {
    var parts := TimestampFields(SplitSeconds(sec));
    forall i | 0 <= i < |parts| ensures ':' !in parts[i] {
      DigitsHaveNoColon(parts[i]);
    }
    SplitJoinRoundTrip(parts, ':');
    TimestampIsJoin(sec);
  }

  /** Reading back fields that are all decimal digits. */
  lemma ParseFields(t: string, c: Clock)
    requires Split(t, ':') == TimestampFields(c)
    ensures ParseTimestamp(t) == Some(if c.h > 0 then c.h * 3600 + c.m * 60 + c.s else c.m * 60 + c.s)
  {
    var parts := Split(t, ':');
    var mm := ZeroPad(c.m, 2);
    var ss := ZeroPad(c.s, 2);
    if c.h > 0 {
      var hh := ZeroPad(c.h, 2);
      assert parts == [hh, mm, ss];
      assert ParseNat(hh) == c.h && ParseNat(mm) == c.m && ParseNat(ss) == c.s;
    } else {
      assert parts == [mm, ss];
      assert ParseNat(mm) == c.m && ParseNat(ss) == c.s;
    }
  }

  /** Euclidean remainder of a number written as a multiple of 3600 plus a smaller rest. */
  lemma HourRemainder(f: int, h: int, rest: int)
    requires f == h * 3600 + rest && 0 <= rest < 3600
    ensures f % 3600 == rest
  {
  }

  /** The rendered timestamp denotes the whole seconds it was made from, for every time not
      before the start of the recording; an earlier time shows its seconds within the hour. */
  lemma TimestampRoundTrip(sec: real)
    ensures sec >= 0.0 ==> ParseTimestamp(FormatTimestamp(sec)) == Some(sec.Floor)
    ensures sec < 0.0 ==> ParseTimestamp(FormatTimestamp(sec)) == Some(sec.Floor % 3600)
    ensures |Split(FormatTimestamp(sec), ':')| == (if sec >= 3600.0 then 3 else 2)
  {
    var c := SplitSeconds(sec);
    var t := FormatTimestamp(sec);
    TimestampSplits(sec);
    ParseFields(t, c);
    var v := if c.h > 0 then c.h * 3600 + c.m * 60 + c.s else c.m * 60 + c.s;
    assert ParseTimestamp(t) == Some(v);
    if sec >= 0.0 {
      assert v == sec.Floor by {
        if c.h <= 0 {
          assert c.h == 0;
        }
      }
    } else {
      assert c.h <= 0;
      HourRemainder(sec.Floor, c.h, v);
    }
  }

  // ---------------------------------------------------------------------------
  // Number formatting: `:.0f` and `round(x, 1)`
  // ---------------------------------------------------------------------------

  /** Rounds to the nearest integer, halves to the even neighbour (Python's rounding). */
  function RoundHalfEven(x: real): (n: int)
    ensures -0.5 <= n as real - x <= 0.5
    ensures (n as real - x == 0.5 || x - n as real == 0.5) ==> n % 2 == 0
  {
    var f := x.Floor;
    var d := x - f as real;
    if d < 0.5 then f
    else if d > 0.5 then f + 1
    else if f % 2 == 0 then f else f + 1
  }

  /** Those two properties determine the rounded value. */
  lemma RoundHalfEvenUnique(x: real, n: int)
    requires -0.5 <= n as real - x <= 0.5
    requires (n as real - x == 0.5 || x - n as real == 0.5) ==> n % 2 == 0
    ensures n == RoundHalfEven(x)
  {
  }

  /** Rounding commutes with negation. */
  lemma RoundHalfEvenOdd(x: real)
    ensures RoundHalfEven(-x) == -RoundHalfEven(x)
  {
    RoundHalfEvenUnique(-x, -RoundHalfEven(x));
  }

  /** Python's `f"{x:.0f}"`: the rounded magnitude, with a minus sign for every negative
      value, even one that rounds to zero. */
  function FormatFixed0(x: real): (r: string)
    ensures x < 0.0 ==> |r| >= 2 && r[0] == '-' && IsDigits(r[1..]) && ParseNat(r[1..]) == -RoundHalfEven(x)
    ensures x >= 0.0 ==> IsDigits(r) && ParseNat(r) == RoundHalfEven(x)
  {
    if x < 0.0 then
      RoundHalfEvenOdd(x);
      assert RoundHalfEven(-x) as real >= -x - 0.5;
      var r := "-" + NatToString(RoundHalfEven(-x));
      assert r[1..] == NatToString(RoundHalfEven(-x));
      r
    else
      assert RoundHalfEven(x) as real >= x - 0.5;
      NatToString(RoundHalfEven(x))
  }

  /** Python's `round(x, 1)`: the nearest multiple of a tenth, halves to even tenths. */
  function RoundTenth(x: real): (r: real)
    ensures -0.05 <= r - x <= 0.05
    ensures (r * 10.0).Floor as real == r * 10.0
    ensures (r - x == 0.05 || x - r == 0.05) ==> (r * 10.0).Floor % 2 == 0
  {
    var y := x * 10.0;
    var n := RoundHalfEven(y);
    var r := n as real / 10.0;
    assert r * 10.0 == n as real;
    assert r - x == (n as real - y) / 10.0;
    r
  }

  // ---------------------------------------------------------------------------
  // format_transcript_markdown
  // ---------------------------------------------------------------------------

  /** Title, platform and date lines, then `Ended` and `Duration` only for an ended meeting,
      then the opening of the transcript section. */
  function HeaderLines(m: MeetingInfo): (r: seq<string>)
    ensures |r| == (if m.endedAt.Some? then 12 else 10)
    ensures r[0] == "# Meeting Transcript \U{2014} " + m.title
    ensures m.endedAt.Some? ==>
      && r[5] == "**Ended:** " + m.endedAt.value.hm
      && r[6] == "**Duration:** " + FormatFixed0(DurationMinutes(m, 0.0)) + " minutes"
    ensures m.endedAt.None? ==> r[5] == ""
  {
    var top := [
      "# Meeting Transcript \U{2014} " + m.title,
      "",
      "**Platform:** " + m.platform,
      "**Date:** " + m.startedAt.date,
      "**Started:** " + m.startedAt.hm
    ];
    var ended := if m.endedAt.Some? then
        ["**Ended:** " + m.endedAt.value.hm,
         "**Duration:** " + FormatFixed0(DurationMinutes(m, 0.0)) + " minutes"]
      else [];
    top + ended + ["", "---", "", "## Transcript", ""]
  }

  const FooterLines: seq<string> := ["", "---", "", "*Transcribed locally by BizBrain OS meeting transcriber.*", ""]

  /** Speaker mode: decided by the type of the first segment alone. */
  predicate SpeakerMode(segs: seq<Segment>)
  {
    |segs| > 0 && segs[0].Spoken?
  }

  /** The output for one segment: an optional speaker header line, then its text line. */
  datatype BodyEntry = BodyEntry(header: Option<string>, line: string)

  function SpeakerHeader(speaker: string, timestamp: string): string
  {
    "\n**" + speaker + "** [" + timestamp + "]"
  }

  /** The entry the loop makes for one segment, given the current speaker: in speaker
      mode a speaker segment is quoted, with a header when its speaker differs from
      `current`; every other segment is a timestamped line. */
  function EntryFor(seg: Segment, mode: bool, current: Option<string>): (e: BodyEntry)
    ensures e.header.Some? <==> mode && seg.Spoken? && current != Some(seg.spoken.speaker)
  {
    var ts := FormatTimestamp(seg.Start());
    if mode && seg.Spoken? then
      var spk := seg.spoken.speaker;
      BodyEntry(if current != Some(spk) then Some(SpeakerHeader(spk, ts)) else None, "> " + seg.spoken.text)
    else BodyEntry(None, "[" + ts + "] " + seg.Text())
  }

  /** The speaker in effect after one segment. */
  function NextSpeaker(seg: Segment, mode: bool, current: Option<string>): Option<string>
  {
    if mode && seg.Spoken? then Some(seg.spoken.speaker) else current
  }

  /** The loop over the segments, with `current` the last speaker that got a header. */
  function BodyEntries(segs: seq<Segment>, mode: bool, current: Option<string>): (r: seq<BodyEntry>)
    ensures |r| == |segs|
    decreases |segs|
  {
    if |segs| == 0 then []
    else [EntryFor(segs[0], mode, current)] + BodyEntries(segs[1..], mode, NextSpeaker(segs[0], mode, current))
  }

  /** One step of the loop: the first entry, then the loop over the rest. */
  lemma BodyEntriesCons(segs: seq<Segment>, mode: bool, current: Option<string>)
    requires |segs| > 0
    ensures BodyEntries(segs, mode, current)[0] == EntryFor(segs[0], mode, current)
    ensures BodyEntries(segs, mode, current)[1..] == BodyEntries(segs[1..], mode, NextSpeaker(segs[0], mode, current))
    ensures BodyEntries(segs, mode, current)[0].header.Some?
        <==> mode && segs[0].Spoken? && current != Some(segs[0].spoken.speaker)
  {
  }

  /** The speaker of the last speaker segment, if any. */
  function LastSpeaker(segs: seq<Segment>): Option<string>
  {
    if |segs| == 0 then None
    else if segs[|segs| - 1].Spoken? then Some(segs[|segs| - 1].spoken.speaker)
    else LastSpeaker(segs[..|segs| - 1])
  }

  /** The speaker in effect after `segs`, starting from `current`. */
  function SpeakerAfter(current: Option<string>, segs: seq<Segment>): Option<string>
  {
    if LastSpeaker(segs).Some? then LastSpeaker(segs) else current
  }

  lemma {:induction false} SpeakerAfterCons(current: Option<string>, x: Segment, ys: seq<Segment>)
    ensures SpeakerAfter(current, [x] + ys)
         == SpeakerAfter(if x.Spoken? then Some(x.spoken.speaker) else current, ys)
    decreases |ys|
  {
    if |ys| > 0 {
      var zs := [x] + ys;
      assert zs[..|zs| - 1] == [x] + ys[..|ys| - 1];
      SpeakerAfterCons(current, x, ys[..|ys| - 1]);
    } else {
      assert [x] + ys == [x];
      assert [x][..0] == [];
    }
  }

  /** Segment `i` gets a header exactly in speaker mode, when it is a speaker segment whose
      speaker differs from the one in effect before it. */
  lemma {:induction false} HeaderAt(segs: seq<Segment>, mode: bool, current: Option<string>, i: nat)
    requires i < |segs|
    ensures BodyEntries(segs, mode, current)[i].header.Some?
        <==> mode && segs[i].Spoken? && SpeakerAfter(current, segs[..i]) != Some(segs[i].spoken.speaker)
    decreases i
  {
    if i > 0 {
      var next := NextSpeaker(segs[0], mode, current);
      HeaderAt(segs[1..], mode, next, i - 1);
      BodyEntriesCons(segs, mode, current);
      HeaderAtStep(segs, mode, current, i, BodyEntries(segs, mode, current), BodyEntries(segs[1..], mode, next));
    } else {
      BodyEntriesCons(segs, mode, current);
      assert segs[..0] == [];
    }
  }

  /** The step of `HeaderAt`: entry `i` of the loop is entry `i - 1` of the loop over the
      rest, whose speaker in effect was advanced past the first segment. */
  lemma HeaderAtStep(segs: seq<Segment>, mode: bool, current: Option<string>, i: nat,
                     whole: seq<BodyEntry>, tail: seq<BodyEntry>)
    requires 0 < i < |segs| == |whole|
    requires whole[1..] == tail
    requires tail[i - 1].header.Some?
        <==> mode && segs[i].Spoken?
             && SpeakerAfter(NextSpeaker(segs[0], mode, current), segs[1..][..i - 1]) != Some(segs[i].spoken.speaker)
    ensures whole[i].header.Some?
        <==> mode && segs[i].Spoken? && SpeakerAfter(current, segs[..i]) != Some(segs[i].spoken.speaker)
  {
    assert whole[i] == tail[i - 1];
    if mode {
      var x := segs[0];
      var rest := segs[1..][..i - 1];
      assert segs[..i] == [x] + rest;
      SpeakerAfterCons(current, x, rest);
    }
  }

  lemma {:induction false} BodyHasNoHeaders(segs: seq<Segment>, current: Option<string>, i: nat)
    requires i < |segs|
    ensures BodyEntries(segs, false, current)[i].header.None?
    decreases i
  {
    BodyEntriesCons(segs, false, current);
    if i > 0 {
      BodyHasNoHeaders(segs[1..], current, i - 1);
    }
  }

  /** The markdown's own segment loop, starting with no current speaker. */
  function Body(segs: seq<Segment>): (r: seq<BodyEntry>)
    ensures |r| == |segs|
    ensures forall i :: 0 <= i < |segs| ==>
      (r[i].header.Some? <==> SpeakerMode(segs) && segs[i].Spoken? && LastSpeaker(segs[..i]) != Some(segs[i].spoken.speaker))
  {
    var r := BodyEntries(segs, SpeakerMode(segs), None);
    forall i | 0 <= i < |segs|
      ensures r[i].header.Some? <==> SpeakerMode(segs) && segs[i].Spoken? && LastSpeaker(segs[..i]) != Some(segs[i].spoken.speaker)
    {
      HeaderAt(segs, SpeakerMode(segs), None, i);
    }
    r
  }

  /** The body's lines: each entry's header, when present, before its text line. */
  function BodyLines(entries: seq<BodyEntry>): (r: seq<string>)
    ensures |r| == |entries| + HeaderCount(entries)
  {
    if |entries| == 0 then []
    else
      var e := entries[|entries| - 1];
      BodyLines(entries[..|entries| - 1]) + (if e.header.Some? then [e.header.value] else []) + [e.line]
  }

  function HeaderCount(entries: seq<BodyEntry>): nat
  {
    if |entries| == 0 then 0
    else HeaderCount(entries[..|entries| - 1]) + (if entries[|entries| - 1].header.Some? then 1 else 0)
  }

  /** The speakers of the speaker segments, in order. */
  function Speakers(segs: seq<Segment>): (r: seq<string>)
    ensures forall y :: y in r <==> exists k :: 0 <= k < |segs| && segs[k].Spoken? && segs[k].spoken.speaker == y
  {
    if |segs| == 0 then []
    else
      var init := segs[..|segs| - 1];
      var last := segs[|segs| - 1];
      var r := Speakers(init) + (if last.Spoken? then [last.spoken.speaker] else []);
      assert forall k :: 0 <= k < |init| ==> init[k] == segs[k];
      r
  }

  /** Number of maximal runs of equal adjacent names. */
  function Runs(xs: seq<string>): nat
  {
    if |xs| == 0 then 0
    else
      var init := xs[..|xs| - 1];
      Runs(init) + (if |init| == 0 || init[|init| - 1] != xs[|xs| - 1] then 1 else 0)
  }

  lemma {:induction false} LastSpeakerIsLastOfSpeakers(segs: seq<Segment>)
    ensures LastSpeaker(segs).None? <==> Speakers(segs) == []
    ensures LastSpeaker(segs).Some? ==> LastSpeaker(segs).value == Speakers(segs)[|Speakers(segs)| - 1]
    decreases |segs|
  {
    if |segs| > 0 {
      LastSpeakerIsLastOfSpeakers(segs[..|segs| - 1]);
    }
  }

  /** A first element and a prefix of the rest make a prefix. */
  lemma ConsPrefix(whole: seq<BodyEntry>, part: seq<BodyEntry>, n: nat)
    requires 0 < n <= |whole| && |part| == n
    requires part[0] == whole[0] && part[1..] == whole[1..][..n - 1]
    ensures part == whole[..n]
  {
    assert forall k :: 1 <= k < n ==> part[k] == part[1..][k - 1];
  }

  lemma {:induction false} BodyPrefix(segs: seq<Segment>, mode: bool, current: Option<string>, n: nat)
    requires n <= |segs|
    ensures BodyEntries(segs[..n], mode, current) == BodyEntries(segs, mode, current)[..n]
    decreases n
  {
    if n > 0 {
      var next := NextSpeaker(segs[0], mode, current);
      BodyPrefix(segs[1..], mode, next, n - 1);
      BodyEntriesCons(segs, mode, current);
      BodyEntriesCons(segs[..n], mode, current);
      assert segs[..n][1..] == segs[1..][..n - 1];
      assert segs[..n][0] == segs[0];
      ConsPrefix(BodyEntries(segs, mode, current), BodyEntries(segs[..n], mode, current), n);
    }
  }

  /** In speaker mode the number of speaker headers is the number of runs of equal
      consecutive speakers; otherwise there are none. */
  lemma {:induction false} HeadersAreRuns(segs: seq<Segment>, n: nat)
    requires n <= |segs|
    ensures HeaderCount(Body(segs)[..n]) == (if SpeakerMode(segs) then Runs(Speakers(segs[..n])) else 0)
    decreases n
  {
    if n > 0 {
      HeadersAreRuns(segs, n - 1);
      HeadersStep(segs, SpeakerMode(segs), Body(segs), n);
    } else {
      assert segs[..0] == [];
    }
  }

  lemma HeaderCountSnoc(es: seq<BodyEntry>, k: nat)
    requires 0 < k <= |es|
    ensures HeaderCount(es[..k]) == HeaderCount(es[..k - 1]) + (if es[k - 1].header.Some? then 1 else 0)
  {
    assert es[..k][..k - 1] == es[..k - 1];
  }

  lemma SpeakersSnoc(segs: seq<Segment>, k: nat)
    requires 0 < k <= |segs|
    ensures Speakers(segs[..k])
         == Speakers(segs[..k - 1]) + (if segs[k - 1].Spoken? then [segs[k - 1].spoken.speaker] else [])
  {
    assert segs[..k][..k - 1] == segs[..k - 1];
  }

  /** One more name starts a new run exactly when it differs from the last one. */
  lemma RunsSnoc(xs: seq<string>, y: string)
    ensures Runs(xs + [y]) == Runs(xs) + (if xs == [] || xs[|xs| - 1] != y then 1 else 0)
  {
    assert (xs + [y])[..|xs|] == xs;
  }

  /** The step of `HeadersAreRuns`, for any entries `b` whose entry `n - 1` has a header
      exactly when the body's does. */
  lemma HeadersStep(segs: seq<Segment>, mode: bool, b: seq<BodyEntry>, n: nat)
    requires 0 < n <= |segs| == |b|
    requires b[n - 1].header.Some?
        <==> mode && segs[n - 1].Spoken? && LastSpeaker(segs[..n - 1]) != Some(segs[n - 1].spoken.speaker)
    requires HeaderCount(b[..n - 1]) == (if mode then Runs(Speakers(segs[..n - 1])) else 0)
    ensures HeaderCount(b[..n]) == (if mode then Runs(Speakers(segs[..n])) else 0)
  {
    HeaderCountSnoc(b, n);
    SpeakersSnoc(segs, n);
    var x := segs[n - 1];
    if x.Spoken? {
      LastSpeakerIsLastOfSpeakers(segs[..n - 1]);
      RunsSnoc(Speakers(segs[..n - 1]), x.spoken.speaker);
    } else {
      assert Speakers(segs[..n]) == Speakers(segs[..n - 1]) + [] == Speakers(segs[..n - 1]);
    }
  }

  /** The whole markdown document, line by line. */
  function MarkdownLines(m: MeetingInfo, segs: seq<Segment>): (r: seq<string>)
    ensures |r| == |HeaderLines(m)| + |segs| + HeaderCount(Body(segs)) + |FooterLines|
    ensures r[..|HeaderLines(m)|] == HeaderLines(m)
  {
    HeaderLines(m) + BodyLines(Body(segs)) + FooterLines
  }

  /** `format_transcript_markdown`: the lines joined by newlines. */
  function FormatTranscriptMarkdown(m: MeetingInfo, segs: seq<Segment>): (r: string)
    ensures StartsWith(r, "# Meeting Transcript \U{2014} " + m.title)
    ensures (forall i :: 0 <= i < |MarkdownLines(m, segs)| ==> '\n' !in MarkdownLines(m, segs)[i]) ==>
      Split(r, '\n') == MarkdownLines(m, segs)
    ensures Split(r, '\n') == SplitEach(MarkdownLines(m, segs), '\n')
  {
    var lines := MarkdownLines(m, segs);
    JoinStartsWithFirst(lines, "\n");
    SplitJoinLines(lines, '\n');
    SplitJoin(lines, '\n');
    Join(lines, "\n")
  }

  // ---------------------------------------------------------------------------
  // format_metadata_json
  // ---------------------------------------------------------------------------

  /** Sum of `f` over the segments, folded from the left. */
  function SumOver(segs: seq<Segment>, f: Segment -> nat): nat
  {
    if |segs| == 0 then 0
    else SumOver(segs[..|segs| - 1], f) + f(segs[|segs| - 1])
  }

  lemma {:induction false} SumOverAppend(a: seq<Segment>, b: seq<Segment>, f: Segment -> nat)
    ensures SumOver(a + b, f) == SumOver(a, f) + SumOver(b, f)
    decreases |b|
  {
    if |b| == 0 {
      assert a + b == a;
    } else {
      var ab := a + b;
      assert ab[..|ab| - 1] == a + b[..|b| - 1];
      assert ab[|ab| - 1] == b[|b| - 1];
      SumOverAppend(a, b[..|b| - 1], f);
    }
  }

  /** Number of whitespace-separated words in one segment's text. */
  function SegmentWords(seg: Segment): nat
  {
    |Words(seg.Text())|
  }

  /** Total number of whitespace-separated words over all segment texts. */
  function WordCount(segs: seq<Segment>): nat
  {
    SumOver(segs, SegmentWords)
  }

  /** Word counts add up over consecutive groups of segments. */
  lemma WordCountAppend(a: seq<Segment>, b: seq<Segment>)
    ensures WordCount(a + b) == WordCount(a) + WordCount(b)
  {
    SumOverAppend(a, b, SegmentWords);
  }

  /** The metadata speaker list: in speaker mode, every distinct speaker sorted by code
      point; otherwise empty. */
  function MetaSpeakers(segs: seq<Segment>): (r: seq<string>)
    ensures StrictlySorted(r)
    ensures forall y :: y in r <==>
      SpeakerMode(segs) && exists k :: 0 <= k < |segs| && segs[k].Spoken? && segs[k].spoken.speaker == y
    ensures !SpeakerMode(segs) ==> r == []
  {
    if SpeakerMode(segs) then SortedUnique(Speakers(segs)) else []
  }

  /** `format_metadata_json`, with `generatedAt` standing for the clock reading taken for
      `generated_at` and `now` for the one `duration_minutes` takes for a meeting still open. */
  function FormatMetadataJson(m: MeetingInfo, segs: seq<Segment>, now: real, generatedAt: Stamp): (j: Json)
    ensures j.JObj? && j.fields.Keys == {"type", "version", "meeting", "transcript", "generated_at", "generator"}
    ensures j.fields["meeting"].JObj? && j.fields["transcript"].JObj?
    ensures var t := j.fields["transcript"].fields;
      && t.Keys == {"segments", "word_count", "speakers", "has_diarization"}
      && t["segments"] == JInt(|segs|)
      && t["word_count"] == JInt(WordCount(segs))
      && ReadStrList(t["speakers"]) == Some(MetaSpeakers(segs))
      && (t["has_diarization"] == JBool(true) <==> MetaSpeakers(segs) != [])
      && t["has_diarization"].JBool?
    ensures var mt := j.fields["meeting"].fields;
      && mt.Keys == {"platform", "title", "date", "started_at", "ended_at", "duration_minutes"}
      && (mt["ended_at"] == JNull <==> m.endedAt.None?)
      && mt["duration_minutes"] == JFloat(RoundTenth(DurationMinutes(m, now)))
  {
    StrListRoundTrip(MetaSpeakers(segs));
    JObj(map[
      "type" := JStr("meeting-transcript"),
      "version" := JStr("1.0.0"),
      "meeting" := JObj(map[
        "platform" := JStr(m.platform),
        "title" := JStr(m.title),
        "date" := JStr(m.startedAt.date),
        "started_at" := JStr(m.startedAt.iso),
        "ended_at" := (if m.endedAt.Some? then JStr(m.endedAt.value.iso) else JNull),
        "duration_minutes" := JFloat(RoundTenth(DurationMinutes(m, now)))
      ]),
      "transcript" := JObj(map[
        "segments" := JInt(|segs|),
        "word_count" := JInt(WordCount(segs)),
        "speakers" := StrList(MetaSpeakers(segs)),
        "has_diarization" := JBool(MetaSpeakers(segs) != [])
      ]),
      "generated_at" := JStr(generatedAt.iso),
      "generator" := JStr("bizbrain-meetings")
    ])
  }

  // ---------------------------------------------------------------------------
  // format_intake_summary
  // ---------------------------------------------------------------------------

  function Texts(segs: seq<Segment>): (r: seq<string>)
    ensures |r| == |segs| && forall k :: 0 <= k < |segs| ==> r[k] == segs[k].Text()
  {
    seq(|segs|, k requires 0 <= k < |segs| => segs[k].Text())
  }

  const ExcerptSegments: nat := 20
  const ExcerptChars: nat := 1000

  /** The opening excerpt: the first 20 segment texts joined by single spaces, cut to
      1000 characters. It is a prefix of all texts joined the same way, and it is the
      whole joined opening when that fits. */
  function Excerpt(segs: seq<Segment>): (r: string)
    ensures |r| <= ExcerptChars
    ensures StartsWith(Join(Texts(segs), " "), r)
    ensures |Join(Texts(Take(segs, ExcerptSegments)), " ")| <= ExcerptChars ==>
      r == Join(Texts(Take(segs, ExcerptSegments)), " ")
    ensures StartsWith(Join(Texts(Take(segs, ExcerptSegments)), " "), r)
    ensures |r| == Min(ExcerptChars, |Join(Texts(Take(segs, ExcerptSegments)), " ")|)
  {
    var opening := Join(Texts(Take(segs, ExcerptSegments)), " ");
    var n := Min(ExcerptSegments, |segs|);
    assert Texts(Take(segs, ExcerptSegments)) == Texts(segs)[..n];
    JoinPrefix(Texts(segs), n, " ");
    Take(opening, ExcerptChars)
  }

  const TranscriptDir: string := "Operations/meetings/transcripts"
  const IntakeDir: string := "_intake-dump/files"

  /** `<date>-<slug>`: the stem of every file a saved transcript consists of. */
  function FileStem(m: MeetingInfo): string
  {
    m.startedAt.date + "-" + Slug(m)
  }

  /** `dir / name` for paths written with forward slashes. */
  function Under(dir: string, name: string): string
  {
    dir + "/" + name
  }

  lemma UnderAssoc(a: string, b: string, c: string)
    ensures Under(Under(a, b), c) == Under(a, Under(b, c))
  {
    assert a + "/" + b + "/" + c == a + "/" + (b + "/" + c);
  }

  /** Where the transcript lives, relative to the brain folder. */
  function TranscriptRelPath(m: MeetingInfo): string
  {
    Under(TranscriptDir, FileStem(m) + ".md")
  }

  /** The intake summary's lines before the pointer to the full transcript. */
  function IntakeHead(m: MeetingInfo, segs: seq<Segment>, now: real): (r: seq<string>)
    ensures |r| == 11
  {
    [
      "# Meeting Summary \U{2014} " + m.title,
      "",
      "**Platform:** " + m.platform,
      "**Date:** " + m.startedAt.date + " " + m.startedAt.hm,
      "**Duration:** " + FormatFixed0(DurationMinutes(m, now)) + " minutes",
      "**Word count:** " + NatToString(WordCount(segs)),
      "",
      "## Opening excerpt",
      "",
      Excerpt(segs),
      ""
    ]
  }

  const IntakeTail: seq<string> :=
    ["", "---", "*Process this file for entity linking and action item extraction.*", ""]

  /** The intake summary, line by line. */
  function IntakeLines(m: MeetingInfo, segs: seq<Segment>, now: real): seq<string>
  {
    IntakeHead(m, segs, now) + ["**Full transcript:** " + TranscriptRelPath(m)] + IntakeTail
  }

  /** `format_intake_summary`: the lines joined by newlines. */
  function FormatIntakeSummary(m: MeetingInfo, segs: seq<Segment>, now: real): (r: string)
    ensures StartsWith(r, "# Meeting Summary \U{2014} " + m.title)
    ensures (forall i :: 0 <= i < |IntakeLines(m, segs, now)| ==> '\n' !in IntakeLines(m, segs, now)[i]) ==>
      && Split(r, '\n') == IntakeLines(m, segs, now)
      && Split(r, '\n')[9] == Excerpt(segs)
      && Split(r, '\n')[11] == "**Full transcript:** " + TranscriptRelPath(m)
  {
    var lines := IntakeLines(m, segs, now);
    JoinStartsWithFirst(lines, "\n");
    SplitJoinLines(lines, '\n');
    assert lines[9] == Excerpt(segs);
    assert lines[11] == "**Full transcript:** " + TranscriptRelPath(m);
    Join(lines, "\n")
  }

  // ---------------------------------------------------------------------------
  // save_transcript
  // ---------------------------------------------------------------------------

  datatype Content = Markdown(text: string) | JsonDoc(doc: Json)

  datatype FileWrite = FileWrite(path: string, content: Content)

  /** What `save_transcript` does: the files it writes, in order, and the path it returns. */
  datatype Saved = Saved(mdPath: string, writes: seq<FileWrite>)

  /** `save_transcript`: the markdown and its metadata sidecar in the transcripts folder,
      named after the stem, and the intake summary in the intake folder named
      `meeting-<stem>.md`; returns the markdown's path. */
  function SaveTranscript(brain: string, m: MeetingInfo, segs: seq<Segment>, now: real, generatedAt: Stamp): (r: Saved)
    ensures |r.writes| == 3
    ensures r.writes[0].path == r.mdPath
    ensures r.mdPath == Under(brain, TranscriptRelPath(m))
    ensures r.writes[0].content.Markdown? && r.writes[2].content.Markdown?
    ensures r.writes[1].path == Under(brain, Under(TranscriptDir, FileStem(m) + ".meta.json"))
    ensures r.writes[1].content == JsonDoc(FormatMetadataJson(m, segs, now, generatedAt))
    ensures r.writes[2].path == Under(brain, Under(IntakeDir, "meeting-" + FileStem(m) + ".md"))
    ensures r.writes[0].content == Markdown(FormatTranscriptMarkdown(m, segs))
    ensures r.writes[2].content == Markdown(FormatIntakeSummary(m, segs, now))
  {
    var filename := FileStem(m);
    var dir := Under(brain, TranscriptDir);
    var md := Under(dir, filename + ".md");
    var meta := Under(dir, filename + ".meta.json");
    var intake := Under(Under(brain, IntakeDir), "meeting-" + filename + ".md");
    UnderAssoc(brain, TranscriptDir, filename + ".md");
    UnderAssoc(brain, TranscriptDir, filename + ".meta.json");
    UnderAssoc(brain, IntakeDir, "meeting-" + filename + ".md");
    Saved(md, [
      FileWrite(md, Markdown(FormatTranscriptMarkdown(m, segs))),
      FileWrite(meta, JsonDoc(FormatMetadataJson(m, segs, now, generatedAt))),
      FileWrite(intake, Markdown(FormatIntakeSummary(m, segs, now)))])
  }

  /** The intake summary names, relative to the brain folder, the markdown file that
      `save_transcript` writes and returns. */
  lemma IntakePointsAtTranscript(brain: string, m: MeetingInfo, segs: seq<Segment>, now: real, generatedAt: Stamp)
    ensures var saved := SaveTranscript(brain, m, segs, now, generatedAt);
      IntakeLines(m, segs, now)[11] == "**Full transcript:** " + TranscriptRelPath(m)
      && saved.writes[0].path == Under(brain, TranscriptRelPath(m))
  {
    var head := IntakeHead(m, segs, now);
    assert (head + ["**Full transcript:** " + TranscriptRelPath(m)] + IntakeTail)[11]
        == "**Full transcript:** " + TranscriptRelPath(m);
  }
}

=== FILE: json.dfy ===
/** JSON documents as the values `json.loads` yields and `json.dumps` consumes.
    Text encoding, indentation and key order of the written file are not modelled:
    an object is a map from keys to values. */
module Json {
  import opened Base

  datatype Json =
    | JNull
    | JBool(b: bool)
    | JInt(i: int)
    | JFloat(r: real)
    | JStr(s: string)
    | JArr(items: seq<Json>)
    | JObj(fields: map<string, Json>)

  /** A file the program reads as JSON: absent, present but not valid JSON, or parsed. */
  datatype JsonFile = Missing | Unparsable | Parsed(doc: Json)

  /** Python's `d.get(key, default)`. */
  function Get(fields: map<string, Json>, key: string, default: Json): (v: Json)
    ensures key in fields ==> v == fields[key]
    ensures key !in fields ==> v == default
  {
    if key in fields then fields[key] else default
  }

  /** A list of strings rendered as a JSON array. */
  function StrList(xs: seq<string>): (j: Json)
    ensures j.JArr? && |j.items| == |xs|
    ensures forall i :: 0 <= i < |xs| ==> j.items[i] == JStr(xs[i])
  {
    JArr(seq(|xs|, i requires 0 <= i < |xs| => JStr(xs[i])))
  }

  /** Reads a JSON array of strings back; `None` if any item is not a string. */
  function ReadStrList(j: Json): (r: Option<seq<string>>)
    ensures r.Some? ==> j.JArr? && |r.value| == |j.items|
    ensures r.Some? ==> forall i :: 0 <= i < |j.items| ==> j.items[i] == JStr(r.value[i])
  {
    if j.JArr? && forall i :: 0 <= i < |j.items| ==> j.items[i].JStr? then
      Some(seq(|j.items|, i requires 0 <= i < |j.items| => j.items[i].s))
    else None
  }

  /** Writing a list of strings and reading it back returns the same list. */
  lemma StrListRoundTrip(xs: seq<string>)
    ensures ReadStrList(StrList(xs)) == Some(xs)
  {
    var j := StrList(xs);
    assert forall i :: 0 <= i < |j.items| ==> j.items[i].JStr?;
    assert ReadStrList(j).value == xs;
  }
}

=== FILE: models.dfy ===
/** The records of the transcriber (`models.py`): meeting metadata with its
    filename slug and dictionary form, transcript segments with and without a
    speaker, and the daemon's persisted status with its save/load mapping. */
module Models {
  import opened Base
  import opened Text
  import opened Json

  /** A `datetime`: its instant in seconds and the renderings the program asks of it
      (`isoformat()`, `%Y-%m-%d`, `%H:%M`, `%Y-%m-%d_%H%M%S`). The clock and the
      calendar arithmetic behind the renderings are inputs of the model. */
  datatype Stamp = Stamp(seconds: real, iso: string, date: string, hm: string, compact: string)

  /** Metadata about a detected or active meeting. */
  datatype MeetingInfo = MeetingInfo(
    platform: string,
    title: string,
    startedAt: Stamp,
    endedAt: Option<Stamp>,
    processName: string,
    windowTitle: string,
    audioChunks: seq<string>,
    transcriptPath: Option<string>)

  /** A segment as the speech model returns it, times in seconds. */
  datatype TranscriptSegment = TranscriptSegment(start: real, end: real, text: string, language: string, probability: real)

  /** A segment with speaker attribution. */
  datatype SpeakerSegment = SpeakerSegment(start: real, end: real, text: string, speaker: string, language: string)

  /** The list element type `TranscriptSegment | SpeakerSegment` the formatter accepts. */
  datatype Segment = Plain(plain: TranscriptSegment) | Spoken(spoken: SpeakerSegment) {
    function Start(): real { if Plain? then plain.start else spoken.start }
    function Text(): string { if Plain? then plain.text else spoken.text }
  }

  // ---------------------------------------------------------------------------
  // MeetingInfo.slug
  // ---------------------------------------------------------------------------

  /** Characters the slug keeps: `c.isalnum() or c == "-"`, with `isalnum` taken over
      ASCII letters and digits only. Python's `isalnum` also accepts non-ASCII letters
      and digits, which this model drops. */
  predicate IsSlugChar(c: char)
  {
    IsAsciiAlnum(c) || c == '-'
  }

  /** Text that the slug sanitiser leaves unchanged: slug characters, no upper case. */
  predicate IsSlugText(s: string)
  {
    forall k :: 0 <= k < |s| ==> IsSlugChar(s[k]) && !('A' <= s[k] <= 'Z')
  }

  function KeepSlugChars(s: string): (r: string)
    ensures |r| <= |s|
    ensures forall k :: 0 <= k < |r| ==> IsSlugChar(r[k]) && r[k] in s
  {
    if |s| == 0 then []
    else if IsSlugChar(s[0]) then [s[0]] + KeepSlugChars(s[1..])
    else KeepSlugChars(s[1..])
  }

  /** `title.lower().replace(" ", "-")` filtered to slug characters. */
  function Sanitize(title: string): (r: string)
    ensures IsSlugText(r)
    ensures |r| <= |title|
  {
    var lowered := ReplaceChar(Lower(title), ' ', '-');
    assert forall k :: 0 <= k < |lowered| ==> !('A' <= lowered[k] <= 'Z');
    KeepSlugChars(lowered)
  }

  /** `MeetingInfo.slug`: the sanitised title cut to 60 characters, or the platform
      string, unsanitised, when nothing of the title survives. */
  function Slug(m: MeetingInfo): (r: string)
    ensures Sanitize(m.title) == [] ==> r == m.platform
    ensures Sanitize(m.title) != [] ==>
      && 1 <= |r| <= 60
      && IsSlugText(r)
      && StartsWith(Sanitize(m.title), r)
      && |r| == Min(60, |Sanitize(m.title)|)
  {
    var safe := Take(Sanitize(m.title), 60);
    if safe == [] then m.platform else safe
  }

  lemma {:induction false} KeepSlugCharsFixed(s: string)
    requires forall k :: 0 <= k < |s| ==> IsSlugChar(s[k])
    ensures KeepSlugChars(s) == s
    decreases |s|
  {
    if |s| > 0 {
      KeepSlugCharsFixed(s[1..]);
      assert s == [s[0]] + s[1..];
    }
  }

  lemma {:induction false} KeepSlugCharsAppend(a: string, b: string)
    ensures KeepSlugChars(a + b) == KeepSlugChars(a) + KeepSlugChars(b)
    decreases |a|
  {
    if |a| == 0 {
      assert a + b == b;
    } else {
      assert (a + b)[0] == a[0];
      assert (a + b)[1..] == a[1..] + b;
      KeepSlugCharsAppend(a[1..], b);
    }
  }

  /** Sanitising works character by character: the result for a concatenation is the
      concatenation of the results. Together with `SanitizeChar` this fixes the
      sanitised text completely. */
  lemma SanitizeAppend(a: string, b: string)
    ensures Sanitize(a + b) == Sanitize(a) + Sanitize(b)
  {
    var la := ReplaceChar(Lower(a), ' ', '-');
    var lb := ReplaceChar(Lower(b), ' ', '-');
    assert ReplaceChar(Lower(a + b), ' ', '-') == la + lb;
    KeepSlugCharsAppend(la, lb);
  }

  /** A space becomes a dash, an ASCII letter or digit is kept lower-cased, a dash is
      kept, and every other character is dropped. */
  lemma SanitizeChar(c: char)
    ensures c == ' ' ==> Sanitize([c]) == "-"
    ensures IsAsciiAlnum(c) ==> Sanitize([c]) == [LowerChar(c)]
    ensures c == '-' ==> Sanitize([c]) == "-"
    ensures c != ' ' && !IsSlugChar(c) ==> Sanitize([c]) == []
  {
    var l := ReplaceChar(Lower([c]), ' ', '-');
    assert l == [if c == ' ' then '-' else LowerChar(c)];
    assert l[1..] == [];
  }

  /** Sanitising text that is already a slug changes nothing. */
  lemma SanitizeFixedPoint(s: string)
    requires IsSlugText(s)
    ensures Sanitize(s) == s
  {
    var lowered := ReplaceChar(Lower(s), ' ', '-');
    assert lowered == s;
    KeepSlugCharsFixed(s);
  }

  /** A meeting retitled with its own slug has the same slug. */
  lemma SlugIdempotent(m: MeetingInfo)
    requires Sanitize(m.title) != []
    ensures Slug(m.(title := Slug(m))) == Slug(m)
  {
    SanitizeFixedPoint(Slug(m));
  }

  // ---------------------------------------------------------------------------
  // MeetingInfo.duration_minutes and to_dict
  // ---------------------------------------------------------------------------

  /** `duration_minutes`, with `now` standing for `datetime.now()` when the meeting has not ended. */
  function DurationMinutes(m: MeetingInfo, now: real): (r: real)
    ensures m.endedAt.Some? ==> r * 60.0 == m.endedAt.value.seconds - m.startedAt.seconds
    ensures m.endedAt.None? ==> r * 60.0 == now - m.startedAt.seconds
  {
    var end := if m.endedAt.Some? then m.endedAt.value.seconds else now;
    (end - m.startedAt.seconds) / 60.0
  }

  /** Once a meeting has ended its duration no longer depends on the clock, and it
      is non-negative when the end is not before the start. */
  lemma DurationOfEndedMeeting(m: MeetingInfo, now1: real, now2: real)
    requires m.endedAt.Some?
    ensures DurationMinutes(m, now1) == DurationMinutes(m, now2)
    ensures m.endedAt.value.seconds >= m.startedAt.seconds ==> DurationMinutes(m, now1) >= 0.0
  {
  }

  const MeetingKeys: set<string> :=
    {"platform", "title", "started_at", "ended_at", "process_name", "window_title", "audio_chunks", "transcript_path"}

  /** `MeetingInfo.to_dict`: every field, times as ISO strings, chunks as strings in order,
      unset end time and transcript path as `None`. */
  function MeetingToDict(m: MeetingInfo): (d: Json)
    ensures d.JObj? && d.fields.Keys == MeetingKeys
    ensures d.fields["title"] == JStr(m.title) && d.fields["platform"] == JStr(m.platform)
    ensures d.fields["started_at"] == JStr(m.startedAt.iso)
    ensures d.fields["ended_at"].JNull? <==> m.endedAt.None?
    ensures m.endedAt.Some? ==> d.fields["ended_at"] == JStr(m.endedAt.value.iso)
    ensures d.fields["transcript_path"].JNull? <==> m.transcriptPath.None?
    ensures ReadStrList(d.fields["audio_chunks"]) == Some(m.audioChunks)
  {
    StrListRoundTrip(m.audioChunks);
    JObj(map[
      "platform" := JStr(m.platform),
      "title" := JStr(m.title),
      "started_at" := JStr(m.startedAt.iso),
      "ended_at" := (if m.endedAt.Some? then JStr(m.endedAt.value.iso) else JNull),
      "process_name" := JStr(m.processName),
      "window_title" := JStr(m.windowTitle),
      "audio_chunks" := StrList(m.audioChunks),
      "transcript_path" := (if m.transcriptPath.Some? then JStr(m.transcriptPath.value) else JNull)
    ])
  }

  // ---------------------------------------------------------------------------
  // DaemonStatus
  // ---------------------------------------------------------------------------

  /** The daemon's status snapshot. The persisted fields hold whatever JSON value the
      file held (Python copies them without checking their type); the embedded meeting
      is written but never read back. */
  datatype DaemonStatus = DaemonStatus(
    running: Json,
    pid: Json,
    meetingActive: Json,
    currentMeeting: Option<MeetingInfo>,
    chunksRecorded: Json,
    chunksTranscribed: Json,
    startedAt: Json,
    lastCheck: Json)

  /** `DaemonStatus()`: the field defaults. */
  const DefaultStatus := DaemonStatus(JBool(false), JNull, JBool(false), None, JInt(0), JInt(0), JNull, JNull)

  const StatusKeys: set<string> :=
    {"running", "pid", "meeting_active", "chunks_recorded", "chunks_transcribed", "started_at", "last_check"}

  /** The persisted field of `st` stored under `key`. */
  function FieldOf(st: DaemonStatus, key: string): Json
    requires key in StatusKeys
  {
    match key
    case "running" => st.running
    case "pid" => st.pid
    case "meeting_active" => st.meetingActive
    case "chunks_recorded" => st.chunksRecorded
    case "chunks_transcribed" => st.chunksTranscribed
    case "started_at" => st.startedAt
    case _ => st.lastCheck
  }

  /** `DaemonStatus.save`: the seven persisted fields, plus `current_meeting` only when set. */
  function SaveStatus(st: DaemonStatus): (j: Json)
    ensures j.JObj?
    ensures forall k :: k in StatusKeys ==> k in j.fields && j.fields[k] == FieldOf(st, k)
    ensures "current_meeting" in j.fields <==> st.currentMeeting.Some?
    ensures j.fields.Keys == StatusKeys + (if st.currentMeeting.Some? then {"current_meeting"} else {})
  {
    var base := map[
      "running" := st.running,
      "pid" := st.pid,
      "meeting_active" := st.meetingActive,
      "chunks_recorded" := st.chunksRecorded,
      "chunks_transcribed" := st.chunksTranscribed,
      "started_at" := st.startedAt,
      "last_check" := st.lastCheck
    ];
    if st.currentMeeting.Some? then
      JObj(base["current_meeting" := MeetingToDict(st.currentMeeting.value)])
    else JObj(base)
  }

  /** `DaemonStatus.load`: defaults for a missing or undecodable file, each present key
      copied and each absent key defaulted, `current_meeting` never read; a document that
      is not an object makes `data.get` raise, which is not caught. */
  function LoadStatus(f: JsonFile): (r: Result<DaemonStatus>)
    ensures r.Err? <==> f.Parsed? && !f.doc.JObj?
    ensures (f.Missing? || f.Unparsable?) ==> r == Ok(DefaultStatus)
    ensures r.Ok? ==> r.value.currentMeeting.None?
    ensures f.Parsed? && f.doc.JObj? ==>
      forall k :: k in StatusKeys ==> FieldOf(r.value, k) == Get(f.doc.fields, k, FieldOf(DefaultStatus, k))
  {
    match f
    case Missing => Ok(DefaultStatus)
    case Unparsable => Ok(DefaultStatus)
    case Parsed(doc) =>
      if !doc.JObj? then Err("AttributeError: loaded status is not a JSON object")
      else
        var d := doc.fields;
        Ok(DaemonStatus(
          Get(d, "running", JBool(false)),
          Get(d, "pid", JNull),
          Get(d, "meeting_active", JBool(false)),
          None,
          Get(d, "chunks_recorded", JInt(0)),
          Get(d, "chunks_transcribed", JInt(0)),
          Get(d, "started_at", JNull),
          Get(d, "last_check", JNull)))
  }

  /** Saving then loading returns every persisted field and drops the embedded meeting. */
  lemma SaveLoadRoundTrip(st: DaemonStatus)
    ensures LoadStatus(Parsed(SaveStatus(st))) == Ok(st.(currentMeeting := None))
  {
    var r := LoadStatus(Parsed(SaveStatus(st)));
    assert FieldOf(r.value, "running") == st.running;
    assert FieldOf(r.value, "pid") == st.pid;
    assert FieldOf(r.value, "meeting_active") == st.meetingActive;
    assert FieldOf(r.value, "chunks_recorded") == st.chunksRecorded;
    assert FieldOf(r.value, "chunks_transcribed") == st.chunksTranscribed;
    assert FieldOf(r.value, "started_at") == st.startedAt;
    assert FieldOf(r.value, "last_check") == st.lastCheck;
  }
}

=== FILE: recorder.dfy ===
/** The loopback recorder (`recorder.py`) as a sequential object: its start/stop
    contract and chunk list, the chunk naming of the recording loop, the frame loop of
    one chunk, the stereo downmix and resampling index arithmetic, and the choice of
    loopback device. Captured audio and the device list are inputs; the background
    thread is represented by what it appends before it is joined. */
module Recorder {
  import opened Base
  import opened Text

  const SampleRate: nat := 16000
  const Channels: nat := 1
  const ChunkDurationSec: nat := 300
  const FramesPerBuffer: nat := 512

  // ---------------------------------------------------------------------------
  // The recorder object
  // ---------------------------------------------------------------------------

  /** `recording` is the loop's flag, `hasThread` whether a capture thread is tracked,
      `chunks` the paths appended so far and `threadsStarted` how many capture threads
      have been launched. */
  datatype LoopbackRecorder = LoopbackRecorder(
    outputDir: string,
    chunkSeconds: int,
    recording: bool,
    hasThread: bool,
    chunks: seq<string>,
    threadsStarted: nat)

  function NewRecorder(outputDir: string, chunkSeconds: int): (r: LoopbackRecorder)
    ensures !r.recording && !r.hasThread && r.chunks == [] && r.threadsStarted == 0
    ensures r.outputDir == outputDir && r.chunkSeconds == chunkSeconds
  {
    LoopbackRecorder(outputDir, chunkSeconds, false, false, [], 0)
  }

  /** The `chunks` property: the current list (a copy, which value semantics gives for free). */
  function Chunks(r: LoopbackRecorder): seq<string>
  {
    r.chunks
  }

  /** `start`: a no-op while recording; otherwise sets the flag and launches one thread. */
  function Start(r: LoopbackRecorder): (r': LoopbackRecorder)
    ensures r'.recording
    ensures !r.recording ==> r'.hasThread
    ensures r'.chunks == r.chunks && r'.outputDir == r.outputDir && r'.chunkSeconds == r.chunkSeconds
    ensures r.recording ==> r' == r
    ensures !r.recording ==> r'.threadsStarted == r.threadsStarted + 1
  {
    if r.recording then r
    else r.(recording := true, hasThread := true, threadsStarted := r.threadsStarted + 1)
  }

  /** Starting twice is starting once: no second thread is launched. */
  lemma StartIdempotent(r: LoopbackRecorder)
    ensures Start(Start(r)) == Start(r)
    ensures Start(Start(r)).threadsStarted <= r.threadsStarted + 1
  {
  }

  /** `stop`: clears the flag, joins the tracked thread (whose loop appended `appended`
      before it ended) and forgets it, then returns a copy of the chunk list. */
  function Stop(r: LoopbackRecorder, appended: seq<string>): (out: (LoopbackRecorder, seq<string>))
    ensures !out.0.recording && !out.0.hasThread
    ensures out.1 == out.0.chunks
    ensures r.hasThread ==> out.0.chunks == r.chunks + appended
    ensures !r.hasThread ==> out.0.chunks == r.chunks
  {
    var chunks := if r.hasThread then r.chunks + appended else r.chunks;
    var r' := r.(recording := false, hasThread := false, chunks := chunks);
    (r', Chunks(r'))
  }

  /** The chunk list as read while the capture thread runs: the thread has appended
      `appended` since the last read; without a thread nothing grows. */
  function Captured(r: LoopbackRecorder, appended: seq<string>): (r': LoopbackRecorder)
    ensures r.hasThread ==> r'.chunks == r.chunks + appended
    ensures !r.hasThread ==> r' == r
    ensures r'.recording == r.recording && r'.hasThread == r.hasThread && r'.outputDir == r.outputDir
    ensures r'.threadsStarted == r.threadsStarted
  {
    if r.hasThread then r.(chunks := r.chunks + appended) else r
  }

  /** Reading the list while recording and then stopping yields every chunk the thread
      appended, in order: the reads lose nothing and duplicate nothing. */
  lemma CapturedThenStop(r: LoopbackRecorder, a: seq<string>, b: seq<string>)
    ensures Stop(Captured(r, a), b).1 == Stop(r, a + b).1
  {
    if r.hasThread {
      assert r.chunks + a + b == r.chunks + (a + b);
    }
  }

  /** A recorder that was never started returns no chunks, and a second `stop` returns the
      same list as the first, whatever the thread appended. */
  lemma StopContract(outputDir: string, chunkSeconds: int, r: LoopbackRecorder, a: seq<string>, b: seq<string>)
    ensures Stop(NewRecorder(outputDir, chunkSeconds), a).1 == []
    ensures Stop(Stop(r, a).0, b).1 == Stop(r, a).1
  {
  }

  // ---------------------------------------------------------------------------
  // _record_loop: chunk naming
  // ---------------------------------------------------------------------------

  /** `f"chunk_{idx:04d}.wav"`. */
  function ChunkName(idx: nat): (name: string)
    ensures StartsWith(name, "chunk_") && |name| >= 14 && name[|name| - 4..] == ".wav"
    ensures IsDigits(name[6..|name| - 4]) && ParseNat(name[6..|name| - 4]) == idx
  {
    var digits := ZeroPad(idx, 4);
    assert ("chunk_" + digits + ".wav")[6..6 + |digits|] == digits;
    "chunk_" + digits + ".wav"
  }

  /** The index field is exactly four digits wide for the first 10000 chunks and wider
      from then on. */
  lemma ChunkNameWidth(idx: nat)
    ensures |ChunkName(idx)| == 14 <==> idx < 10000
  {
    var digits := ZeroPad(idx, 4);
    assert |ChunkName(idx)| == 10 + |digits|;
    assert Pow10(4) == 10000;
    if idx < 10000 {
      NatToStringShort(idx, 4);
    } else {
      ParseNatBound(digits);
    }
  }

  lemma ChunkPathSplit(dir: string, idx: nat)
    ensures dir + "/" + ChunkName(idx) == (dir + "/" + "chunk_") + (ZeroPad(idx, 4) + ".wav")
  {
  }

  /** Up to index 9999 the paths `<dir>/chunk_NNNN.wav` compare as strings in index
      order, so sorting them recovers recording order. */
  lemma ChunkPathsOrdered(dir: string, i: nat, j: nat)
    requires i < j < 10000
    ensures Less(dir + "/" + ChunkName(i), dir + "/" + ChunkName(j))
  {
    var a := ZeroPad(i, 4);
    var b := ZeroPad(j, 4);
    ChunkNameWidth(i);
    ChunkNameWidth(j);
    DigitsOrder(a, b);
    LessSameLength(a, b, ".wav", ".wav");
    LessCommonPrefix(dir + "/" + "chunk_", a + ".wav", b + ".wav");
    ChunkPathSplit(dir, i);
    ChunkPathSplit(dir, j);
  }

  /** From index 10000 on the order breaks: the five-digit name of chunk 10000 sorts
      before the four-digit name of chunk 9999, so a sort of the paths would stitch
      the later audio first. */
  lemma ChunkOrderBreaksAt10000(dir: string)
    ensures Less(dir + "/" + ChunkName(10000), dir + "/" + ChunkName(9999))
  {
    var a := ZeroPad(10000, 4);
    var b := ZeroPad(9999, 4);
    assert a[0] == '1' && b[0] == '9' by {
      assert NatToString(10000) == "10000";
      assert NatToString(9999) == "9999";
    }
    assert Less(a + ".wav", b + ".wav");
    LessCommonPrefix(dir + "/" + "chunk_", a + ".wav", b + ".wav");
    ChunkPathSplit(dir, 10000);
    ChunkPathSplit(dir, 9999);
  }

  /** The index a chunk name was made from. */
  lemma ChunkNameInjective(i: nat, j: nat)
    requires ChunkName(i) == ChunkName(j)
    ensures i == j
  {
    var a := ZeroPad(i, 4);
    var b := ZeroPad(j, 4);
    assert |a| == |b| by {
      assert |ChunkName(i)| == 6 + |a| + 4;
      assert |ChunkName(j)| == 6 + |b| + 4;
    }
    assert a == ChunkName(i)[6..6 + |a|];
    assert b == ChunkName(j)[6..6 + |b|];
  }

  /** A loopback device as the audio library describes it. */
  datatype Device = Device(index: nat, name: string, isLoopback: bool, defaultSampleRate: nat, maxInputChannels: nat)

  /** The recording loop of one thread: with no device it ends at once; otherwise each
      iteration records one chunk and appends its path, `chunk_0000.wav` first, whether or
      not any audio was captured for it. `iterations` is how many chunks were begun before
      the flag was cleared. */
  function RecordLoop(outputDir: string, device: Option<Device>, iterations: nat): (paths: seq<string>)
    ensures device.None? ==> paths == []
    ensures device.Some? ==> |paths| == iterations
    ensures forall i :: 0 <= i < |paths| ==> paths[i] == outputDir + "/" + ChunkName(i)
  {
    if device.None? || iterations == 0 then []
    else RecordLoop(outputDir, device, iterations - 1) + [outputDir + "/" + ChunkName(iterations - 1)]
  }

  /** Below 10000 chunks the recorded paths are in strictly increasing string order, so
      the sort that transcription applies to them keeps recording order. */
  lemma RecordLoopSorted(outputDir: string, device: Option<Device>, iterations: nat)
    requires iterations <= 10000
    ensures StrictlySorted(RecordLoop(outputDir, device, iterations))
    ensures Sort(RecordLoop(outputDir, device, iterations)) == RecordLoop(outputDir, device, iterations)
  {
    var paths := RecordLoop(outputDir, device, iterations);
    forall i, j | 0 <= i < j < |paths| ensures Less(paths[i], paths[j]) {
      ChunkPathsOrdered(outputDir, i, j);
    }
    SortOfSorted(paths);
  }

  /** The chunk paths are distinct: indices are contiguous from zero and never reused
      within one run. */
  lemma RecordLoopDistinct(outputDir: string, device: Option<Device>, iterations: nat)
    ensures forall i, j :: 0 <= i < j < |RecordLoop(outputDir, device, iterations)| ==>
      RecordLoop(outputDir, device, iterations)[i] != RecordLoop(outputDir, device, iterations)[j]
  {
    var paths := RecordLoop(outputDir, device, iterations);
    forall i, j | 0 <= i < j < |paths| ensures paths[i] != paths[j] {
      if paths[i] == paths[j] {
        assert (outputDir + "/" + ChunkName(i))[|outputDir| + 1..] == ChunkName(i);
        assert (outputDir + "/" + ChunkName(j))[|outputDir| + 1..] == ChunkName(j);
        ChunkNameInjective(i, j);
      }
    }
  }

  // ---------------------------------------------------------------------------
  // _record_chunk: the frame loop
  // ---------------------------------------------------------------------------

  /** Number of 512-frame reads needed to reach `target` frames. */
  function ReadsFor(target: nat): nat
  {
    (target + FramesPerBuffer - 1) / FramesPerBuffer
  }

  /** The frame loop of `_record_chunk`: reads buffers of 512 frames while the flag is set
      and fewer than `target` frames were read. The flag is cleared after `flagReads`
      reads. Returns the number of reads and of frames read. */
  method ReadFrames(target: nat, flagReads: nat) returns (count: nat, total: nat)
    ensures count == Min(flagReads, ReadsFor(target))
    ensures total == count * FramesPerBuffer
    ensures count < flagReads ==> target <= total < target + FramesPerBuffer
  {
    count := 0;
    total := 0;
    while count < flagReads && total < target
      invariant total == count * FramesPerBuffer
      invariant count <= flagReads
      invariant count <= ReadsFor(target)
      invariant count < ReadsFor(target) ==> total < target
      decreases flagReads - count
    {
      count := count + 1;
      total := total + FramesPerBuffer;
    }
  }

  // ---------------------------------------------------------------------------
  // Downmix and resampling
  // ---------------------------------------------------------------------------

  predicate IsInt16(v: int) { -32768 <= v <= 32767 }

  /** `astype(int16)` of a float within range: truncation toward zero. */
  function TruncHalf(v: int): int
  {
    if v >= 0 then v / 2 else -((-v) / 2)
  }

  /** `samples.reshape(-1, 2).mean(axis=1).astype(np.int16)`: each consecutive pair
      averaged, the mean truncated toward zero. */
  function Downmix(samples: seq<int>): (r: seq<int>)
    requires |samples| % 2 == 0
    ensures |r| == |samples| / 2
    ensures forall i :: 0 <= i < |r| ==>
      var a := samples[2 * i];
      var b := samples[2 * i + 1];
      && Min(a, b) <= r[i] <= Max(a, b)
      && (if a + b >= 0 then 0 <= a + b - 2 * r[i] <= 1 else 0 <= 2 * r[i] - (a + b) <= 1)
  {
    seq(|samples| / 2, i requires 0 <= i < |samples| / 2 => TruncHalf(samples[2 * i] + samples[2 * i + 1]))
  }

  /** The mean of two 16-bit samples is again a 16-bit sample. */
  lemma DownmixInRange(samples: seq<int>)
    requires |samples| % 2 == 0
    requires forall i :: 0 <= i < |samples| ==> IsInt16(samples[i])
    ensures forall i :: 0 <= i < |Downmix(samples)| ==> IsInt16(Downmix(samples)[i])
  {
    var r := Downmix(samples);
    forall i | 0 <= i < |r| ensures IsInt16(r[i]) {
      assert IsInt16(samples[2 * i]) && IsInt16(samples[2 * i + 1]);
    }
  }

  /** `int(n * 16000 / rate)`: the resampled length. */
  function ResampledLength(n: nat, rate: nat): nat
    requires rate > 0
  {
    (n * SampleRate) / rate
  }

  lemma DivMonotone(a: nat, b: nat, d: nat)
    requires a <= b && d > 0
    ensures a / d <= b / d
  {
    var qa, qb := a / d, b / d;
    assert d * qa + a % d == a && d * qb + b % d == b;
    if qa > qb {
      MulMonotone(qb + 1, qa, d);
      assert false;
    }
  }

  lemma MulMonotone(a: nat, b: nat, k: nat)
    requires a <= b
    ensures a * k <= b * k
  {
  }

  lemma DivExact(k: nat, d: nat)
    requires d > 0
    ensures (d * k) / d == k
  {
    var q := (d * k) / d;
    assert d * q + (d * k) % d == d * k;
    if q < k {
      assert (q + 1) * d == q * d + d;
      MulMonotone(q + 1, k, d);
      assert false;
    } else if q > k {
      assert (k + 1) * d == k * d + d;
      MulMonotone(k + 1, q, d);
      assert false;
    }
  }

  lemma LinspacePoint(n: nat, num: nat, i: nat)
    requires n > 0 && num > 1 && i < num
    ensures 0 <= (i * (n - 1)) / (num - 1) <= n - 1
    ensures i == num - 1 ==> (i * (n - 1)) / (num - 1) == n - 1
  {
    var k := n - 1;
    var d := num - 1;
    MulMonotone(i, d, k);
    DivMonotone(i * k, d * k, d);
    DivExact(k, d);
  }

  /** `np.linspace(0, n - 1, num).astype(int)`: `num` evenly spaced points from 0 to
      `n - 1` inclusive, each truncated to an integer. */
  function LinspaceIndices(n: nat, num: nat): (idx: seq<int>)
    requires n > 0 || num == 0
    ensures |idx| == num
    ensures forall i :: 0 <= i < num ==> 0 <= idx[i] <= n - 1
    ensures num > 0 ==> idx[0] == 0
    ensures num > 1 ==> idx[num - 1] == n - 1
    ensures forall i, j :: 0 <= i <= j < num ==> idx[i] <= idx[j]
  {
    if num <= 1 then seq(num, i => 0)
    else
      var idx := seq(num, i requires 0 <= i < num => (i * (n - 1)) / (num - 1));
      LinspaceFacts(n, num, idx);
      idx
  }

  lemma LinspaceFacts(n: nat, num: nat, idx: seq<int>)
    requires n > 0 && num > 1 && |idx| == num
    requires forall i :: 0 <= i < num ==> idx[i] == (i * (n - 1)) / (num - 1)
    ensures forall i :: 0 <= i < num ==> 0 <= idx[i] <= n - 1
    ensures idx[0] == 0 && idx[num - 1] == n - 1
    ensures forall i, j :: 0 <= i <= j < num ==> idx[i] <= idx[j]
  {
    forall i | 0 <= i < num ensures 0 <= idx[i] <= n - 1 {
      LinspacePoint(n, num, i);
    }
    LinspacePoint(n, num, num - 1);
    forall i, j | 0 <= i <= j < num ensures idx[i] <= idx[j] {
      MulMonotone(i, j, n - 1);
      DivMonotone(i * (n - 1), j * (n - 1), num - 1);
    }
  }

  /** The resampling step: `samples[indices]` with `num = int(n * 16000 / rate)` points. */
  function Resample(samples: seq<int>, rate: nat): (r: seq<int>)
    requires rate > 0
    ensures |r| == ResampledLength(|samples|, rate)
    ensures forall i :: 0 <= i < |r| ==> r[i] in samples
  {
    var n := |samples|;
    var num := ResampledLength(n, rate);
    assert n == 0 ==> num == 0;
    var idx := LinspaceIndices(n, num);
    seq(num, i requires 0 <= i < num => samples[idx[i]])
  }

  /** At the target rate the audio is kept as it is; otherwise resampling keeps the first
      sample and, when two or more points are taken, the last one. */
  lemma ResampleEnds(samples: seq<int>, rate: nat)
    requires rate > 0 && |samples| > 0
    requires ResampledLength(|samples|, rate) >= 2
    ensures Resample(samples, rate)[0] == samples[0]
    ensures Resample(samples, rate)[|Resample(samples, rate)| - 1] == samples[|samples| - 1]
  {
  }

  /** Concatenation of the captured buffers (`b"".join(frames)` read as 16-bit samples). */
  function Flatten(buffers: seq<seq<int>>): (r: seq<int>)
  {
    if |buffers| == 0 then [] else Flatten(buffers[..|buffers| - 1]) + buffers[|buffers| - 1]
  }

  lemma {:induction false} FlattenLength(buffers: seq<seq<int>>, w: nat)
    requires forall i :: 0 <= i < |buffers| ==> |buffers[i]| == w
    ensures |Flatten(buffers)| == |buffers| * w
    decreases |buffers|
  {
    if |buffers| > 0 {
      FlattenLength(buffers[..|buffers| - 1], w);
    }
  }

  /** `min(device["maxInputChannels"], 2)`. */
  function DeviceChannels(d: Device): nat
  {
    Min(d.maxInputChannels, 2)
  }

  /** The audio written for one chunk: nothing when no buffer was captured; otherwise the
      samples, downmixed when stereo and resampled when the device rate differs from
      16 kHz. Every buffer holds 512 whole frames of the device's channel count. */
  function ChunkAudio(d: Device, buffers: seq<seq<int>>): (r: Option<seq<int>>)
    requires d.defaultSampleRate > 0
    requires forall i :: 0 <= i < |buffers| ==> |buffers[i]| == FramesPerBuffer * DeviceChannels(d)
    ensures buffers == [] <==> r.None?
    ensures r.Some? && d.defaultSampleRate == SampleRate ==>
      |r.value| == |buffers| * FramesPerBuffer * (if DeviceChannels(d) == 2 then 1 else DeviceChannels(d))
  {
    if buffers == [] then None
    else
      var samples := Flatten(buffers);
      FlattenLength(buffers, FramesPerBuffer * DeviceChannels(d));
      var mono := if DeviceChannels(d) == 2 then Downmix(samples) else samples;
      if d.defaultSampleRate != SampleRate then Some(Resample(mono, d.defaultSampleRate)) else Some(mono)
  }

  // ---------------------------------------------------------------------------
  // _find_loopback_device
  // ---------------------------------------------------------------------------

  /** Index of the first loopback device whose name starts with `prefix`, or `|ds|`. */
  function FirstLoopbackWithPrefix(ds: seq<Device>, prefix: string): (i: nat)
    ensures i <= |ds|
    ensures i < |ds| ==> ds[i].isLoopback && StartsWith(ds[i].name, prefix)
    ensures forall k :: 0 <= k < i ==> !(ds[k].isLoopback && StartsWith(ds[k].name, prefix))
  {
    if |ds| == 0 then 0
    else if ds[0].isLoopback && StartsWith(ds[0].name, prefix) then 0
    else 1 + FirstLoopbackWithPrefix(ds[1..], prefix)
  }

  /** Index of the first loopback device, or `|ds|`. */
  function FirstLoopback(ds: seq<Device>): (i: nat)
    ensures i <= |ds|
    ensures i < |ds| ==> ds[i].isLoopback
    ensures forall k :: 0 <= k < i ==> !ds[k].isLoopback
  {
    if |ds| == 0 then 0
    else if ds[0].isLoopback then 0
    else 1 + FirstLoopback(ds[1..])
  }

  /** `_find_loopback_device`. `defaultOutput` is the index of the default output device the
      audio host reports, `None` when the host lookup raises `OSError`; an index outside the
      device list raises from the library, which is not caught. */
  function FindLoopback(defaultOutput: Option<nat>, ds: seq<Device>): (r: Result<Option<Device>>)
    ensures defaultOutput.None? ==> r == Ok(None)
    ensures r.Err? <==> defaultOutput.Some? && defaultOutput.value >= |ds|
    ensures r.Ok? && r.value.Some? ==> r.value.value in ds && r.value.value.isLoopback
    ensures r.Ok? && r.value.None? && defaultOutput.Some? ==> forall k :: 0 <= k < |ds| ==> !ds[k].isLoopback
  {
    if defaultOutput.None? then Ok(None)
    else if defaultOutput.value >= |ds| then Err("OSError: invalid device index")
    else
      var prefix := Before(ds[defaultOutput.value].name, " (");
      var i := FirstLoopbackWithPrefix(ds, prefix);
      if i < |ds| then Ok(Some(ds[i]))
      else
        var j := FirstLoopback(ds);
        if j < |ds| then Ok(Some(ds[j])) else Ok(None)
  }

  /** The device chosen: the first loopback device named after the default output (its name
      up to " (") when there is one, else the first loopback device. */
  lemma FindLoopbackOrder(defaultOutput: nat, ds: seq<Device>, k: nat)
    requires defaultOutput < |ds| && k < |ds| && ds[k].isLoopback
    ensures FindLoopback(Some(defaultOutput), ds).Ok?
    ensures var prefix := Before(ds[defaultOutput].name, " (");
      var chosen := FindLoopback(Some(defaultOutput), ds).value;
      && chosen.Some?
      && (StartsWith(ds[k].name, prefix) ==>
            StartsWith(chosen.value.name, prefix) && chosen.value == ds[FirstLoopbackWithPrefix(ds, prefix)]
            && FirstLoopbackWithPrefix(ds, prefix) <= k)
      && (FirstLoopbackWithPrefix(ds, prefix) == |ds| ==> chosen.value == ds[FirstLoopback(ds)] && FirstLoopback(ds) <= k)
  {
  }
}

=== FILE: text.dfy ===
/** String primitives the meeting transcriber relies on: Python's whitespace set,
    `strip`, `split`, `join`, decimal rendering with zero padding, prefix tests
    and code-point ordering with the sorts built on it. */
module Text {
  import opened Base

  // ---------------------------------------------------------------------------
  // Whitespace, strip and whitespace splitting
  // ---------------------------------------------------------------------------

  /** Python's `str.isspace`: the characters `str.strip()` and `str.split()` treat as whitespace. */
  predicate IsSpace(c: char)
  {
    || ('\U{0009}' <= c <= '\U{000D}')
    || ('\U{001C}' <= c <= '\U{0020}')
    || c == '\U{0085}' || c == '\U{00A0}' || c == '\U{1680}'
    || ('\U{2000}' <= c <= '\U{200A}')
    || c == '\U{2028}' || c == '\U{2029}' || c == '\U{202F}' || c == '\U{205F}' || c == '\U{3000}'
  }

  predicate AllSpace(s: string)
  {
    forall k :: 0 <= k < |s| ==> IsSpace(s[k])
  }

  predicate NoSpace(s: string)
  {
    forall k :: 0 <= k < |s| ==> !IsSpace(s[k])
  }

  function StripLeading(s: string): (r: string)
    ensures |r| <= |s| && r == s[|s| - |r|..]
    ensures forall k :: 0 <= k < |s| - |r| ==> IsSpace(s[k])
    ensures r != [] ==> !IsSpace(r[0])
    decreases |s|
  {
    if |s| > 0 && IsSpace(s[0]) then
      var r := StripLeading(s[1..]);
      assert s[|s| - |r|..] == s[1..][|s| - 1 - |r|..];
      assert forall k :: 1 <= k < |s| - |r| ==> s[k] == s[1..][k - 1];
      r
    else s
  }

  function StripTrailing(s: string): (r: string)
    ensures |r| <= |s| && r == s[..|r|]
    ensures forall k :: |r| <= k < |s| ==> IsSpace(s[k])
    ensures r != [] ==> !IsSpace(r[|r| - 1])
    decreases |s|
  {
    if |s| > 0 && IsSpace(s[|s| - 1]) then
      var r := StripTrailing(s[..|s| - 1]);
      assert forall k :: |r| <= k < |s| - 1 ==> s[k] == s[..|s| - 1][k];
      r
    else s
  }

  /** `r` is `s` with its leading and trailing whitespace removed and nothing else. */
  ghost predicate IsStripOf(s: string, r: string)
  {
    exists i :: 0 <= i && i + |r| <= |s| && s[i..i + |r|] == r
                && AllSpace(s[..i]) && AllSpace(s[i + |r|..])
                && (r != [] ==> !IsSpace(r[0]) && !IsSpace(r[|r| - 1]))
  }

  /** Neither end of `t` is whitespace. */
  predicate Stripped(t: string)
  {
    t != [] ==> !IsSpace(t[0]) && !IsSpace(t[|t| - 1])
  }

  /** Python's `str.strip()` with no argument. */
  function Strip(s: string): (r: string)
    ensures |r| <= |s|
    ensures r == [] <==> AllSpace(s)
    ensures Stripped(r)
  {
    StripCorrect(s);
    StripTrailing(StripLeading(s))
  }

  /** `Strip` removes exactly the whitespace at both ends and keeps the middle intact. */
  lemma StripSpec(s: string)
    ensures IsStripOf(s, Strip(s))
  {
    StripCorrect(s);
  }

  lemma StripCorrect(s: string)
    ensures IsStripOf(s, StripTrailing(StripLeading(s)))
    ensures StripTrailing(StripLeading(s)) == [] <==> AllSpace(s)
  {
    var a := StripLeading(s);
    var r := StripTrailing(a);
    var i := |s| - |a|;
    StripSlices(s, a, r, i);
    StripWitness(s, r, i);
    StripEmpty(s, r, i);
  }

  lemma StripSlices(s: string, a: string, r: string, i: nat)
    requires i <= |s| && a == s[i..]
    requires forall k :: 0 <= k < i ==> IsSpace(s[k])
    requires a != [] ==> !IsSpace(a[0])
    requires |r| <= |a| && r == a[..|r|]
    requires forall k :: |r| <= k < |a| ==> IsSpace(a[k])
    requires r != [] ==> !IsSpace(r[|r| - 1])
    ensures i + |r| <= |s| && s[i..i + |r|] == r
    ensures AllSpace(s[..i]) && AllSpace(s[i + |r|..])
    ensures r != [] ==> !IsSpace(r[0]) && !IsSpace(r[|r| - 1])
  {
    var j := i + |r|;
    assert s[i..j] == a[..|r|];
    forall k | 0 <= k < i
      ensures IsSpace(s[..i][k])
    {
      assert s[..i][k] == s[k];
    }
    forall k | 0 <= k < |s| - j
      ensures IsSpace(s[j..][k])
    {
      var c := a[|r| + k];
      assert IsSpace(c);
      assert c == s[j + k];
      assert s[j..][k] == s[j + k];
    }
    assert r != [] ==> r[0] == a[0];
  }

  lemma StripWitness(s: string, r: string, i: nat)
    requires i + |r| <= |s| && s[i..i + |r|] == r
    requires AllSpace(s[..i]) && AllSpace(s[i + |r|..])
    requires r != [] ==> !IsSpace(r[0]) && !IsSpace(r[|r| - 1])
    ensures IsStripOf(s, r)
  {
  }

  lemma StripEmpty(s: string, r: string, i: nat)
    requires i + |r| <= |s| && s[i..i + |r|] == r
    requires AllSpace(s[..i]) && AllSpace(s[i + |r|..])
    requires r != [] ==> !IsSpace(r[0])
    ensures r == [] <==> AllSpace(s)
  {
  }

  /** Length of the longest whitespace-free prefix of `s`. */
  function TokenLen(s: string): (n: nat)
    ensures n <= |s|
    ensures NoSpace(s[..n])
    ensures n < |s| ==> IsSpace(s[n])
  {
    if |s| == 0 || IsSpace(s[0]) then 0 else 1 + TokenLen(s[1..])
  }

  function Concat(ws: seq<string>): string
  {
    if |ws| == 0 then [] else ws[0] + Concat(ws[1..])
  }

  function RemoveSpaces(s: string): string
  {
    if |s| == 0 then [] else (if IsSpace(s[0]) then [] else [s[0]]) + RemoveSpaces(s[1..])
  }

  lemma {:induction false} RemoveSpacesAppend(a: string, b: string)
    ensures RemoveSpaces(a + b) == RemoveSpaces(a) + RemoveSpaces(b)
    decreases |a|
  {
    if |a| > 0 {
      assert (a + b)[1..] == a[1..] + b;
      RemoveSpacesAppend(a[1..], b);
    } else {
      assert a + b == b;
    }
  }

  lemma {:induction false} RemoveSpacesOfToken(s: string)
    requires NoSpace(s)
    ensures RemoveSpaces(s) == s
    decreases |s|
  {
    if |s| > 0 {
      RemoveSpacesOfToken(s[1..]);
    }
  }

  /** Python's `str.split()` with no argument: the maximal whitespace-free runs, in order. */
  function Words(s: string): (ws: seq<string>)
    ensures forall i :: 0 <= i < |ws| ==> ws[i] != [] && NoSpace(ws[i])
    ensures Concat(ws) == RemoveSpaces(s)
    decreases |s|
  {
    if |s| == 0 then []
    else if IsSpace(s[0]) then Words(s[1..])
    else
      var n := TokenLen(s);
      var rest := Words(s[n..]);
      assert s == s[..n] + s[n..];
      RemoveSpacesAppend(s[..n], s[n..]);
      RemoveSpacesOfToken(s[..n]);
      [s[..n]] + rest
  }

  /** Positions of `s` at or after which a word starts, `prevSpace` telling whether
      the character before `s` was whitespace (or absent). */
  function StartsAfter(s: string, prevSpace: bool): nat
  {
    if |s| == 0 then 0
    else (if prevSpace && !IsSpace(s[0]) then 1 else 0) + StartsAfter(s[1..], IsSpace(s[0]))
  }

  /** Number of indices `i` with `s[i]` not whitespace and `i == 0` or `s[i-1]` whitespace. */
  function WordStarts(s: string): nat
  {
    StartsAfter(s, true)
  }

  lemma {:induction false} StartsInsideToken(s: string, k: nat)
    requires 1 <= k <= TokenLen(s)
    ensures StartsAfter(s[k..], false) == StartsAfter(s[TokenLen(s)..], false)
    decreases TokenLen(s) - k
  {
    var n := TokenLen(s);
    if k < n {
      assert s[..n][k] == s[k];
      assert s[k..][1..] == s[k + 1..];
      StartsInsideToken(s, k + 1);
    }
  }

  lemma StartsAtBoundary(t: string)
    requires t == [] || IsSpace(t[0])
    ensures StartsAfter(t, false) == StartsAfter(t, true)
  {
  }

  /** The number of words `split()` yields equals the number of word starts. */
  lemma {:induction false} WordCountIsStarts(s: string)
    ensures |Words(s)| == WordStarts(s)
    decreases |s|
  {
    if |s| > 0 {
      if IsSpace(s[0]) {
        WordCountIsStarts(s[1..]);
      } else {
        var n := TokenLen(s);
        assert s[..n][0] == s[0];
        WordCountIsStarts(s[n..]);
        StartsInsideToken(s, 1);
        StartsAtBoundary(s[n..]);
      }
    }
  }

  // ---------------------------------------------------------------------------
  // Splitting on one character and joining
  // ---------------------------------------------------------------------------

  /** Python's `sep.join(parts)` and JavaScript's `parts.join(sep)`. */
  function Join(parts: seq<string>, sep: string): string
  {
    if |parts| == 0 then []
    else if |parts| == 1 then parts[0]
    else parts[0] + sep + Join(parts[1..], sep)
  }

  lemma JoinTwo(a: string, b: string, sep: string)
    ensures Join([a, b], sep) == a + sep + b
  {
    assert [a, b][1..] == [b];
  }

  lemma JoinThree(a: string, b: string, c: string, sep: string)
    ensures Join([a, b, c], sep) == a + sep + b + sep + c
  {
    assert [a, b, c][1..] == [b, c];
    JoinTwo(b, c, sep);
  }

  /** `s.split(c)` in Python and JavaScript for a one-character separator. */
  function Split(s: string, c: char): (parts: seq<string>)
    ensures |parts| >= 1
    ensures forall i :: 0 <= i < |parts| ==> c !in parts[i]
    ensures Join(parts, [c]) == s
    decreases |s|
  {
    if |s| == 0 then [[]]
    else
      var rest := Split(s[1..], c);
      if s[0] == c then
        assert s == [c] + s[1..];
        [[]] + rest
      else
        var parts := [[s[0]] + rest[0]] + rest[1..];
        assert parts[1..] == rest[1..];
        assert s == [s[0]] + s[1..];
        parts
  }

  lemma {:induction false} SplitAfterSeparator(x: string, y: string, c: char)
    requires c !in x
    ensures Split(x + [c] + y, c) == [x] + Split(y, c)
    decreases |x|
  {
    if |x| == 0 {
      assert x + [c] + y == [c] + y;
      assert ([c] + y)[1..] == y;
    } else {
      assert (x + [c] + y)[1..] == x[1..] + [c] + y;
      SplitAfterSeparator(x[1..], y, c);
      assert [x[0]] + x[1..] == x;
    }
  }

  lemma {:induction false} SplitWithoutSeparator(x: string, c: char)
    requires c !in x
    ensures Split(x, c) == [x]
    decreases |x|
  {
    if |x| > 0 {
      SplitWithoutSeparator(x[1..], c);
      assert [x[0]] + x[1..] == x;
    }
  }

  /** Joining separator-free parts and splitting again gives the parts back. */
  lemma {:induction false} SplitJoinRoundTrip(parts: seq<string>, c: char)
    requires |parts| >= 1
    requires forall i :: 0 <= i < |parts| ==> c !in parts[i]
    ensures Split(Join(parts, [c]), c) == parts
    decreases |parts|
  {
    if |parts| == 1 {
      SplitWithoutSeparator(parts[0], c);
    } else {
      SplitJoinRoundTrip(parts[1..], c);
      SplitAfterSeparator(parts[0], Join(parts[1..], [c]), c);
      assert [parts[0]] + parts[1..] == parts;
    }
  }

  /** The pieces of every part split on `c`, one part after the other. */
  function SplitEach(parts: seq<string>, c: char): seq<string>
    decreases |parts|
  {
    if |parts| == 0 then [] else Split(parts[0], c) + SplitEach(parts[1..], c)
  }

  /** Splitting around one separator splits each side on its own. */
  lemma {:induction false} SplitAround(x: string, y: string, c: char)
    ensures Split(x + [c] + y, c) == Split(x, c) + Split(y, c)
    decreases |x|
  {
    if |x| == 0 {
      assert x + [c] + y == [c] + y;
      assert ([c] + y)[1..] == y;
    } else {
      assert (x + [c] + y)[0] == x[0];
      assert (x + [c] + y)[1..] == x[1..] + [c] + y;
      SplitAround(x[1..], y, c);
    }
  }

  /** Splitting joined parts gives the pieces of each part in order, whatever the parts hold. */
  lemma {:induction false} SplitJoin(parts: seq<string>, c: char)
    requires |parts| >= 1
    ensures Split(Join(parts, [c]), c) == SplitEach(parts, c)
    decreases |parts|
  {
    if |parts| == 1 {
      assert parts[1..] == [];
    } else {
      SplitJoin(parts[1..], c);
      SplitAround(parts[0], Join(parts[1..], [c]), c);
    }
  }

  /** A joined text starts with its first part. */
  lemma JoinStartsWithFirst(parts: seq<string>, sep: string)
    requires |parts| >= 1
    ensures StartsWith(Join(parts, sep), parts[0])
  {
    JoinPrefix(parts, 1, sep);
    assert parts[..1] == [parts[0]];
  }

  /** Lines without the separator character are read back by splitting on it. */
  lemma SplitJoinLines(parts: seq<string>, c: char)
    requires |parts| >= 1
    ensures (forall i :: 0 <= i < |parts| ==> c !in parts[i]) ==> Split(Join(parts, [c]), c) == parts
  {
    if forall i :: 0 <= i < |parts| ==> c !in parts[i] {
      SplitJoinRoundTrip(parts, c);
    }
  }

  /** Joining the first `k` parts yields a prefix of joining all of them. */
  lemma {:induction false} JoinPrefix(parts: seq<string>, k: nat, sep: string)
    requires k <= |parts|
    ensures StartsWith(Join(parts, sep), Join(parts[..k], sep))
    decreases k
  {
    if k > 1 {
      assert parts[..k][1..] == parts[1..][..k - 1];
      JoinPrefix(parts[1..], k - 1, sep);
    } else if k == 1 && |parts| > 1 {
      assert parts[..k] == [parts[0]];
    } else if k == 1 {
      assert parts[..k] == parts;
    }
  }

  // ---------------------------------------------------------------------------
  // Prefixes
  // ---------------------------------------------------------------------------

  /** Python's `s.startswith(p)`. */
  predicate StartsWith(s: string, p: string)
  {
    |p| <= |s| && s[..|p|] == p
  }

  /** Python's `s[:n]` for a non-negative `n`. */
  function Take<T>(s: seq<T>, n: nat): (r: seq<T>)
    ensures |r| == Min(n, |s|) && r == s[..|r|]
  {
    if n <= |s| then s[..n] else s
  }

  /** Python's `s.split(sep)[0]`: the text before the first occurrence of `sep`, or all of `s`. */
  function Before(s: string, sep: string): (r: string)
    requires |sep| > 0
    ensures StartsWith(s, r)
    ensures forall k :: 0 <= k < |r| ==> !StartsWith(s[k..], sep)
    ensures r == s || StartsWith(s[|r|..], sep)
    decreases |s|
  {
    if |s| == 0 || StartsWith(s, sep) then []
    else
      var r := [s[0]] + Before(s[1..], sep);
      assert forall k :: 1 <= k < |r| ==> s[k..] == s[1..][k - 1..];
      r
  }

  // ---------------------------------------------------------------------------
  // Character classes and per-character maps
  // ---------------------------------------------------------------------------

  predicate IsAsciiDigit(c: char) { '0' <= c <= '9' }

  predicate IsAsciiAlnum(c: char)
  {
    IsAsciiDigit(c) || ('a' <= c <= 'z') || ('A' <= c <= 'Z')
  }

  function LowerChar(c: char): (d: char)
    ensures 'A' <= c <= 'Z' ==> 'a' <= d <= 'z'
    ensures !('A' <= c <= 'Z') ==> d == c
  {
    if 'A' <= c <= 'Z' then (c as int + 32) as char else c
  }

  /** `s.lower()` restricted to ASCII letters. */
  function Lower(s: string): (r: string)
    ensures |r| == |s|
    ensures forall k :: 0 <= k < |s| ==> r[k] == LowerChar(s[k])
  {
    seq(|s|, k requires 0 <= k < |s| => LowerChar(s[k]))
  }

  /** `s.replace(a, b)` for single characters (Python) and `s.replace(/a/g, b)` (JavaScript). */
  function ReplaceChar(s: string, a: char, b: char): (r: string)
    ensures |r| == |s|
    ensures forall k :: 0 <= k < |s| ==> r[k] == (if s[k] == a then b else s[k])
  {
    seq(|s|, k requires 0 <= k < |s| => if s[k] == a then b else s[k])
  }

  // ---------------------------------------------------------------------------
  // Decimal rendering
  // ---------------------------------------------------------------------------

  predicate IsDigits(s: string)
  {
    forall k :: 0 <= k < |s| ==> IsAsciiDigit(s[k])
  }

  function DigitChar(d: nat): (c: char)
    requires d < 10
    ensures IsAsciiDigit(c) && c as int - '0' as int == d
  {
    (d + 48) as char
  }

  /** The value of a string of decimal digits. */
  function ParseNat(s: string): nat
    requires IsDigits(s)
  {
    if |s| == 0 then 0 else ParseNat(s[..|s| - 1]) * 10 + (s[|s| - 1] as int - '0' as int)
  }

  /** The digits of an integer literal as Python's `int()` reads them: ASCII digits,
      where a single underscore may separate two digits. */
  predicate IsDigitGroups(s: string)
  {
    && |s| >= 1 && IsAsciiDigit(s[0]) && IsAsciiDigit(s[|s| - 1])
    && (forall k :: 0 <= k < |s| ==> IsAsciiDigit(s[k]) || s[k] == '_')
    && (forall k :: 0 <= k < |s| - 1 && s[k] == '_' ==> s[k + 1] != '_')
  }

  /** The text with its underscores removed. */
  function DropUnderscores(s: string): (r: string)
    ensures (forall k :: 0 <= k < |s| ==> IsAsciiDigit(s[k]) || s[k] == '_') ==> IsDigits(r)
    ensures IsDigits(s) ==> r == s
    ensures |r| <= |s|
    decreases |s|
  {
    if |s| == 0 then []
    else
      var rest := DropUnderscores(s[1..]);
      if s[0] == '_' then rest else [s[0]] + rest
  }

  /** Text `int()` accepts once stripped: an optional sign, then digit groups. */
  predicate IsIntText(t: string)
  {
    IsDigitGroups(t) || (|t| >= 1 && (t[0] == '-' || t[0] == '+') && IsDigitGroups(t[1..]))
  }

  /** Python's `int(t)` for text without surrounding whitespace, `None` where it raises
      `ValueError`. */
  function ParseInt(t: string): (r: Option<int>)
    ensures r.Some? <==> IsIntText(t)
    ensures IsDigits(t) && t != [] ==> r == Some(ParseNat(t))
    ensures r.Some? && t[0] == '-' ==> r.value <= 0
    ensures r.Some? && t[0] != '-' ==> r.value >= 0
    ensures r.Some? && t[0] == '-' ==> ParseInt(t[1..]) == Some(-r.value)
    ensures r.Some? && t[0] == '+' ==> ParseInt(t[1..]) == r
    decreases |t|
  {
    if IsDigitGroups(t) then Some(ParseNat(DropUnderscores(t)))
    else if |t| >= 1 && (t[0] == '-' || t[0] == '+') && IsDigitGroups(t[1..]) then
      var v: int := ParseNat(DropUnderscores(t[1..])); Some(if t[0] == '-' then 0 - v else v)
    else None
  }

  /** Underscores between digits are accepted and ignored. */
  lemma ParseIntUnderscore()
    ensures ParseInt("1_234") == Some(1234)
  {
    assert IsDigitGroups("1_234");
    assert DropUnderscores("1_234") == "1234";
    assert ParseNat("1234") == 1234 by {
      assert "1234"[..3] == "123";
      assert "123"[..2] == "12";
      assert "12"[..1] == "1";
    }
  }

  lemma ParseIntSignedUnderscore()
    ensures ParseInt("-4_2") == Some(-42)
  {
    assert "-4_2"[1..] == "4_2";
    assert IsDigitGroups("4_2");
    assert DropUnderscores("4_2") == "42";
    assert ParseNat("42") == 42 by { assert "42"[..1] == "4"; }
  }

  /** A doubled, leading or trailing underscore makes the text invalid. */
  lemma ParseIntBadUnderscores()
    ensures ParseInt("1__2") == None
    ensures ParseInt("_12") == None
    ensures ParseInt("12_") == None
  {
    assert !IsDigitGroups("1__2") by { assert "1__2"[1] == '_' && "1__2"[2] == '_'; }
  }

  /** `str(n)` for a natural number: shortest decimal digits. */
  function NatToString(n: nat): (s: string)
    ensures |s| >= 1 && IsDigits(s)
    ensures ParseNat(s) == n
    ensures s[0] == '0' ==> n == 0
    decreases n
  {
    if n < 10 then [DigitChar(n)]
    else
      var s := NatToString(n / 10) + [DigitChar(n % 10)];
      assert s[..|s| - 1] == NatToString(n / 10);
      s
  }

  function Zeros(k: nat): (z: string)
    ensures |z| == k && IsDigits(z)
    ensures forall i :: 0 <= i < k ==> z[i] == '0'
  {
    seq(k, i => '0')
  }

  lemma {:induction false} ParseLeadingZeros(z: string, s: string)
    requires IsDigits(z) && IsDigits(s)
    requires forall i :: 0 <= i < |z| ==> z[i] == '0'
    ensures IsDigits(z + s) && ParseNat(z + s) == ParseNat(s)
    decreases |s|
  {
    if |s| == 0 {
      assert z + s == z;
      ZerosParseToZero(z);
    } else {
      assert (z + s)[..|z + s| - 1] == z + s[..|s| - 1];
      ParseLeadingZeros(z, s[..|s| - 1]);
    }
  }

  lemma {:induction false} ZerosParseToZero(z: string)
    requires forall i :: 0 <= i < |z| ==> z[i] == '0'
    ensures IsDigits(z) && ParseNat(z) == 0
    decreases |z|
  {
    if |z| > 0 {
      ZerosParseToZero(z[..|z| - 1]);
    }
  }

  /** Python's `f"{n:0{w}d}"` for `n >= 0`: at least `w` digits, zero-padded on the left. */
  function ZeroPad(n: nat, w: nat): (r: string)
    ensures IsDigits(r) && ParseNat(r) == n
    ensures |r| == Max(w, |NatToString(n)|)
  {
    var d := NatToString(n);
    var z := Zeros(if w > |d| then w - |d| else 0);
    ParseLeadingZeros(z, d);
    z + d
  }

  /** Python's `f"{n:0{w}d}"` for any integer: the sign takes one of the `w` columns. */
  function FormatInt(n: int, w: nat): (r: string)
    ensures n >= 0 ==> r == ZeroPad(n, w)
    ensures n < 0 ==> |r| >= 2 && r[0] == '-' && IsDigits(r[1..]) && ParseNat(r[1..]) == -n
  {
    if n >= 0 then ZeroPad(n, w)
    else
      var r := "-" + ZeroPad(-n, if w > 0 then w - 1 else 0);
      assert r[1..] == ZeroPad(-n, if w > 0 then w - 1 else 0);
      r
  }

  // ---------------------------------------------------------------------------
  // Code-point ordering and sorting
  // ---------------------------------------------------------------------------

  /** Python's `<` on `str`: lexicographic by code point, a proper prefix first. */
  predicate Less(a: string, b: string)
    decreases |a|
  {
    if |a| == 0 then |b| > 0
    else if |b| == 0 then false
    else if a[0] != b[0] then a[0] < b[0]
    else Less(a[1..], b[1..])
  }

  predicate LessEq(a: string, b: string)
  {
    a == b || Less(a, b)
  }

  lemma {:induction false} LessIrreflexive(a: string)
    ensures !Less(a, a)
    decreases |a|
  {
    if |a| > 0 {
      LessIrreflexive(a[1..]);
    }
  }

  lemma {:induction false} LessTransitive(a: string, b: string, c: string)
    requires Less(a, b) && Less(b, c)
    ensures Less(a, c)
    decreases |a|
  {
    if |a| > 0 && a[0] == b[0] && b[0] == c[0] {
      LessTransitive(a[1..], b[1..], c[1..]);
    }
  }

  lemma {:induction false} LessTotal(a: string, b: string)
    ensures a == b || Less(a, b) || Less(b, a)
    decreases |a|
  {
    if |a| > 0 && |b| > 0 && a[0] == b[0] {
      LessTotal(a[1..], b[1..]);
      if a[1..] == b[1..] {
        assert a == [a[0]] + a[1..] && b == [b[0]] + b[1..];
      }
    }
  }

  lemma LessAsymmetric(a: string, b: string)
    requires Less(a, b)
    ensures !Less(b, a) && a != b
  {
    LessIrreflexive(a);
    if Less(b, a) {
      LessTransitive(a, b, a);
    }
  }

  lemma LessEqTransitive(a: string, b: string, c: string)
    requires LessEq(a, b) && LessEq(b, c)
    ensures LessEq(a, c)
  {
    if a != b && b != c {
      LessTransitive(a, b, c);
    }
  }

  predicate Sorted(s: seq<string>)
  {
    forall i, j :: 0 <= i < j < |s| ==> LessEq(s[i], s[j])
  }

  predicate StrictlySorted(s: seq<string>)
  {
    forall i, j :: 0 <= i < j < |s| ==> Less(s[i], s[j])
  }

  function Insert(x: string, s: seq<string>): (r: seq<string>)
    requires Sorted(s)
    ensures Sorted(r)
    ensures multiset(r) == multiset(s) + multiset{x}
    decreases |s|
  {
    if |s| == 0 then [x]
    else if LessEq(x, s[0]) then
      InsertFront(x, s);
      [x] + s
    else
      LessTotal(x, s[0]);
      var tail := Insert(x, s[1..]);
      InsertBehind(x, s, tail);
      [s[0]] + tail
  }

  lemma InsertFront(x: string, s: seq<string>)
    requires Sorted(s) && |s| > 0 && LessEq(x, s[0])
    ensures Sorted([x] + s)
  {
    forall j | 0 <= j < |s| ensures LessEq(x, s[j]) {
      LessEqTransitive(x, s[0], s[j]);
    }
  }

  lemma InsertBehind(x: string, s: seq<string>, tail: seq<string>)
    requires Sorted(s) && |s| > 0 && Less(s[0], x)
    requires Sorted(tail) && multiset(tail) == multiset(s[1..]) + multiset{x}
    ensures Sorted([s[0]] + tail)
    ensures multiset([s[0]] + tail) == multiset(s) + multiset{x}
  {
    forall k | 0 <= k < |tail| ensures LessEq(s[0], tail[k]) {
      assert tail[k] in multiset(tail);
      if tail[k] != x {
        assert tail[k] in s[1..];
        var j :| 0 <= j < |s[1..]| && s[1..][j] == tail[k];
        assert s[1 + j] == tail[k];
      }
    }
    assert s == [s[0]] + s[1..];
  }

  /** Python's `sorted` on a list of strings. */
  function Sort(xs: seq<string>): (r: seq<string>)
    ensures Sorted(r)
    ensures multiset(r) == multiset(xs)
  {
    if |xs| == 0 then []
    else
      assert xs == [xs[0]] + xs[1..];
      Insert(xs[0], Sort(xs[1..]))
  }

  function InsertUnique(x: string, s: seq<string>): (r: seq<string>)
    requires StrictlySorted(s)
    ensures StrictlySorted(r)
    ensures forall y :: y in r <==> y == x || y in s
    decreases |s|
  {
    if |s| == 0 then [x]
    else if x == s[0] then s
    else if Less(x, s[0]) then
      InsertUniqueFront(x, s);
      [x] + s
    else
      LessTotal(x, s[0]);
      var tail := InsertUnique(x, s[1..]);
      InsertUniqueBehind(x, s, tail);
      [s[0]] + tail
  }

  lemma InsertUniqueFront(x: string, s: seq<string>)
    requires StrictlySorted(s) && |s| > 0 && Less(x, s[0])
    ensures StrictlySorted([x] + s)
  {
    forall j | 1 <= j < |s| ensures Less(x, s[j]) {
      LessTransitive(x, s[0], s[j]);
    }
  }

  lemma InsertUniqueBehind(x: string, s: seq<string>, tail: seq<string>)
    requires StrictlySorted(s) && |s| > 0 && Less(s[0], x)
    requires StrictlySorted(tail) && forall y :: y in tail <==> y == x || y in s[1..]
    ensures StrictlySorted([s[0]] + tail)
    ensures forall y :: y in [s[0]] + tail <==> y == x || y in s
  {
    forall k | 0 <= k < |tail| ensures Less(s[0], tail[k]) {
      assert tail[k] in tail;
      if tail[k] != x {
        var j :| 0 <= j < |s[1..]| && s[1..][j] == tail[k];
        assert s[1 + j] == tail[k];
      }
    }
    assert s == [s[0]] + s[1..];
  }

  /** Python's `sorted(set(xs))`: the distinct elements of `xs` in ascending order. */
  function SortedUnique(xs: seq<string>): (r: seq<string>)
    ensures StrictlySorted(r)
    ensures forall y :: y in r <==> y in xs
  {
    if |xs| == 0 then []
    else
      assert xs == [xs[0]] + xs[1..];
      InsertUnique(xs[0], SortedUnique(xs[1..]))
  }

  /** A strictly sorted sequence has no repeated element. */
  lemma StrictlySortedDistinct(s: seq<string>)
    requires StrictlySorted(s)
    ensures forall i, j :: 0 <= i < j < |s| ==> s[i] != s[j]
  {
    forall i, j | 0 <= i < j < |s| ensures s[i] != s[j] {
      LessIrreflexive(s[i]);
    }
  }

  // ---------------------------------------------------------------------------
  // Digit strings under string order
  // ---------------------------------------------------------------------------

  function Pow10(n: nat): nat
  {
    if n == 0 then 1 else 10 * Pow10(n - 1)
  }

  /** `str(n)` has at most `k` digits when `n < 10^k`. */
  lemma {:induction false} NatToStringShort(n: nat, k: nat)
    requires k >= 1 && n < Pow10(k)
    ensures |NatToString(n)| <= k
    decreases n
  {
    if n >= 10 {
      assert Pow10(1) == 10;
      NatToStringShort(n / 10, k - 1);
    }
  }

  /** A digit string of length `k` denotes a number below `10^k`. */
  lemma {:induction false} ParseNatBound(s: string)
    requires IsDigits(s)
    ensures ParseNat(s) < Pow10(|s|)
    decreases |s|
  {
    if |s| > 0 {
      ParseNatBound(s[..|s| - 1]);
    }
  }

  lemma ShiftDigitStep(d: int, p: int, q: int, last: int)
    ensures (d * p + q) * 10 + last == d * (10 * p) + (q * 10 + last)
  {
  }

  /** Reading a digit string from the front: the first digit is worth `10^(k-1)`. */
  lemma {:induction false} ParseNatFront(s: string)
    requires IsDigits(s) && |s| >= 1
    ensures ParseNat(s) == (s[0] as int - '0' as int) * Pow10(|s| - 1) + ParseNat(s[1..])
    decreases |s|
  {
    if |s| > 1 {
      var init := s[..|s| - 1];
      var tail := s[1..];
      var last := s[|s| - 1] as int - '0' as int;
      ParseNatFront(init);
      assert init[1..] == tail[..|tail| - 1];
      assert tail[|tail| - 1] == s[|s| - 1];
      assert ParseNat(s) == ParseNat(init) * 10 + last;
      assert ParseNat(tail) == ParseNat(init[1..]) * 10 + last;
      assert Pow10(|s| - 1) == 10 * Pow10(|s| - 2);
      ShiftDigitStep(s[0] as int - '0' as int, Pow10(|s| - 2), ParseNat(init[1..]), last);
    }
  }

  lemma MulNextStep(d: int, e: int, p: int)
    requires d < e && p >= 0
    ensures e * p >= d * p + p
  {
    assert e * p == d * p + (e - d - 1) * p + p;
    assert (e - d - 1) * p >= 0;
  }

  /** Comparing `d*p + r` values whose remainders `r` are below `p` compares the `d`s. */
  lemma LeadingDigitOrder(da: int, db: int, p: int, ra: int, rb: int)
    requires 0 <= ra < p && 0 <= rb < p
    requires da * p + ra < db * p + rb
    ensures da <= db
  {
    if db < da {
      MulNextStep(db, da, p);
    }
  }

  /** For digit strings of equal length, string order is numeric order. */
  lemma {:induction false} DigitsOrder(a: string, b: string)
    requires IsDigits(a) && IsDigits(b) && |a| == |b|
    requires ParseNat(a) < ParseNat(b)
    ensures Less(a, b)
    decreases |a|
  {
    if |a| > 0 {
      ParseNatFront(a);
      ParseNatFront(b);
      ParseNatBound(a[1..]);
      ParseNatBound(b[1..]);
      var da := a[0] as int - '0' as int;
      var db := b[0] as int - '0' as int;
      LeadingDigitOrder(da, db, Pow10(|a| - 1), ParseNat(a[1..]), ParseNat(b[1..]));
      if a[0] == b[0] {
        DigitsOrder(a[1..], b[1..]);
      }
    }
  }

  /** A common prefix does not change the order of two strings. */
  lemma {:induction false} LessCommonPrefix(p: string, x: string, y: string)
    requires Less(x, y)
    ensures Less(p + x, p + y)
    decreases |p|
  {
    if |p| == 0 {
      assert p + x == x && p + y == y;
    } else {
      assert (p + x)[0] == p[0] == (p + y)[0];
      assert (p + x)[1..] == p[1..] + x;
      assert (p + y)[1..] == p[1..] + y;
      LessCommonPrefix(p[1..], x, y);
    }
  }

  /** Two ordered strings of equal length stay ordered whatever follows them. */
  lemma {:induction false} LessSameLength(a: string, b: string, s: string, t: string)
    requires |a| == |b| && Less(a, b)
    ensures Less(a + s, b + t)
    decreases |a|
  {
    if a[0] == b[0] {
      assert (a + s)[1..] == a[1..] + s;
      assert (b + t)[1..] == b[1..] + t;
      LessSameLength(a[1..], b[1..], s, t);
    }
  }

  /** Sorting a sequence that is already in order leaves it unchanged. */
  lemma {:induction false} SortOfSorted(xs: seq<string>)
    requires Sorted(xs)
    ensures Sort(xs) == xs
    decreases |xs|
  {
    if |xs| > 0 {
      var rest := xs[1..];
      assert Sorted(rest) by {
        forall i, j | 0 <= i < j < |rest| ensures LessEq(rest[i], rest[j]) {
          assert rest[i] == xs[i + 1] && rest[j] == xs[j + 1];
        }
      }
      SortOfSorted(rest);
      assert xs == [xs[0]] + rest;
      if |rest| > 0 {
        assert LessEq(xs[0], rest[0]) by { assert rest[0] == xs[1]; }
      }
    }
  }
}

=== FILE: transcriber.dfy ===
/** Transcription (`transcriber.py`): model-size validation, the per-file text
    clean-up of the speech model's output, WAV durations, and the stitching of
    per-chunk segments into one session timeline by cumulative duration offsets.
    The speech model is an input: each stored chunk carries the segments and the
    language it reports for that file. */
module Transcriber {
  import opened Base
  import opened Text
  import opened Models

  /** Model sizes in order of speed to accuracy. */
  const ModelSizes: seq<string> := ["tiny", "base", "small", "medium", "large-v3"]
  const DefaultModel: string := "base"

  datatype WhisperTranscriber = WhisperTranscriber(modelSize: string, device: string)

  /** The constructor: any size outside `ModelSizes` raises `ValueError`. */
  function NewTranscriber(modelSize: string, device: string): (r: Result<WhisperTranscriber>)
    ensures r.Ok? <==> modelSize in ModelSizes
    ensures r.Ok? ==> r.value.modelSize == modelSize && r.value.device == device
    ensures modelSize == DefaultModel ==> r.Ok?
  {
    if modelSize in ModelSizes then Ok(WhisperTranscriber(modelSize, device))
    else Err("ValueError: Invalid model size: " + modelSize)
  }

  /** One segment as the speech model yields it for a file. */
  datatype RawSegment = RawSegment(start: real, end: real, text: string, avgLogprob: real)

  /** What the speech model reports for one file: its segments and the detected language. */
  datatype WhisperOutput = WhisperOutput(segments: seq<RawSegment>, language: string)

  type Rate = r: nat | r > 0 witness 16000

  /** A WAV file on disk: its frame count and frame rate, and the speech model's output for it. */
  datatype WavChunk = WavChunk(nframes: nat, framerate: Rate, whisper: WhisperOutput)

  /** `_get_wav_duration`: frames over frame rate, in seconds. */
  function WavDuration(c: WavChunk): (d: real)
    ensures d >= 0.0
    ensures d * (c.framerate as real) == c.nframes as real
  {
    c.nframes as real / c.framerate as real
  }

  // ---------------------------------------------------------------------------
  // transcribe: one file
  // ---------------------------------------------------------------------------

  function Clean(seg: RawSegment, language: string): TranscriptSegment
  {
    TranscriptSegment(seg.start, seg.end, Strip(seg.text), language, seg.avgLogprob)
  }

  /** Number of raw segments whose text is not all whitespace. */
  function CountSpoken(raw: seq<RawSegment>): nat
  {
    if |raw| == 0 then 0
    else CountSpoken(raw[..|raw| - 1]) + (if Strip(raw[|raw| - 1].text) == [] then 0 else 1)
  }

  /** `transcribe`: each segment's text stripped, blank segments dropped, the file's
      language and the segment's average log-probability attached. */
  function Transcribe(out: WhisperOutput): (r: seq<TranscriptSegment>)
    ensures |r| == CountSpoken(out.segments)
    ensures forall k :: 0 <= k < |r| ==>
      && r[k].text != [] && Stripped(r[k].text)
      && r[k].language == out.language
    ensures r == CleanAll(SpokenOnly(out.segments), out.language)
  {
    TranscribeIsCleanedSpoken(out.segments, out.language);
    TranscribeRaw(out.segments, out.language)
  }

  function TranscribeRaw(raw: seq<RawSegment>, language: string): (r: seq<TranscriptSegment>)
    ensures |r| == CountSpoken(raw)
    ensures forall k :: 0 <= k < |r| ==>
      && r[k].text != [] && Stripped(r[k].text)
      && r[k].language == language
  {
    if |raw| == 0 then []
    else
      var init := TranscribeRaw(raw[..|raw| - 1], language);
      var last := raw[|raw| - 1];
      if Strip(last.text) == [] then init else init + [Clean(last, language)]
  }

  /** `f` applied to every segment, in order. */
  function MapSegments(raw: seq<RawSegment>, f: RawSegment -> TranscriptSegment): (r: seq<TranscriptSegment>)
    ensures |r| == |raw|
    ensures forall k :: 0 <= k < |raw| ==> r[k] == f(raw[k])
  {
    if |raw| == 0 then []
    else
      var init := raw[..|raw| - 1];
      var r := MapSegments(init, f) + [f(raw[|raw| - 1])];
      assert forall k :: 0 <= k < |init| ==> init[k] == raw[k];
      r
  }

  /** Every segment cleaned, none dropped. */
  function CleanAll(raw: seq<RawSegment>, language: string): (r: seq<TranscriptSegment>)
    ensures |r| == |raw|
    ensures forall k :: 0 <= k < |raw| ==> r[k] == Clean(raw[k], language)
  {
    MapSegments(raw, seg => Clean(seg, language))
  }

  /** The segments whose text is not all whitespace, in order: a filter from the front,
      independent of how `transcribe` builds its list. */
  function SpokenOnly(raw: seq<RawSegment>): (r: seq<RawSegment>)
    ensures |r| <= |raw|
    ensures forall x :: x in r ==> x in raw && Strip(x.text) != []
    ensures forall x :: x in raw && Strip(x.text) != [] ==> x in r
    decreases |raw|
  {
    if |raw| == 0 then []
    else
      var rest := SpokenOnly(raw[1..]);
      assert forall x :: x in raw ==> x == raw[0] || x in raw[1..];
      if Strip(raw[0].text) == [] then rest else [raw[0]] + rest
  }

  lemma {:induction false} SpokenOnlyAppend(a: seq<RawSegment>, b: seq<RawSegment>)
    ensures SpokenOnly(a + b) == SpokenOnly(a) + SpokenOnly(b)
    decreases |a|
  {
    if |a| == 0 {
      assert a + b == b;
    } else {
      assert (a + b)[0] == a[0];
      assert (a + b)[1..] == a[1..] + b;
      SpokenOnlyAppend(a[1..], b);
    }
  }

  lemma CleanAllAppend(a: seq<RawSegment>, b: seq<RawSegment>, language: string)
    ensures CleanAll(a + b, language) == CleanAll(a, language) + CleanAll(b, language)
    ensures |b| == 1 ==> CleanAll(a + b, language) == CleanAll(a, language) + [Clean(b[0], language)]
  {
    var l := CleanAll(a + b, language);
    var r := CleanAll(a, language) + CleanAll(b, language);
    assert |l| == |r|;
    forall k | 0 <= k < |l| ensures l[k] == r[k] {
      if k < |a| {
        assert (a + b)[k] == a[k];
      } else {
        assert (a + b)[k] == b[k - |a|];
      }
    }
  }

  /** `transcribe` is exactly the spoken segments, each cleaned: blank ones are dropped and
      nothing else is, and the order is kept. */
  lemma {:induction false} TranscribeIsCleanedSpoken(raw: seq<RawSegment>, language: string)
    ensures TranscribeRaw(raw, language) == CleanAll(SpokenOnly(raw), language)
    decreases |raw|
  {
    if |raw| > 0 {
      var init := raw[..|raw| - 1];
      var last := raw[|raw| - 1];
      TranscribeIsCleanedSpoken(init, language);
      SnocSplit(raw);
      SpokenOnlyAppend(init, [last]);
      SpokenOnlySingle(last);
      if Strip(last.text) == [] {
        assert SpokenOnly(raw) == SpokenOnly(init);
        assert TranscribeRaw(raw, language) == TranscribeRaw(init, language);
      } else {
        assert SpokenOnly(raw) == SpokenOnly(init) + [last];
        CleanAllAppend(SpokenOnly(init), [last], language);
        TranscribeRawSnoc(raw, language);
      }
    }
  }

  lemma SnocSplit<T>(s: seq<T>)
    requires |s| > 0
    ensures s == s[..|s| - 1] + [s[|s| - 1]]
  {
  }

  lemma SpokenOnlySingle(x: RawSegment)
    ensures SpokenOnly([x]) == if Strip(x.text) == [] then [] else [x]
  {
    assert [x][1..] == [];
  }

  /** When no segment text is blank, `transcribe` keeps every segment, in order, each
      one cleaned. */
  lemma {:induction false} TranscribeKeepsSpokenSegments(raw: seq<RawSegment>, language: string)
    requires forall k :: 0 <= k < |raw| ==> Strip(raw[k].text) != []
    ensures TranscribeRaw(raw, language) == CleanAll(raw, language)
    decreases |raw|
  {
    if |raw| > 0 {
      var init := raw[..|raw| - 1];
      forall k | 0 <= k < |init| ensures Strip(init[k].text) != [] {
        assert init[k] == raw[k];
      }
      TranscribeKeepsSpokenSegments(init, language);
      TranscribeRawSnoc(raw, language);
      assert CleanAll(raw, language) == CleanAll(init, language) + [Clean(raw[|raw| - 1], language)];
    }
  }

  /** A spoken last segment is appended, cleaned, to the transcript of the ones before it. */
  lemma TranscribeRawSnoc(raw: seq<RawSegment>, language: string)
    requires |raw| > 0 && Strip(raw[|raw| - 1].text) != []
    ensures TranscribeRaw(raw, language)
         == TranscribeRaw(raw[..|raw| - 1], language) + [Clean(raw[|raw| - 1], language)]
  {
  }

  // ---------------------------------------------------------------------------
  // transcribe_chunks: the session timeline
  // ---------------------------------------------------------------------------

  function ShiftSegment(seg: TranscriptSegment, offset: real): TranscriptSegment
  {
    seg.(start := seg.start + offset, end := seg.end + offset)
  }

  function Shift(segs: seq<TranscriptSegment>, offset: real): (r: seq<TranscriptSegment>)
    ensures |r| == |segs|
    ensures forall k :: 0 <= k < |segs| ==> r[k] == ShiftSegment(segs[k], offset)
    ensures forall k :: 0 <= k < |segs| ==>
      && r[k].start == segs[k].start + offset && r[k].end == segs[k].end + offset
      && r[k].text == segs[k].text && r[k].language == segs[k].language
      && r[k].probability == segs[k].probability
  {
    seq(|segs|, k requires 0 <= k < |segs| => ShiftSegment(segs[k], offset))
  }

  /** What stitching needs of an existing chunk: its measured duration and its cleaned
      segments, relative to the chunk's own start. */
  datatype ChunkText = ChunkText(duration: real, segments: seq<TranscriptSegment>)

  /** Every chunk on disk, measured and transcribed. */
  function Prepare(store: map<string, WavChunk>): (texts: map<string, ChunkText>)
    ensures texts.Keys == store.Keys
    ensures forall p :: p in store ==>
      texts[p] == ChunkText(WavDuration(store[p]), Transcribe(store[p].whisper))
  {
    map p | p in store :: ChunkText(WavDuration(store[p]), Transcribe(store[p].whisper))
  }

  /** Seconds of audio in the chunks of `paths` that exist. */
  function Elapsed(paths: seq<string>, texts: map<string, ChunkText>): real
  {
    if |paths| == 0 then 0.0
    else
      var p := paths[|paths| - 1];
      Elapsed(paths[..|paths| - 1], texts) + (if p in texts then texts[p].duration else 0.0)
  }

  /** Number of segments the existing chunks of `paths` contribute. */
  function SegmentCount(paths: seq<string>, texts: map<string, ChunkText>): nat
  {
    if |paths| == 0 then 0
    else
      var p := paths[|paths| - 1];
      SegmentCount(paths[..|paths| - 1], texts) + (if p in texts then |texts[p].segments| else 0)
  }

  /** The stitched timeline of `paths` in the given order: each existing chunk's segments
      shifted by the audio duration of the existing chunks before it; a missing chunk
      contributes neither segments nor time. */
  function Stitch(paths: seq<string>, texts: map<string, ChunkText>): (r: seq<TranscriptSegment>)
    ensures |r| == SegmentCount(paths, texts)
  {
    if |paths| == 0 then []
    else
      var init := paths[..|paths| - 1];
      var p := paths[|paths| - 1];
      if p in texts then Stitch(init, texts) + Shift(texts[p].segments, Elapsed(init, texts))
      else Stitch(init, texts)
  }

  lemma ShiftStep(segs: seq<TranscriptSegment>, offset: real, j: nat)
    requires j < |segs|
    ensures Shift(segs[..j + 1], offset) == Shift(segs[..j], offset) + [ShiftSegment(segs[j], offset)]
  {
    var a := Shift(segs[..j + 1], offset);
    var b := Shift(segs[..j], offset) + [ShiftSegment(segs[j], offset)];
    assert |a| == |b|;
    forall k | 0 <= k < |a| ensures a[k] == b[k] {
      if k < j {
        assert segs[..j + 1][k] == segs[..j][k];
      }
    }
  }

  /** One more path extends the timeline by that chunk's shifted segments and the clock by
      its duration, when the chunk exists; otherwise neither changes. */
  lemma StitchStep(paths: seq<string>, texts: map<string, ChunkText>, i: nat)
    requires i < |paths|
    ensures paths[i] in texts ==>
      && Stitch(paths[..i + 1], texts) == Stitch(paths[..i], texts) + Shift(texts[paths[i]].segments, Elapsed(paths[..i], texts))
      && Elapsed(paths[..i + 1], texts) == Elapsed(paths[..i], texts) + texts[paths[i]].duration
    ensures paths[i] !in texts ==>
      && Stitch(paths[..i + 1], texts) == Stitch(paths[..i], texts)
      && Elapsed(paths[..i + 1], texts) == Elapsed(paths[..i], texts)
  {
    assert paths[..i + 1][..i] == paths[..i];
  }

  /** The inner loop of `transcribe_chunks`: each segment of one chunk appended with
      its times moved by the chunk's offset. */
  method AppendShifted(acc: seq<TranscriptSegment>, segments: seq<TranscriptSegment>, offset: real)
    returns (all: seq<TranscriptSegment>)
    ensures all == acc + Shift(segments, offset)
  {
    all := acc;
    var j := 0;
    while j < |segments|
      invariant 0 <= j <= |segments|
      invariant all == acc + Shift(segments[..j], offset)
    {
      all := all + [ShiftSegment(segments[j], offset)];
      ShiftStep(segments, offset, j);
      j := j + 1;
    }
    assert segments[..j] == segments;
  }

  /** `transcribe_chunks`: visits the chunk paths in sorted order, skipping missing files,
      measuring and transcribing each existing one and accumulating the running offset. */
  method TranscribeChunks(chunkPaths: seq<string>, store: map<string, WavChunk>)
    returns (all: seq<TranscriptSegment>)
    ensures all == Stitch(Sort(chunkPaths), Prepare(store))
  {
    var paths := Sort(chunkPaths);
    var texts := Prepare(store);
    all := [];
    var offset := 0.0;
    var i := 0;
    while i < |paths|
      invariant 0 <= i <= |paths|
      invariant all == Stitch(paths[..i], texts)
      invariant offset == Elapsed(paths[..i], texts)
    {
      var p := paths[i];
      StitchStep(paths, texts, i);
      if p in store {
        var duration := WavDuration(store[p]);
        var segments := Transcribe(store[p].whisper);
        assert texts[p] == ChunkText(duration, segments);
        all := AppendShifted(all, segments, offset);
        offset := offset + duration;
      }
      i := i + 1;
    }
    assert paths[..i] == paths;
  }

  // ---------------------------------------------------------------------------
  // Properties of the stitched timeline
  // ---------------------------------------------------------------------------

  lemma {:induction false} StitchPrefix(paths: seq<string>, texts: map<string, ChunkText>, a: nat)
    requires a <= |paths|
    ensures |Stitch(paths[..a], texts)| <= |Stitch(paths, texts)|
    ensures Stitch(paths[..a], texts) == Stitch(paths, texts)[..|Stitch(paths[..a], texts)|]
    decreases |paths| - a
  {
    if a < |paths| {
      StitchPrefix(paths, texts, a + 1);
      assert paths[..a + 1][..a] == paths[..a];
    } else {
      assert paths[..a] == paths;
    }
  }

  /** Segment `j` of chunk `i` appears in the timeline shifted by the audio duration of the
      existing chunks before chunk `i`, right after everything those chunks contributed. */
  lemma StitchPlacesChunk(paths: seq<string>, texts: map<string, ChunkText>, i: nat, j: nat)
    requires i < |paths| && paths[i] in texts && j < |texts[paths[i]].segments|
    ensures |Stitch(paths[..i], texts)| + j < |Stitch(paths, texts)|
    ensures Stitch(paths, texts)[|Stitch(paths[..i], texts)| + j]
            == ShiftSegment(texts[paths[i]].segments[j], Elapsed(paths[..i], texts))
  {
    StitchPrefix(paths, texts, i + 1);
    assert paths[..i + 1][..i] == paths[..i];
  }

  /** The existing chunks of `paths`, in order. */
  function Existing(paths: seq<string>, texts: map<string, ChunkText>): (r: seq<string>)
    ensures forall k :: 0 <= k < |r| ==> r[k] in texts
  {
    if |paths| == 0 then []
    else
      var p := paths[|paths| - 1];
      Existing(paths[..|paths| - 1], texts) + (if p in texts then [p] else [])
  }

  /** Missing chunks change nothing: stitching only the existing ones gives the same
      timeline and the same elapsed time. */
  lemma {:induction false} StitchIgnoresMissing(paths: seq<string>, texts: map<string, ChunkText>)
    ensures Stitch(Existing(paths, texts), texts) == Stitch(paths, texts)
    ensures Elapsed(Existing(paths, texts), texts) == Elapsed(paths, texts)
    decreases |paths|
  {
    if |paths| > 0 {
      var init := paths[..|paths| - 1];
      var p := paths[|paths| - 1];
      StitchIgnoresMissing(init, texts);
      if p in texts {
        var e := Existing(init, texts) + [p];
        assert Existing(paths, texts) == e;
        assert e[..|e| - 1] == Existing(init, texts);
      } else {
        assert Existing(paths, texts) == Existing(init, texts);
      }
    }
  }

  /** A chunk whose audio yields no speech adds no segments but still advances the clock. */
  lemma SilentChunkAdvancesOffset(paths: seq<string>, texts: map<string, ChunkText>, p: string)
    requires p in texts && texts[p].segments == []
    ensures Stitch(paths + [p], texts) == Stitch(paths, texts)
    ensures Elapsed(paths + [p], texts) == Elapsed(paths, texts) + texts[p].duration
  {
    assert (paths + [p])[..|paths|] == paths;
  }

  /** The chunk's segments start in order, within the chunk's audio. */
  predicate WellTimed(c: ChunkText)
  {
    && 0.0 <= c.duration
    && (forall k :: 0 <= k < |c.segments| ==> 0.0 <= c.segments[k].start <= c.duration)
    && (forall k, l :: 0 <= k < l < |c.segments| ==> c.segments[k].start <= c.segments[l].start)
  }

  predicate StartsOrdered(segs: seq<TranscriptSegment>)
  {
    forall k, l :: 0 <= k < l < |segs| ==> segs[k].start <= segs[l].start
  }

  /** When every chunk's segments start in order within the chunk, the stitched timeline's
      start times never decrease, and none lies beyond the elapsed audio. */
  lemma {:induction false} StitchMonotone(paths: seq<string>, texts: map<string, ChunkText>)
    requires forall p :: p in texts ==> WellTimed(texts[p])
    ensures StartsOrdered(Stitch(paths, texts))
    ensures forall k :: 0 <= k < |Stitch(paths, texts)| ==> Stitch(paths, texts)[k].start <= Elapsed(paths, texts)
    decreases |paths|
  {
    if |paths| > 0 {
      var init := paths[..|paths| - 1];
      var p := paths[|paths| - 1];
      StitchMonotone(init, texts);
      if p in texts {
        var before := Stitch(init, texts);
        var e := Elapsed(init, texts);
        var shifted := Shift(texts[p].segments, e);
        assert WellTimed(texts[p]);
        assert forall k :: 0 <= k < |shifted| ==> e <= shifted[k].start <= e + texts[p].duration;
        var all := before + shifted;
        assert all == Stitch(paths, texts);
        forall k, l | 0 <= k < l < |all| ensures all[k].start <= all[l].start {
          if l < |before| {
            assert all[k] == before[k] && all[l] == before[l];
          } else if k < |before| {
            assert all[k] == before[k] && all[l] == shifted[l - |before|];
          } else {
            assert all[k] == shifted[k - |before|] && all[l] == shifted[l - |before|];
          }
        }
        forall k | 0 <= k < |all| ensures all[k].start <= Elapsed(paths, texts) {
          if k >= |before| {
            assert all[k] == shifted[k - |before|];
          } else {
            assert all[k] == before[k];
          }
        }
      }
    }
  }
}
